=== FILE: README.md ===
# Kg.Kyiv.Mathematics lane model in Dafny

This project models the core of Kg.Kyiv.Mathematics, a C# library of small fixed-size vectors: Int2, Int3, Int4 (int32 components) and Double2, Double3, Double4 (double components), plus the scalar helpers in `Meth`.

Every vector operation in the library moves its operands into a 4-lane hardware register (`Vector128<int>` or `Vector256<double>`), works lane by lane, and moves the result back. The model makes this explicit:

- `Lanes.Register` is a 4-lane register and `Lanes.Vec2`/`Vec3`/`Vec4` are the vectors (module `Lanes`, file `lanes.dfy`).
- Unchecked promotion (`AsVector128Unsafe`, `AsVector256Unsafe`) skips initialising the register. It is `VectorExtensions.AsRegisterUnsafe2`/`3`, which take the uninitialised register as an explicit, arbitrary *padding* argument for lanes N..3. Every as-written operation on Int2, Int3, Double2 and Double3 carries one padding argument per promoted operand.
- Demotion (`AsInt2`, `AsInt3`, `AsDouble2`, ...) takes the first N lanes. The four-component promotion is an exact bit cast.
- int32 lanes wrap modulo 2^32 (`Int32Arith`). Failures (an index out of range, a destination that is too short, a division fault, a stack overflow) are `Results.Result` values naming the error and, where the source names one, the parameter.
- The double lanes are an opaque element type `D`. Their arithmetic is an `Arith<D>` record of uninterpreted operations (`DoubleLanes`). Exact real arithmetic (`DoubleLanes.Exact`) is one instance, used to exhibit concrete values.
- The four-lane register operations the vectors call (element access, creation from a span, copying, dot, division) belong to the platform's register library. Their behaviour is stated once in `Registers`.
- `Meth`'s integer Min/Max/Clamp are modelled on unbounded integers, with a lemma that each integer width is preserved. Its double FloorToInt, CeilingToInt, EuclideanMod and WrapDegrees are modelled on exact reals. Only FloorToInt and CeilingToInt are range-restricted, to inputs whose `(int)` cast is defined; EuclideanMod takes any real with a nonzero divisor and WrapDegrees any real.

The central question is which public operations give results independent of the padding:

- Lane-wise arithmetic, indexing and the constructors from smaller vectors are independent of it (`VectorExtensions.LaneWise2`/`3`, and the contracts of each operation, which never mention the padding).
- Equality, Dot and integer division on Int2, Int3, Double2 and Double3 read it. The as-written members take the padding; the `...Logical` members are the intended behaviour. The lemmas named under "## Findings" exhibit the difference. LengthSquared promotes its operand once for each side of Dot, so its two paddings are independent and it can even be negative (`Double2Vector.LengthSquaredCanBeNegative`).

`Meth.Clamp` tests `x < min` before `x > max` (Meth.cs:82), so when min > max it returns min for x < min and max otherwise; `Meth.Clamp` states exactly that. Dot on Double2 and Double3 reads all four register lanes, which is the Dot finding below.

## Model

| member | source | states |
|---|---|---|
| VectorExtensions.AsRegisterUnsafe2 | src/Kg.Kyiv.Mathematics/VectorExtensions.cs:13-19 | Unchecked promotion of a two-component vector: lanes 0 and 1 hold X and Y, and lanes 2 and 3 are whatever the uninitialised register held, given as the padding argument |
| VectorExtensions.AsRegisterUnsafe3 | src/Kg.Kyiv.Mathematics/VectorExtensions.cs:21-27 | Unchecked promotion of a three-component vector: lanes 0 to 2 hold X, Y, Z and lane 3 is the padding argument |
| VectorExtensions.AsRegister2 | src/Kg.Kyiv.Mathematics/VectorExtensions.cs:9 | The intended checked promotion of Int2: lanes 2 and 3 are zero, and demoting gives back the vector |
| VectorExtensions.AsRegister3 | src/Kg.Kyiv.Mathematics/VectorExtensions.cs:10 | The intended checked promotion of Int3: lane 3 is zero, and demoting gives back the vector |
| VectorExtensions.AsRegister4 | src/Kg.Kyiv.Mathematics/VectorExtensions.cs:11 | The bit cast of an Int4 or Double4 into a register puts component i in lane i |
| VectorExtensions.AsVec2 | src/Kg.Kyiv.Mathematics/VectorExtensions.cs:47-52 | Demotion to Int2 (and Double2) reads component i from lane i for i < 2 |
| VectorExtensions.AsVec3 | src/Kg.Kyiv.Mathematics/VectorExtensions.cs:54-59 | Demotion to Int3 (and Double3) reads component i from lane i for i < 3 |
| VectorExtensions.AsVec4 | src/Kg.Kyiv.Mathematics/VectorExtensions.cs:61-71 | The bit casts AsInt4 and AsDouble4 read component i from lane i for all four lanes |
| VectorExtensions.RoundTrip2 | src/Kg.Kyiv.Mathematics/VectorExtensions.cs:47-52 | Demoting an unchecked promotion gives back the Int2 or Double2 whatever the padding, and lane i is component i |
| VectorExtensions.RoundTrip3 | src/Kg.Kyiv.Mathematics/VectorExtensions.cs:54-59 | Demoting an unchecked promotion gives back the Int3 or Double3 whatever the padding |
| VectorExtensions.Exact4 | src/Kg.Kyiv.Mathematics/VectorExtensions.cs:61-65 | Promotion and demotion of four-component vectors are inverse bit casts in both directions, lane i being component i, with no padding |
| VectorExtensions.DemoteReadsLowLanes | src/Kg.Kyiv.Mathematics/VectorExtensions.cs:47-59 | Two registers demote to the same two-component vector exactly when lanes 0 and 1 agree, and to the same three-component vector exactly when lanes 0 to 2 agree |
| VectorExtensions.LaneWise2 | src/Kg.Kyiv.Mathematics/VectorExtensions.cs:13-19 | Any lane-wise unary, binary or ternary operation on unchecked promotions, once demoted, depends only on the components, never on the padding |
| VectorExtensions.LaneWise3 | src/Kg.Kyiv.Mathematics/VectorExtensions.cs:21-27 | The same padding independence for three-component vectors |
| VectorExtensions.CheckedPromotion2NeverReturns | src/Kg.Kyiv.Mathematics/VectorExtensions.cs:9 | The checked promotion of Int2 and Int4.Create(Int2, z, w) call each other with the same argument, so at every stack depth the call ends in a stack overflow and never returns a register |
| VectorExtensions.CheckedPromotion3NeverReturns | src/Kg.Kyiv.Mathematics/VectorExtensions.cs:10 | The same for Int3 and Int4.Create(Int3, w) |
| VectorExtensions.AsVector128Int2AsWritten | src/Kg.Kyiv.Mathematics/VectorExtensions.cs:9 | The checked promotion of Int2 as written, through Int4.Create(value, 0, 0): its only failure is a stack overflow, and were it to return it would give the zero-padded register |
| VectorExtensions.Int4CreateFromInt2AsWritten | src/Kg.Kyiv.Mathematics/Int4.cs:137-141 | Int4.Create(Int2, z, w) as written, through the checked promotion: its only failure is a stack overflow, and were it to return it would give (X, Y, z, w) |
| VectorExtensions.AsVector128Int3AsWritten | src/Kg.Kyiv.Mathematics/VectorExtensions.cs:10 | The checked promotion of Int3 as written, through Int4.Create(value, 0): only a stack overflow, or the zero-padded register |
| VectorExtensions.Int4CreateFromInt3AsWritten | src/Kg.Kyiv.Mathematics/Int4.cs:144-147 | Int4.Create(Int3, w) as written: only a stack overflow, or (X, Y, Z, w) |
| Int32Arith.Add | src/Kg.Kyiv.Mathematics/Int2.cs:116 | One lane of integer `+`: the sum reduced into int32, congruent to the true sum modulo 2^32 |
| Int32Arith.Sub | src/Kg.Kyiv.Mathematics/Int2.cs:140 | One lane of binary `-`: the difference reduced into int32 modulo 2^32 |
| Int32Arith.Mul | src/Kg.Kyiv.Mathematics/Int2.cs:131 | One lane of `*`: the product reduced into int32 modulo 2^32 |
| Int32Arith.Neg | src/Kg.Kyiv.Mathematics/Int2.cs:143 | One lane of unary `-`: the true negation except for int.MinValue, reduced modulo 2^32 |
| Int32Arith.NegMinValue | src/Kg.Kyiv.Mathematics/Int2.cs:143 | Negating int.MinValue wraps back to int.MinValue |
| Int32Arith.SubUndoesAdd | src/Kg.Kyiv.Mathematics/Int2.cs:116-140 | Wrapping subtraction undoes wrapping addition for all int32 operands, overflow included |
| Int32Arith.NegIsSubFromZero | src/Kg.Kyiv.Mathematics/Int2.cs:143 | Wrapping negation is wrapping subtraction from zero |
| Int32Arith.UnsignedBoundCheck | src/Kg.Kyiv.Mathematics/Int2.cs:38 | The unsigned comparison `(uint)index >= Count` rejects exactly the negative indices and those at or above Count; `(uint)index > n` rejects the negative ones and those above n |
| Int32Arith.Div | src/Kg.Kyiv.Mathematics/Int2.cs:119 | One lane of integer `/`: a zero divisor fails with DivideByZero, int.MinValue / -1 fails with Overflow, otherwise the quotient truncates toward zero and the remainder is smaller than the divisor and has the dividend's sign |
| Int32Arith.DivByOne | src/Kg.Kyiv.Mathematics/Int2.cs:119 | Dividing by one never fails and returns the dividend |
| Registers.GetElement | src/Kg.Kyiv.Mathematics/Int4.cs:47 | Register element access, on which Int4 and Double4 rely: an index in [0, 4) gives that lane, any other index fails out of range |
| Registers.WithElement | src/Kg.Kyiv.Mathematics/Int4.cs:50 | Register element replacement: an index in [0, 4) replaces that lane only, any other index fails out of range |
| Registers.CreateFromSpan | src/Kg.Kyiv.Mathematics/Int4.cs:152 | Register creation from a span: fewer than four elements fail, otherwise the first four become the lanes |
| Registers.CopyTo | src/Kg.Kyiv.Mathematics/Int4.cs:53 | Register copy: a destination shorter than four fails, otherwise the lanes are written at the front and the rest is untouched |
| Registers.CopyToAt | src/Kg.Kyiv.Mathematics/Int4.cs:54 | Register copy at a start index: an index outside the array fails out of range, too few remaining slots fail as too short, otherwise exactly four slots change |
| Registers.TryCopyTo | src/Kg.Kyiv.Mathematics/Int4.cs:56 | Register copy that reports failure: false and nothing written when shorter than four |
| Registers.DivLanes | src/Kg.Kyiv.Mathematics/Int4.cs:95 | Lane-wise division of two registers as the x64 accelerated path does it: succeeds exactly when every lane is divisible, fails with DivideByZero exactly when some divisor lane is zero, otherwise Overflow |
| Registers.DivLanesInOrder | src/Kg.Kyiv.Mathematics/Int4.cs:95 | Lane-wise division as the software fallback does it: succeeds exactly when every lane is divisible, with the lane quotients; on failure the error is that of the first faulting lane, every earlier lane dividing cleanly |
| Registers.DivPathsAgree | src/Kg.Kyiv.Mathematics/Int4.cs:95 | The two division paths succeed on the same inputs with the same quotients, and raise different errors exactly when the fallback raises Overflow while some divisor lane is zero |
| Registers.DivPathsAgreeOnBroadcast | src/Kg.Kyiv.Mathematics/Int4.cs:98 | Dividing by a broadcast scalar, as every DivideScalar does, both division paths give the same result, errors included |
| Registers.DivPathsDiffer | src/Kg.Kyiv.Mathematics/Int4.cs:95 | (int.MinValue, 1, 1, 1) / (-1, 0, 1, 1) raises DivideByZero on the accelerated path and Overflow on the fallback |
| Meth.Min | src/Kg.Kyiv.Mathematics/Meth.cs:12-33 | The integer Min is at most both arguments and is one of them |
| Meth.Max | src/Kg.Kyiv.Mathematics/Meth.cs:47-68 | The integer Max is at least both arguments and is one of them |
| Meth.Clamp | src/Kg.Kyiv.Mathematics/Meth.cs:82-103 | With min <= max the result lies in [min, max], equals Min(Max(x, min), max), and is x itself when x is inside; with min > max it is min when x < min and max otherwise, because the comparison with min comes first |
| Meth.StaysInKind | src/Kg.Kyiv.Mathematics/Meth.cs:12-103 | For each of the eight integer widths, Min, Max and Clamp of values of that width give a value of that width, so modelling them on unbounded integers loses nothing |
| Meth.ClampIdempotent | src/Kg.Kyiv.Mathematics/Meth.cs:94 | With min <= max, clamping twice is clamping once |
| Meth.ClampExamples | src/Kg.Kyiv.Mathematics/Meth.cs:94 | Clamp(150, 0, 100) is 100, Clamp(-5, 0, 100) is 0 and Clamp(50, 0, 100) is 50 |
| Meth.Truncate | src/Kg.Kyiv.Mathematics/Meth.cs:179 | The `(int)` conversion of a double truncates toward zero: it is the largest integer not above a non-negative x and the smallest not below a negative x |
| Meth.ToInt32 | src/Kg.Kyiv.Mathematics/Meth.cs:179 | For a double in the int32 cast range the conversion is that truncation |
| Meth.FloorToInt | src/Kg.Kyiv.Mathematics/Meth.cs:179 | The corrected FloorToInt is the mathematical floor for every x in [-2^31, 2^31) |
| Meth.FloorToIntDomain | src/Kg.Kyiv.Mathematics/Meth.cs:179 | The intended FloorToInt accepts exactly the doubles whose `(int)` cast is defined and whose floor is an int32; -2^31 - 0.5 has a defined cast but a floor below int.MinValue |
| Meth.FloorToIntAsWritten | src/Kg.Kyiv.Mathematics/Meth.cs:179 | The written `(int)x - (x < 0.0 ? 1 : 0)`: the floor for x >= 0, and for negative x above int.MinValue a value r with r < x < r + 2, so it can fall a whole step below the floor |
| Meth.FloorToIntAsWrittenMisses | src/Kg.Kyiv.Mathematics/Meth.cs:179 | The written FloorToInt equals the floor exactly when x is not a negative integer; for a negative integer it is one less than the floor |
| Meth.FloorToIntAsWrittenExamples | src/Kg.Kyiv.Mathematics/Meth.cs:179 | FloorToInt(-2.0) is -3 as written and -2 corrected; at -2^31 the written version wraps to int.MaxValue; -2.5 and 2.5 give -3 and 2 |
| Meth.CeilingToInt | src/Kg.Kyiv.Mathematics/Meth.cs:197-202 | For x up to int.MaxValue the result r satisfies r - 1 < x <= r, the mathematical ceiling; just above int.MaxValue the increment wraps to int.MinValue |
| Meth.Remainder | src/Kg.Kyiv.Mathematics/Meth.cs:259-263 | The double `%` (exact here): smaller in magnitude than the divisor, zero or of the dividend's sign, and the dividend minus it is a whole multiple of the divisor |
| Meth.EuclideanMod | src/Kg.Kyiv.Mathematics/Meth.cs:259-263 | With y > 0 the result lies in [0, y); with y < 0 it lies in (2y, y) when the remainder was negative and in [0, -y) otherwise; in both cases x minus it is a whole multiple of y |
| Meth.EuclideanModNegativeDivisor | src/Kg.Kyiv.Mathematics/Meth.cs:259-263 | With a negative modulus a negative remainder moves further down: -1 mod -3 is -4, and 1 mod -3 is 1 |
| Meth.EuclideanModUnique | src/Kg.Kyiv.Mathematics/Meth.cs:259-263 | It is the only value in [0, y) that differs from x by a multiple of y, so it is the mathematical x mod y |
| Meth.WrapDegrees | src/Kg.Kyiv.Mathematics/Meth.cs:274 | The result lies in [0, 360) and differs from x by a whole number of turns |
| Meth.WrapDegreesExamples | src/Kg.Kyiv.Mathematics.Test/Program.cs:7-12 | 0, 180, -180, 360, 720 and -1024 degrees wrap to 0, 180, 180, 0, 0 and 56 |
| Int2Vector.CreateFromScalar | src/Kg.Kyiv.Mathematics/Int2.cs:159 | Every component is the value |
| Int2Vector.Create | src/Kg.Kyiv.Mathematics/Int2.cs:161 | The components are the arguments (X, Y) in order |
| Int2Vector.CreateFromSpan | src/Kg.Kyiv.Mathematics/Int2.cs:164-172 | Fails out of range on "values" exactly when the span has fewer than 2 elements; otherwise the first 2 elements, the rest ignored |
| Int2Vector.UnitsAreOneHot | src/Kg.Kyiv.Mathematics/Int2.cs:111-112 | Each unit vector is one on its own axis and zero elsewhere |
| Int2Vector.ValueBounds | src/Kg.Kyiv.Mathematics/Int2.cs:108-109 | MinValue and MaxValue bound every vector componentwise |
| Int2Vector.Get | src/Kg.Kyiv.Mathematics/Int2.cs:33-56 | Indices outside [0, 2) fail out of range on "index" whatever the padding; inside, the component at that index |
| Int2Vector.Set | src/Kg.Kyiv.Mathematics/Int2.cs:33-56 | Indices outside [0, 2) fail; inside, that component becomes the value and the others keep theirs |
| Int2Vector.GetAfterSet | src/Kg.Kyiv.Mathematics/Int2.cs:33-56 | Reading after a set returns the value set at that index and the old value at every other index, whatever the paddings |
| Int2Vector.CopyTo | src/Kg.Kyiv.Mathematics/Int2.cs:59-67 | An array shorter than 2 fails out of range on "array"; otherwise the components land in the first 2 slots and the rest are untouched |
| Int2Vector.CopyToAt | src/Kg.Kyiv.Mathematics/Int2.cs:70-83 | An index outside [0, length] fails on "index"; fewer than 2 slots after it fail on "array"; otherwise exactly the 2 slots from the index change |
| Int2Vector.CopyToSpan | src/Kg.Kyiv.Mathematics/Int2.cs:86-94 | A span shorter than 2 fails on "destination"; otherwise the first 2 slots are written, nothing else |
| Int2Vector.TryCopyTo | src/Kg.Kyiv.Mathematics/Int2.cs:97-106 | False with the span unchanged when it is shorter than 2; otherwise true with the components in front |
| Int2Vector.CopyThenCreate | src/Kg.Kyiv.Mathematics/Int2.cs:164-172 | Creating from whatever any successful copy wrote, at its start index, gives back the vector |
| Int2Vector.Add | src/Kg.Kyiv.Mathematics/Int2.cs:116 | Each of X, Y is the wrapping int32 sum, independent of the padding |
| Int2Vector.Subtract | src/Kg.Kyiv.Mathematics/Int2.cs:140 | Each component is the wrapping difference, independent of the padding |
| Int2Vector.Multiply | src/Kg.Kyiv.Mathematics/Int2.cs:131 | Each component is the wrapping product, independent of the padding |
| Int2Vector.Scale | src/Kg.Kyiv.Mathematics/Int2.cs:134 | Each component is multiplied, wrapping, by the scalar |
| Int2Vector.ScaleLeft | src/Kg.Kyiv.Mathematics/Int2.cs:137 | scalar * v multiplies each component by the scalar, as v * scalar does |
| Int2Vector.Negate | src/Kg.Kyiv.Mathematics/Int2.cs:143 | Each component is negated with wrap-around |
| Int2Vector.Min | src/Kg.Kyiv.Mathematics/Int2.cs:187 | Each component is at most both operands' and equals one of them |
| Int2Vector.Max | src/Kg.Kyiv.Mathematics/Int2.cs:178 | Each component is at least both operands' and equals one of them |
| Int2Vector.SubtractUndoesAdd | src/Kg.Kyiv.Mathematics/Int2.cs:140 | (a + b) - b is a for every a, b and every padding, overflow included |
| Int2Vector.NegateIsSubtractFromZero | src/Kg.Kyiv.Mathematics/Int2.cs:143 | -v is Zero - v |
| Int2Vector.Identities | src/Kg.Kyiv.Mathematics/Int2.cs:131 | Zero and One are the identities of + and *; v * s is v times the broadcast s, and s * v is v * s |
| Int2Vector.MinMaxPartition | src/Kg.Kyiv.Mathematics/Int2.cs:187 | Min and Max are symmetric and split each pair of components between them |
| Int2Vector.Divide | src/Kg.Kyiv.Mathematics/Int2.cs:119 | As written: succeeds only when X, Y and the padding lanes 2 and 3 all divide without fault, so a zero in the divisor's padding fails with DivideByZero; every other failure is Overflow (the accelerated path's priority); on success the components are the truncating quotients |
| Int2Vector.DivideScalar | src/Kg.Kyiv.Mathematics/Int2.cs:122 | As written: the padding lanes 2 and 3 are divided by the scalar too, so int.MinValue padding over -1 fails; DivideByZero exactly for a zero scalar, and every other failure is Overflow |
| Int2Vector.DivideLogical | src/Kg.Kyiv.Mathematics/Int2.cs:119 | As intended: fails exactly when a component's division faults, DivideByZero exactly when a divisor component is zero, otherwise the truncating quotients |
| Int2Vector.DivideScalarLogical | src/Kg.Kyiv.Mathematics/Int2.cs:122 | As intended: fails exactly when a component's division by the scalar faults, with DivideByZero exactly for a zero scalar and Overflow otherwise |
| Int2Vector.DivideScalarIsDivideByBroadcast | src/Kg.Kyiv.Mathematics/Int2.cs:122 | Dividing by a scalar is dividing by its broadcast, and dividing by One gives the vector back |
| Int2Vector.DividePaddingFaults | src/Kg.Kyiv.Mathematics/Int2.cs:119 | Concrete paddings make a well-defined division fail: a zero padding in the divisor gives DivideByZero and an int.MinValue padding over -1 gives Overflow, while the intended division succeeds |
| Int2Vector.Equal | src/Kg.Kyiv.Mathematics/Int2.cs:125 | As written: true exactly when the components agree and the two operands' padding lanes 2 and 3 agree too |
| Int2Vector.EqualLogical | src/Kg.Kyiv.Mathematics/Int2.cs:125 | As intended: true exactly when the components agree |
| Int2Vector.EqualReadsPadding | src/Kg.Kyiv.Mathematics/Int2.cs:201-204 | A vector compares unequal to itself whenever the paddings of the two operands differ, while the intended equality holds |
| Int3Vector.CreateFromScalar | src/Kg.Kyiv.Mathematics/Int3.cs:168 | Every component is the value |
| Int3Vector.Create | src/Kg.Kyiv.Mathematics/Int3.cs:176 | The components are the arguments (X, Y, Z) in order |
| Int3Vector.CreateFromInt2 | src/Kg.Kyiv.Mathematics/Int3.cs:170-174 | Create(Int2 v, z) is (v.X, v.Y, z) for every padding of the unchecked promotion, since the one padding lane read back is overwritten |
| Int3Vector.CreateFromSpan | src/Kg.Kyiv.Mathematics/Int3.cs:178-187 | Fails out of range on "values" exactly when the span has fewer than 3 elements; otherwise the first 3 elements, the rest ignored |
| Int3Vector.UnitsAreOneHot | src/Kg.Kyiv.Mathematics/Int3.cs:117-119 | Each unit vector is one on its own axis and zero elsewhere |
| Int3Vector.ValueBounds | src/Kg.Kyiv.Mathematics/Int3.cs:114-115 | MinValue and MaxValue bound every vector componentwise |
| Int3Vector.Get | src/Kg.Kyiv.Mathematics/Int3.cs:39-62 | Indices outside [0, 3) fail out of range on "index" whatever the padding; inside, the component at that index |
| Int3Vector.Set | src/Kg.Kyiv.Mathematics/Int3.cs:39-62 | Indices outside [0, 3) fail; inside, that component becomes the value and the others keep theirs |
| Int3Vector.GetAfterSet | src/Kg.Kyiv.Mathematics/Int3.cs:39-62 | Reading after a set returns the value set at that index and the old value at every other index, whatever the paddings |
| Int3Vector.CopyTo | src/Kg.Kyiv.Mathematics/Int3.cs:64-73 | An array shorter than 3 fails out of range on "array"; otherwise the components land in the first 3 slots and the rest are untouched |
| Int3Vector.CopyToAt | src/Kg.Kyiv.Mathematics/Int3.cs:75-89 | An index outside [0, length] fails on "index"; fewer than 3 slots after it fail on "array"; otherwise exactly the 3 slots from the index change |
| Int3Vector.CopyToSpan | src/Kg.Kyiv.Mathematics/Int3.cs:91-100 | A span shorter than 3 fails on "destination"; otherwise the first 3 slots are written, nothing else |
| Int3Vector.TryCopyTo | src/Kg.Kyiv.Mathematics/Int3.cs:102-112 | False with the span unchanged when it is shorter than 3; otherwise true with the components in front |
| Int3Vector.CopyThenCreate | src/Kg.Kyiv.Mathematics/Int3.cs:178-187 | Creating from whatever any successful copy wrote, at its start index, gives back the vector |
| Int3Vector.Add | src/Kg.Kyiv.Mathematics/Int3.cs:123 | Each of X, Y, Z is the wrapping int32 sum, independent of the padding |
| Int3Vector.Subtract | src/Kg.Kyiv.Mathematics/Int3.cs:147 | Each component is the wrapping difference, independent of the padding |
| Int3Vector.Multiply | src/Kg.Kyiv.Mathematics/Int3.cs:138 | Each component is the wrapping product, independent of the padding |
| Int3Vector.Scale | src/Kg.Kyiv.Mathematics/Int3.cs:141 | Each component is multiplied, wrapping, by the scalar |
| Int3Vector.ScaleLeft | src/Kg.Kyiv.Mathematics/Int3.cs:144 | scalar * v multiplies each component by the scalar, as v * scalar does |
| Int3Vector.Negate | src/Kg.Kyiv.Mathematics/Int3.cs:150 | Each component is negated with wrap-around |
| Int3Vector.Min | src/Kg.Kyiv.Mathematics/Int3.cs:202 | Each component is at most both operands' and equals one of them |
| Int3Vector.Max | src/Kg.Kyiv.Mathematics/Int3.cs:193 | Each component is at least both operands' and equals one of them |
| Int3Vector.SubtractUndoesAdd | src/Kg.Kyiv.Mathematics/Int3.cs:147 | (a + b) - b is a for every a, b and every padding, overflow included |
| Int3Vector.NegateIsSubtractFromZero | src/Kg.Kyiv.Mathematics/Int3.cs:150 | -v is Zero - v |
| Int3Vector.Identities | src/Kg.Kyiv.Mathematics/Int3.cs:138 | Zero and One are the identities of + and *; v * s is v times the broadcast s, and s * v is v * s |
| Int3Vector.MinMaxPartition | src/Kg.Kyiv.Mathematics/Int3.cs:202 | Min and Max are symmetric and split each pair of components between them |
| Int3Vector.Divide | src/Kg.Kyiv.Mathematics/Int3.cs:126 | As written: succeeds only when X, Y, Z and the padding lane 3 all divide without fault, so a zero in the divisor's padding fails with DivideByZero; every other failure is Overflow (the accelerated path's priority); on success the components are the truncating quotients |
| Int3Vector.DivideScalar | src/Kg.Kyiv.Mathematics/Int3.cs:129 | As written: the padding lane 3 is divided by the scalar too, so int.MinValue padding over -1 fails; DivideByZero exactly for a zero scalar, and every other failure is Overflow |
| Int3Vector.DivideLogical | src/Kg.Kyiv.Mathematics/Int3.cs:126 | As intended: fails exactly when a component's division faults, DivideByZero exactly when a divisor component is zero, otherwise the truncating quotients |
| Int3Vector.DivideScalarLogical | src/Kg.Kyiv.Mathematics/Int3.cs:129 | As intended: fails exactly when a component's division by the scalar faults, with DivideByZero exactly for a zero scalar and Overflow otherwise |
| Int3Vector.DivideScalarIsDivideByBroadcast | src/Kg.Kyiv.Mathematics/Int3.cs:129 | Dividing by a scalar is dividing by its broadcast, and dividing by One gives the vector back |
| Int3Vector.DividePaddingFaults | src/Kg.Kyiv.Mathematics/Int3.cs:126 | Concrete paddings make a well-defined division fail: a zero padding in the divisor gives DivideByZero and an int.MinValue padding over -1 gives Overflow, while the intended division succeeds |
| Int3Vector.Equal | src/Kg.Kyiv.Mathematics/Int3.cs:132 | As written: true exactly when the components agree and the two operands' padding lane 3 agree too |
| Int3Vector.EqualLogical | src/Kg.Kyiv.Mathematics/Int3.cs:132 | As intended: true exactly when the components agree |
| Int3Vector.EqualReadsPadding | src/Kg.Kyiv.Mathematics/Int3.cs:216-219 | A vector compares unequal to itself whenever the paddings of the two operands differ, while the intended equality holds |
| Int4Vector.CreateFromScalar | src/Kg.Kyiv.Mathematics/Int4.cs:135 | All four components are the value |
| Int4Vector.Create | src/Kg.Kyiv.Mathematics/Int4.cs:150 | X, Y, Z, W are the arguments in order, lane for lane |
| Int4Vector.CreateFromInt2 | src/Kg.Kyiv.Mathematics/Int4.cs:137-142 | The intended Create(Int2 v, z, w): (v.X, v.Y, z, w) |
| Int4Vector.CreateFromInt3 | src/Kg.Kyiv.Mathematics/Int4.cs:144-148 | The intended Create(Int3 v, w): (v.X, v.Y, v.Z, w) |
| Int4Vector.CreateFromSpan | src/Kg.Kyiv.Mathematics/Int4.cs:152 | Fails on "values" exactly when the span has fewer than four elements; otherwise the first four |
| Int4Vector.CreateFromSmaller | src/Kg.Kyiv.Mathematics/Int4.cs:25-33 | The intended constructors from Int2 and Int3 (as written they never return) agree with the four-component Create on the same components |
| Int4Vector.UnitsAreOneHot | src/Kg.Kyiv.Mathematics/Int4.cs:86-88 | UnitX, UnitY, UnitZ are one at index 0, 1, 2 and zero elsewhere |
| Int4Vector.ValueBounds | src/Kg.Kyiv.Mathematics/Int4.cs:83-84 | MinValue and MaxValue bound every Int4 componentwise |
| Int4Vector.Get | src/Kg.Kyiv.Mathematics/Int4.cs:45-51 | With no check of its own, the indexer fails out of range exactly for indices outside [0, 4), through register element access |
| Int4Vector.Set | src/Kg.Kyiv.Mathematics/Int4.cs:45-51 | Setting an index in [0, 4) changes that component only; other indices fail |
| Int4Vector.GetAfterSet | src/Kg.Kyiv.Mathematics/Int4.cs:45-51 | Reading after a set returns the value set and leaves the other three components |
| Int4Vector.CopyTo | src/Kg.Kyiv.Mathematics/Int4.cs:53 | CopyTo(array) and CopyTo(span) fail as too short below four slots, otherwise write the four components in front |
| Int4Vector.CopyToAt | src/Kg.Kyiv.Mathematics/Int4.cs:54 | An index outside the array fails on "startIndex", too few slots after it fail as too short, otherwise exactly four slots change |
| Int4Vector.TryCopyTo | src/Kg.Kyiv.Mathematics/Int4.cs:56 | False with nothing written below four slots, otherwise true with the components in front |
| Int4Vector.CopyThenCreate | src/Kg.Kyiv.Mathematics/Int4.cs:53-56 | Creating from what any successful copy wrote gives back the vector |
| Int4Vector.Add | src/Kg.Kyiv.Mathematics/Int4.cs:92 | In each of the four lanes, the wrapping sum |
| Int4Vector.Subtract | src/Kg.Kyiv.Mathematics/Int4.cs:116 | In each of the four lanes, the wrapping difference |
| Int4Vector.Multiply | src/Kg.Kyiv.Mathematics/Int4.cs:107 | In each of the four lanes, the wrapping product |
| Int4Vector.Scale | src/Kg.Kyiv.Mathematics/Int4.cs:110 | In each of the four lanes, the wrapping product with the scalar |
| Int4Vector.ScaleLeft | src/Kg.Kyiv.Mathematics/Int4.cs:113 | In each of the four lanes, the wrapping product with the scalar, as v * scalar |
| Int4Vector.Negate | src/Kg.Kyiv.Mathematics/Int4.cs:119 | In each of the four lanes, the wrapping negation |
| Int4Vector.Min | src/Kg.Kyiv.Mathematics/Int4.cs:167 | Each component is at most both and one of them |
| Int4Vector.Max | src/Kg.Kyiv.Mathematics/Int4.cs:158 | Each component is at least both and one of them |
| Int4Vector.SubtractUndoesAdd | src/Kg.Kyiv.Mathematics/Int4.cs:116 | (a + b) - b is a for all operands, overflow included |
| Int4Vector.NegateIsSubtractFromZero | src/Kg.Kyiv.Mathematics/Int4.cs:119 | -v is Zero - v |
| Int4Vector.Identities | src/Kg.Kyiv.Mathematics/Int4.cs:107-113 | Zero and One are the identities of + and *; v * s is v times the broadcast s; s * v is v * s |
| Int4Vector.MinMaxPartition | src/Kg.Kyiv.Mathematics/Int4.cs:158-167 | Min and Max are symmetric and split each pair of components between them |
| Int4Vector.Divide | src/Kg.Kyiv.Mathematics/Int4.cs:95 | Succeeds exactly when every component's division is defined; DivideByZero exactly when some divisor component is zero, otherwise Overflow (the accelerated path's priority); on success the truncating quotients |
| Int4Vector.DivideScalar | src/Kg.Kyiv.Mathematics/Int4.cs:98 | Succeeds exactly when every component divides by the scalar; DivideByZero exactly for a zero scalar, every other failure Overflow |
| Int4Vector.DivideByOne | src/Kg.Kyiv.Mathematics/Int4.cs:95-98 | Dividing by One or by 1 gives the vector back |
| Int4Vector.Equal | src/Kg.Kyiv.Mathematics/Int4.cs:59-62 | `==` and Equals are exactly componentwise equality: no padding is read |
| Double2Vector.CreateFromScalar | src/Kg.Kyiv.Mathematics/Double2.cs:194 | Every component is the value |
| Double2Vector.Create | src/Kg.Kyiv.Mathematics/Double2.cs:195 | The components are the arguments (X, Y) in order |
| Double2Vector.CreateFromSpan | src/Kg.Kyiv.Mathematics/Double2.cs:196 | As written, through four-lane register creation: fails on "values" exactly when the span has fewer than four elements, though only 2 are used |
| Double2Vector.CreateFromSpanLogical | src/Kg.Kyiv.Mathematics/Double2.cs:196 | As intended: fails exactly when the span has fewer than 2 elements; otherwise the first 2 |
| Double2Vector.CreateFromSpanNeedsFour | src/Kg.Kyiv.Mathematics/Double2.cs:196 | A span of exactly 2 elements is rejected as written and accepted as intended; from four elements on the two agree |
| Double2Vector.UnitsAreOneHot | src/Kg.Kyiv.Mathematics/Double2.cs:141-142 | Each unit vector is one on its own axis and zero elsewhere |
| Double2Vector.Get | src/Kg.Kyiv.Mathematics/Double2.cs:27-50 | Indices outside [0, 2) fail out of range on "index" whatever the padding; inside, that component |
| Double2Vector.Set | src/Kg.Kyiv.Mathematics/Double2.cs:27-50 | Indices outside [0, 2) fail; inside, only that component changes |
| Double2Vector.GetAfterSet | src/Kg.Kyiv.Mathematics/Double2.cs:27-50 | Reading after a set returns the value set and the old value elsewhere, whatever the paddings |
| Double2Vector.CopyTo | src/Kg.Kyiv.Mathematics/Double2.cs:53-62 | An array shorter than 2 fails as too short on "array"; otherwise the first 2 slots are written, nothing else |
| Double2Vector.CopyToAt | src/Kg.Kyiv.Mathematics/Double2.cs:64-78 | An index outside [0, length] fails out of range on "index"; fewer than 2 slots after it fail as too short on "array"; otherwise exactly 2 slots change |
| Double2Vector.CopyToSpan | src/Kg.Kyiv.Mathematics/Double2.cs:80-89 | A span shorter than 2 fails as too short on "destination"; otherwise the first 2 slots are written |
| Double2Vector.TryCopyTo | src/Kg.Kyiv.Mathematics/Double2.cs:91-101 | False with the span unchanged below 2 slots, otherwise true with the components in front |
| Double2Vector.CopyThenCreate | src/Kg.Kyiv.Mathematics/Double2.cs:53-101 | The intended span creation reads back what any successful copy wrote; the written one does so exactly when at least four slots follow |
| Double2Vector.Add | src/Kg.Kyiv.Mathematics/Double2.cs:146 | Each of X, Y is the lane sum of the operands' components, whatever the paddings |
| Double2Vector.Subtract | src/Kg.Kyiv.Mathematics/Double2.cs:170 | Each of X, Y is the lane difference of the operands' components, whatever the paddings |
| Double2Vector.Multiply | src/Kg.Kyiv.Mathematics/Double2.cs:161 | Each of X, Y is the lane product of the operands' components, whatever the paddings |
| Double2Vector.Divide | src/Kg.Kyiv.Mathematics/Double2.cs:149 | Each of X, Y is the lane quotient of the operands' components, whatever the paddings |
| Double2Vector.Scale | src/Kg.Kyiv.Mathematics/Double2.cs:164 | Each of X, Y is the lane product with the scalar of the operands' components, whatever the paddings |
| Double2Vector.ScaleLeft | src/Kg.Kyiv.Mathematics/Double2.cs:167 | Each of X, Y is the lane product with the scalar, as for v * scalar of the operands' components, whatever the paddings |
| Double2Vector.DivideScalar | src/Kg.Kyiv.Mathematics/Double2.cs:152 | Each of X, Y is the lane quotient by the scalar of the operands' components, whatever the paddings |
| Double2Vector.Negate | src/Kg.Kyiv.Mathematics/Double2.cs:173 | Each of X, Y is the lane negation of the operands' components, whatever the paddings |
| Double2Vector.MultiplyAdd | src/Kg.Kyiv.Mathematics/Double2.cs:268-270 | Each of X, Y is the lane a * b + c of the operands' components, whatever the paddings |
| Double2Vector.ScalarIsBroadcast | src/Kg.Kyiv.Mathematics/Double2.cs:164 | v * s and v / s are the vector operations with the broadcast s, and s * v is v * s |
| Double2Vector.ExactGroup | src/Kg.Kyiv.Mathematics/Double2.cs:170 | Over exact reals, (a + b) - b is a and -a is Zero - a, whatever the paddings |
| Double2Vector.Dot | src/Kg.Kyiv.Mathematics/Double2.cs:208-209 | As written: the four-lane dot of the two unchecked registers, so the product of the operands' padding lanes 2 and 3 is added to the components' products |
| Double2Vector.DotLogical | src/Kg.Kyiv.Mathematics/Double2.cs:208-209 | As intended: the same dot with zero padding; over exact reals it is a.X·b.X + a.Y·b.Y (`Double2Vector.DotReadsPadding`) |
| Double2Vector.LengthSquared | src/Kg.Kyiv.Mathematics/Double2.cs:120 | Dot(v, v) as written: the two reads of v are promoted separately, so the result is the components' squares plus the products of the padding lanes 2 and 3 of two independent paddings |
| Double2Vector.DistanceSquared | src/Kg.Kyiv.Mathematics/Double2.cs:203 | LengthSquared of the componentwise difference, with the two independent paddings of that difference; the operands' own paddings do not matter |
| Double2Vector.Distance | src/Kg.Kyiv.Mathematics/Double2.cs:201 | Length of the componentwise difference, with the two independent paddings of that difference |
| Double2Vector.Normalize | src/Kg.Kyiv.Mathematics/Double2.cs:274 | Each component divided by the vector's Length, itself computed with two independent paddings |
| Double2Vector.NormalizeScalesBack | src/Kg.Kyiv.Mathematics/Double2.cs:274 | Over exact reals with zero padding and a nonzero length, scaling the normalized vector by the length gives back the vector |
| Double2Vector.Reflect | src/Kg.Kyiv.Mathematics/Double2.cs:279-285 | With d the written Dot(vector, normal), each component is -(d + d) * normal + vector through the multiply-add |
| Double2Vector.ReflectExact | src/Kg.Kyiv.Mathematics/Double2.cs:279-285 | Over exact reals with zero padding under Dot, Reflect is the reflection v - 2 (v . n) n, whatever the temporaries' padding |
| Double2Vector.ReflectionTwice | src/Kg.Kyiv.Mathematics/Double2.cs:279-285 | Across a unit normal the reflection v - 2 (v . n) n negates the dot with the normal and is its own inverse |
| Double2Vector.ReflectTwice | src/Kg.Kyiv.Mathematics/Double2.cs:279-285 | Across a unit normal, Reflect with zero padding under Dot negates the dot with the normal, and reflecting twice gives back the vector |
| Double2Vector.DotReadsPadding | src/Kg.Kyiv.Mathematics/Double2.cs:208-209 | Over exact reals the written Dot is the components' dot plus the padding products, the intended Dot is the components' dot, and the written LengthSquared exceeds the intended one by the product of its two reads' paddings |
| Double2Vector.LengthSquaredCanBeNegative | src/Kg.Kyiv.Mathematics/Double2.cs:120 | The written LengthSquared can be negative, so Length takes the square root of a negative number: (0, 0) with paddings of ones and of minus ones gives -2; the intended LengthSquared is never negative |
| Double2Vector.DotPaddingExample | src/Kg.Kyiv.Mathematics/Double2.cs:208-209 | The dot of the zero vector and the all-ones vector is 2 when both paddings hold ones, and 0 as intended |
| Double2Vector.Equal | src/Kg.Kyiv.Mathematics/Double2.cs:155 | As written, `==` and Equals compare X, Y and also the operands' padding lanes 2 and 3 |
| Double2Vector.EqualLogical | src/Kg.Kyiv.Mathematics/Double2.cs:103-107 | As intended: when the lane comparison holds of zero against zero, true exactly when the components compare equal |
| Double2Vector.EqualReadsPadding | src/Kg.Kyiv.Mathematics/Double2.cs:103-107 | Over exact reals a vector is unequal to itself, under both `==` and Equals, whenever the two paddings differ, while the intended equality holds |
| Double3Vector.CreateFromScalar | src/Kg.Kyiv.Mathematics/Double3.cs:201 | Every component is the value |
| Double3Vector.Create | src/Kg.Kyiv.Mathematics/Double3.cs:209 | The components are the arguments (X, Y, Z) in order |
| Double3Vector.CreateFromDouble2 | src/Kg.Kyiv.Mathematics/Double3.cs:203-207 | Create(Double2 v, z) is (v.X, v.Y, z) for every padding, since the one padding lane read back is overwritten |
| Double3Vector.CreateFromSpan | src/Kg.Kyiv.Mathematics/Double3.cs:210 | As written, through four-lane register creation: fails on "values" exactly when the span has fewer than four elements, though only 3 are used |
| Double3Vector.CreateFromSpanLogical | src/Kg.Kyiv.Mathematics/Double3.cs:210 | As intended: fails exactly when the span has fewer than 3 elements; otherwise the first 3 |
| Double3Vector.CreateFromSpanNeedsFour | src/Kg.Kyiv.Mathematics/Double3.cs:210 | A span of exactly 3 elements is rejected as written and accepted as intended; from four elements on the two agree |
| Double3Vector.UnitsAreOneHot | src/Kg.Kyiv.Mathematics/Double3.cs:147-149 | Each unit vector is one on its own axis and zero elsewhere |
| Double3Vector.Get | src/Kg.Kyiv.Mathematics/Double3.cs:33-56 | Indices outside [0, 3) fail out of range on "index" whatever the padding; inside, that component |
| Double3Vector.Set | src/Kg.Kyiv.Mathematics/Double3.cs:33-56 | Indices outside [0, 3) fail; inside, only that component changes |
| Double3Vector.GetAfterSet | src/Kg.Kyiv.Mathematics/Double3.cs:33-56 | Reading after a set returns the value set and the old value elsewhere, whatever the paddings |
| Double3Vector.CopyTo | src/Kg.Kyiv.Mathematics/Double3.cs:59-68 | An array shorter than 3 fails as too short on "array"; otherwise the first 3 slots are written, nothing else |
| Double3Vector.CopyToAt | src/Kg.Kyiv.Mathematics/Double3.cs:70-84 | An index outside [0, length] fails out of range on "index"; fewer than 3 slots after it fail as too short on "array"; otherwise exactly 3 slots change |
| Double3Vector.CopyToSpan | src/Kg.Kyiv.Mathematics/Double3.cs:86-95 | A span shorter than 3 fails as too short on "destination"; otherwise the first 3 slots are written |
| Double3Vector.TryCopyTo | src/Kg.Kyiv.Mathematics/Double3.cs:97-107 | False with the span unchanged below 3 slots, otherwise true with the components in front |
| Double3Vector.CopyThenCreate | src/Kg.Kyiv.Mathematics/Double3.cs:59-107 | The intended span creation reads back what any successful copy wrote; the written one does so exactly when at least four slots follow |
| Double3Vector.Add | src/Kg.Kyiv.Mathematics/Double3.cs:153 | Each of X, Y, Z is the lane sum of the operands' components, whatever the paddings |
| Double3Vector.Subtract | src/Kg.Kyiv.Mathematics/Double3.cs:177 | Each of X, Y, Z is the lane difference of the operands' components, whatever the paddings |
| Double3Vector.Multiply | src/Kg.Kyiv.Mathematics/Double3.cs:168 | Each of X, Y, Z is the lane product of the operands' components, whatever the paddings |
| Double3Vector.Divide | src/Kg.Kyiv.Mathematics/Double3.cs:156 | Each of X, Y, Z is the lane quotient of the operands' components, whatever the paddings |
| Double3Vector.Scale | src/Kg.Kyiv.Mathematics/Double3.cs:171 | Each of X, Y, Z is the lane product with the scalar of the operands' components, whatever the paddings |
| Double3Vector.ScaleLeft | src/Kg.Kyiv.Mathematics/Double3.cs:174 | Each of X, Y, Z is the lane product with the scalar, as for v * scalar of the operands' components, whatever the paddings |
| Double3Vector.DivideScalar | src/Kg.Kyiv.Mathematics/Double3.cs:159 | Each of X, Y, Z is the lane quotient by the scalar of the operands' components, whatever the paddings |
| Double3Vector.Negate | src/Kg.Kyiv.Mathematics/Double3.cs:180 | Each of X, Y, Z is the lane negation of the operands' components, whatever the paddings |
| Double3Vector.MultiplyAdd | src/Kg.Kyiv.Mathematics/Double3.cs:282-284 | Each of X, Y, Z is the lane a * b + c of the operands' components, whatever the paddings |
| Double3Vector.ScalarIsBroadcast | src/Kg.Kyiv.Mathematics/Double3.cs:171 | v * s and v / s are the vector operations with the broadcast s, and s * v is v * s |
| Double3Vector.ExactGroup | src/Kg.Kyiv.Mathematics/Double3.cs:177 | Over exact reals, (a + b) - b is a and -a is Zero - a, whatever the paddings |
| Double3Vector.Dot | src/Kg.Kyiv.Mathematics/Double3.cs:222-223 | As written: the four-lane dot of the two unchecked registers, so the product of the operands' padding lane 3 is added to the components' products |
| Double3Vector.DotLogical | src/Kg.Kyiv.Mathematics/Double3.cs:222-223 | As intended: the same dot with zero padding; over exact reals it is a.X·b.X + a.Y·b.Y + a.Z·b.Z (`Double3Vector.DotReadsPadding`) |
| Double3Vector.LengthSquared | src/Kg.Kyiv.Mathematics/Double3.cs:126 | Dot(v, v) as written: the two reads of v are promoted separately, so the result is the components' squares plus the products of the padding lane 3 of two independent paddings |
| Double3Vector.DistanceSquared | src/Kg.Kyiv.Mathematics/Double3.cs:217 | LengthSquared of the componentwise difference, with the two independent paddings of that difference; the operands' own paddings do not matter |
| Double3Vector.Distance | src/Kg.Kyiv.Mathematics/Double3.cs:215 | Length of the componentwise difference, with the two independent paddings of that difference |
| Double3Vector.Normalize | src/Kg.Kyiv.Mathematics/Double3.cs:288 | Each component divided by the vector's Length, itself computed with two independent paddings |
| Double3Vector.NormalizeScalesBack | src/Kg.Kyiv.Mathematics/Double3.cs:288 | Over exact reals with zero padding and a nonzero length, scaling the normalized vector by the length gives back the vector |
| Double3Vector.Reflect | src/Kg.Kyiv.Mathematics/Double3.cs:293-299 | With d the written Dot(vector, normal), each component is -(d + d) * normal + vector through the multiply-add |
| Double3Vector.ReflectExact | src/Kg.Kyiv.Mathematics/Double3.cs:293-299 | Over exact reals with zero padding under Dot, Reflect is the reflection v - 2 (v . n) n, whatever the temporaries' padding |
| Double3Vector.ReflectionTwice | src/Kg.Kyiv.Mathematics/Double3.cs:293-299 | Across a unit normal the reflection v - 2 (v . n) n negates the dot with the normal and is its own inverse |
| Double3Vector.ReflectTwice | src/Kg.Kyiv.Mathematics/Double3.cs:293-299 | Across a unit normal, Reflect with zero padding under Dot negates the dot with the normal, and reflecting twice gives back the vector |
| Double3Vector.DotReadsPadding | src/Kg.Kyiv.Mathematics/Double3.cs:222-223 | Over exact reals the written Dot is the components' dot plus the padding products, the intended Dot is the components' dot, and the written LengthSquared exceeds the intended one by the product of its two reads' paddings |
| Double3Vector.LengthSquaredCanBeNegative | src/Kg.Kyiv.Mathematics/Double3.cs:126 | The written LengthSquared can be negative, so Length takes the square root of a negative number: (0, 0, 0) with paddings of ones and of minus ones gives -1; the intended LengthSquared is never negative |
| Double3Vector.DotPaddingExample | src/Kg.Kyiv.Mathematics.Test/Program.cs:14 | The dot of the zero vector and the all-ones vector is 1 when both paddings hold ones, and 0 as intended |
| Double3Vector.Equal | src/Kg.Kyiv.Mathematics/Double3.cs:162 | As written, `==` and Equals compare X, Y, Z and also the operands' padding lane 3 |
| Double3Vector.EqualLogical | src/Kg.Kyiv.Mathematics/Double3.cs:109-113 | As intended: when the lane comparison holds of zero against zero, true exactly when the components compare equal |
| Double3Vector.EqualReadsPadding | src/Kg.Kyiv.Mathematics/Double3.cs:109-113 | Over exact reals a vector is unequal to itself, under both `==` and Equals, whenever the two paddings differ, while the intended equality holds |
| Double4Vector.CreateFromScalar | src/Kg.Kyiv.Mathematics/Double4.cs:142 | All four components are the value |
| Double4Vector.Create | src/Kg.Kyiv.Mathematics/Double4.cs:157 | X, Y, Z, W are the arguments in order |
| Double4Vector.CreateFromDouble2 | src/Kg.Kyiv.Mathematics/Double4.cs:144-149 | Create(Double2 v, z, w) is (v.X, v.Y, z, w) for every padding: both padding lanes are overwritten |
| Double4Vector.CreateFromDouble3 | src/Kg.Kyiv.Mathematics/Double4.cs:151-155 | Create(Double3 v, w) is (v.X, v.Y, v.Z, w) for every padding: the one padding lane is overwritten |
| Double4Vector.CreateFromSpan | src/Kg.Kyiv.Mathematics/Double4.cs:158 | Fails on "values" exactly when the span has fewer than four elements; otherwise the first four |
| Double4Vector.CreateFromSmaller | src/Kg.Kyiv.Mathematics/Double4.cs:19-37 | The constructors from Double2 and Double3 give the same vector under any two paddings, the one the four-component Create gives |
| Double4Vector.UnitsAreOneHot | src/Kg.Kyiv.Mathematics/Double4.cs:89-92 | UnitX to UnitW are one at index 0 to 3 and zero elsewhere |
| Double4Vector.Get | src/Kg.Kyiv.Mathematics/Double4.cs:39-45 | Through register element access, exactly the indices outside [0, 4) fail out of range |
| Double4Vector.Set | src/Kg.Kyiv.Mathematics/Double4.cs:39-45 | Setting an index in [0, 4) changes that component only; other indices fail |
| Double4Vector.GetAfterSet | src/Kg.Kyiv.Mathematics/Double4.cs:39-45 | Reading after a set returns the value set and leaves the other components |
| Double4Vector.CopyTo | src/Kg.Kyiv.Mathematics/Double4.cs:47 | CopyTo(array) and CopyTo(span) fail as too short below four slots, otherwise write the components in front |
| Double4Vector.CopyToAt | src/Kg.Kyiv.Mathematics/Double4.cs:48 | An index outside the array fails on "startIndex", too few slots after it fail as too short, otherwise exactly four slots change |
| Double4Vector.TryCopyTo | src/Kg.Kyiv.Mathematics/Double4.cs:50 | False with nothing written below four slots, otherwise true |
| Double4Vector.CopyThenCreate | src/Kg.Kyiv.Mathematics/Double4.cs:47-50 | Creating from what any successful copy wrote gives back the vector |
| Double4Vector.Add | src/Kg.Kyiv.Mathematics/Double4.cs:96 | Each of the four components is the lane sum of the operands' components |
| Double4Vector.Subtract | src/Kg.Kyiv.Mathematics/Double4.cs:120 | Each of the four components is the lane difference of the operands' components |
| Double4Vector.Multiply | src/Kg.Kyiv.Mathematics/Double4.cs:111 | Each of the four components is the lane product of the operands' components |
| Double4Vector.Divide | src/Kg.Kyiv.Mathematics/Double4.cs:99 | Each of the four components is the lane quotient of the operands' components |
| Double4Vector.Scale | src/Kg.Kyiv.Mathematics/Double4.cs:114 | Each of the four components is the lane product with the scalar of the operands' components |
| Double4Vector.ScaleLeft | src/Kg.Kyiv.Mathematics/Double4.cs:117 | Each of the four components is the lane product with the scalar, as for v * scalar of the operands' components |
| Double4Vector.DivideScalar | src/Kg.Kyiv.Mathematics/Double4.cs:102 | Each of the four components is the lane quotient by the scalar of the operands' components |
| Double4Vector.Negate | src/Kg.Kyiv.Mathematics/Double4.cs:123 | Each of the four components is the lane negation of the operands' components |
| Double4Vector.MultiplyAdd | src/Kg.Kyiv.Mathematics/Double4.cs:228-229 | Each of the four components is the lane a * b + c of the operands' components |
| Double4Vector.ScalarIsBroadcast | src/Kg.Kyiv.Mathematics/Double4.cs:114-117 | v * s and v / s are the vector operations with the broadcast s, and s * v is v * s |
| Double4Vector.ExactGroup | src/Kg.Kyiv.Mathematics/Double4.cs:120-123 | Over exact reals, (a + b) - b is a and -a is Zero - a |
| Double4Vector.Dot | src/Kg.Kyiv.Mathematics/Double4.cs:170-171 | The four-lane dot of exactly X, Y, Z, W of both operands, through the exact bit cast |
| Double4Vector.LengthSquared | src/Kg.Kyiv.Mathematics/Double4.cs:69 | Dot(v, v): the sum of the four squares |
| Double4Vector.DistanceSquared | src/Kg.Kyiv.Mathematics/Double4.cs:165 | LengthSquared of the componentwise difference |
| Double4Vector.Distance | src/Kg.Kyiv.Mathematics/Double4.cs:163 | Length of the componentwise difference |
| Double4Vector.Normalize | src/Kg.Kyiv.Mathematics/Double4.cs:233 | Each component divided by the vector's length |
| Double4Vector.ExactDot | src/Kg.Kyiv.Mathematics/Double4.cs:170-171 | Over exact reals Dot is the sum of the four component products and DistanceSquared the sum of the squared differences |
| Double4Vector.Equal | src/Kg.Kyiv.Mathematics/Double4.cs:105 | `==` and Equals hold exactly when the lane comparison holds on all four components, nothing else |
| Double4Vector.ExactEqual | src/Kg.Kyiv.Mathematics/Double4.cs:52-56 | Over exact reals `==` and Equals are equality of the vectors |

## Left out

- Floating-point semantics: rounding, NaN, infinities and signed zero are not modelled. The double lanes are uninterpreted, and the `Meth` double helpers use exact reals.
- Double Sin/Cos/SinCos, Exp, Log, Log2, SquareRoot, Hypot, Round, Truncate, FusedMultiplyAdd, Lerp, DegreesToRadians/RadiansToDegrees, Abs, Clamp/ClampNative, CopySign and the Min/Max/Magnitude/Number/Native families are left out: their meaning is IEEE rounding and NaN policy.
- The constants E, Epsilon, NaN, NegativeInfinity, NegativeZero, One, Pi, PositiveInfinity and Tau of the double vectors are left out, because they are IEEE values.
- The Half and float overloads of `Meth`, and IsZero, SafeDiv, Saturate, Lerp and the degree/radian conversions, are left out: they are defined by IEEE rounding and subnormal Epsilon.
- The integer Abs, Clamp, ClampNative, CopySign, MinMagnitude, MaxMagnitude, MinNative and MaxNative are left out. They are lane-wise register-library functions, and `VectorExtensions.LaneWise2`/`3` state for any lane function that the result does not depend on the padding.
- `!=` is not modelled separately: it is the negation of `==` at every type.
- The named Add, Subtract, Multiply, Divide and Negate functions are not modelled separately: each is a one-line forward to its operator, so the operator's member stands for both.
- The constructors are not modelled separately: each assigns the result of the matching Create overload.
- ToString and the IFormattable members are left out, because their output depends on culture.
- GetHashCode is left out, because HashCode.Combine is seeded per process.
- Byte-level `Unsafe.WriteUnaligned`/`ReadUnaligned`/`BitCast` and `SkipLocalsInit` are modelled at lane granularity only.
- Null arrays are not modelled; a `Buffer` is a sequence of at most int.MaxValue elements.
- `Equals(object)` is not modelled: it is the typed Equals after a type test.
- Registers: the register library is not part of this model. Its element access, span creation, copying, dot and division are stated as assumptions. Division is assumed to fault like scalar int32 division in each lane, and any zero divisor lane raises DivideByZero before an Overflow lane is considered, as on the x64 accelerated path. The lane-order fallback instead raises the first faulting lane's exception; `Registers.DivLanesInOrder` models it and `Registers.DivPathsAgree` states where the two differ.
- Int2Vector.Divide: the DivideByZero-before-Overflow priority is that of the x64 accelerated path. The lane-order fallback raises Overflow when a lane computing int.MinValue / -1 comes before every zero divisor lane (`Registers.DivPathsAgree`); success and the quotients are the same on both paths.
- Int3Vector.Divide: the DivideByZero-before-Overflow priority is that of the x64 accelerated path. The lane-order fallback raises Overflow when a lane computing int.MinValue / -1 comes before every zero divisor lane (`Registers.DivPathsAgree`); success and the quotients are the same on both paths.
- Int4Vector.Divide: the DivideByZero-before-Overflow priority is that of the x64 accelerated path. The lane-order fallback raises Overflow when a lane computing int.MinValue / -1 comes before every zero divisor lane (`Registers.DivPathsAgree`); success and the quotients are the same on both paths.
- VectorExtensions.AsVec2: `AsDouble2`/`AsDouble3` are not part of this model. They are taken to read the first two or three lanes, like `AsInt2`/`AsInt3`.
- VectorExtensions.CheckedPromotion2NeverReturns: the unbounded recursion is modelled with an explicit stack-depth argument that ends in StackOverflow at depth zero. The lemma covers every depth.
- Meth.Clamp: modelled on unbounded integers, so one member covers all eight integer widths; `Meth.StaysInKind` shows nothing leaves the width.
- Meth.EuclideanMod: y = 0 is excluded; the double code returns NaN there, which exact reals cannot express.
- Meth.EuclideanMod: the range [0, y) for y > 0 holds over exact reals only. In doubles `r + y` rounds, so a tiny negative remainder plus y can round up to y itself.
- Meth.WrapDegrees: the range [0, 360) holds over exact reals only; in doubles WrapDegrees(-1e-20) rounds to 360.0.
- Meth.FloorToInt: inputs are restricted to [-2^31, 2^31), the doubles whose floor is an int32. On (-2^31-1, -2^31) the `(int)` cast is defined but the floor is not representable, and the written code wraps there (`Meth.FloorToIntAsWritten`).
- Int4Vector.CreateFromInt2: models the intended Create(Int2, z, w). As written it never returns; `VectorExtensions.CheckedPromotion2NeverReturns` states that, and the Findings table records it.
- Int4Vector.CreateFromInt3: models the intended Create(Int3, w). As written it never returns, as `VectorExtensions.CheckedPromotion3NeverReturns` states.
- Double2Vector.EqualLogical: (and Double3Vector.EqualLogical) is stated under the condition that the lane comparison holds of zero against zero, because the element type is opaque. Both `==` and Equals on doubles hold of 0.0 against 0.0.
- Double2Vector.Length, Double3Vector.Length and Double4Vector.Length carry no contract of their own, because exact reals have no total square root. The square root is a parameter; Distance and Normalize state how Length enters them.
- The namespace `Kg.Kyiv.Math` declared in Int3.cs and Meth.cs, against `Kg.Kyiv.Mathematics` elsewhere, is a build matter and has no behaviour to model.
- `src/Kg.Kyiv.Mathematics.Test/Program.cs` is a console demo; only its example values are used (`Meth.WrapDegreesExamples`, `Double3Vector.DotPaddingExample`).

## Findings

| source | as written | input that shows it | evidently intended | confidence | as-written member | corrected member |
|---|---|---|---|---|---|---|
| src/Kg.Kyiv.Mathematics/Int2.cs:125 | `==` and Equals compare the unchecked registers, padding lanes included | any v compared with itself, with padding lane 2 of 0 on the left and 1 on the right | equal exactly when X and Y are equal | not executed | Int2Vector.EqualReadsPadding | Int2Vector.EqualLogical |
| src/Kg.Kyiv.Mathematics/Int3.cs:132 | `==` and Equals compare lane 3 of the unchecked registers | any v compared with itself, with lane-3 paddings 0 and 1 | equal exactly when X, Y and Z are equal | not executed | Int3Vector.EqualReadsPadding | Int3Vector.EqualLogical |
| src/Kg.Kyiv.Mathematics/Double2.cs:155 | `==` and Equals compare lanes 2 and 3 of the unchecked registers | any v compared with itself, with lane-2 paddings 0.0 and 1.0 | equal exactly when X and Y compare equal | not executed | Double2Vector.EqualReadsPadding | Double2Vector.EqualLogical |
| src/Kg.Kyiv.Mathematics/Double3.cs:162 | `==` and Equals compare lane 3 of the unchecked registers | any v compared with itself, with lane-3 paddings 0.0 and 1.0 | equal exactly when X, Y and Z compare equal | not executed | Double3Vector.EqualReadsPadding | Double3Vector.EqualLogical |
| src/Kg.Kyiv.Mathematics/Double2.cs:209 | Dot is the four-lane dot of two unchecked registers | Dot((0, 0), (1, 1)) with both paddings all ones gives 2 | 0, the dot of the two components | not executed | Double2Vector.DotPaddingExample | Double2Vector.DotLogical |
| src/Kg.Kyiv.Mathematics/Double3.cs:223 | Dot is the four-lane dot of two unchecked registers | Dot((0, 0, 0), (1, 1, 1)) with lane 3 holding 1.0 in both gives 1 | 0, the dot of the three components | not executed | Double3Vector.DotPaddingExample | Double3Vector.DotLogical |
| src/Kg.Kyiv.Mathematics/Int2.cs:119 | `/` divides the padding lanes too | (1, 1) / (1, 1) with a zero padding in the divisor | (1, 1) | not executed | Int2Vector.DividePaddingFaults | Int2Vector.DivideLogical |
| src/Kg.Kyiv.Mathematics/Int3.cs:126 | `/` divides lane 3 too | (1, 1, 1) / (1, 1, 1) with a zero lane-3 padding in the divisor | (1, 1, 1) | not executed | Int3Vector.DividePaddingFaults | Int3Vector.DivideLogical |
| src/Kg.Kyiv.Mathematics/VectorExtensions.cs:9 | the checked promotion of Int2 calls Int4.Create(Int2, 0, 0), which calls the checked promotion of the same Int2 | any Int2, e.g. (1, 2) | a register (X, Y, 0, 0) | not executed | VectorExtensions.CheckedPromotion2NeverReturns | VectorExtensions.AsRegister2 |
| src/Kg.Kyiv.Mathematics/VectorExtensions.cs:10 | the checked promotion of Int3 and Int4.Create(Int3, w) call each other | any Int3, e.g. (1, 2, 3) | a register (X, Y, Z, 0) | not executed | VectorExtensions.CheckedPromotion3NeverReturns | VectorExtensions.AsRegister3 |
| src/Kg.Kyiv.Mathematics/Double2.cs:196 | Create(span) delegates to four-lane register creation | a span of exactly two elements is rejected | two elements suffice | not executed | Double2Vector.CreateFromSpanNeedsFour | Double2Vector.CreateFromSpanLogical |
| src/Kg.Kyiv.Mathematics/Double3.cs:210 | Create(span) delegates to four-lane register creation | a span of exactly three elements is rejected | three elements suffice | not executed | Double3Vector.CreateFromSpanNeedsFour | Double3Vector.CreateFromSpanLogical |
| src/Kg.Kyiv.Mathematics/Meth.cs:179 | FloorToInt subtracts one for every negative input | -2.0 gives -3 | -2, the floor | not executed | Meth.FloorToIntAsWritten / Meth.FloorToIntAsWrittenMisses | Meth.FloorToInt |

=== FILE: buffers.dfy ===
/** The copy rules shared by the 2- and 3-component types: a vector's
    components are written into, or read from, a caller's arr or span. */
module Buffers {
  import opened Lanes
  import opened Results
  import Int32Arith

  /** `dest` with `comps` written at `index` and every other slot kept. */
  function WriteAt<T>(dest: Buffer<T>, index: nat, comps: seq<T>): (r: Buffer<T>)
    requires index + |comps| <= |dest|
    ensures |r| == |dest|
    ensures forall k :: 0 <= k < |r| ==>
              r[k] == if index <= k < index + |comps| then comps[k - index] else dest[k]
  {
    dest[..index] + comps + dest[index + |comps|..]
  }

  /** CopyTo(array) / CopyTo(span): the destination must hold the components;
      otherwise `tooShort` is raised. */
  function CopyTo<T>(comps: seq<T>, dest: Buffer<T>, tooShort: Error): (r: Result<Buffer<T>>)
    ensures r.Ok? <==> |comps| <= |dest|
    ensures r.Err? ==> r.error == tooShort
    ensures r.Ok? ==> r.value == WriteAt(dest, 0, comps)
  {
    if |dest| < |comps| then Err(tooShort) else Ok(WriteAt(dest, 0, comps))
  }

  /** CopyTo(array, index): an index outside [0, length] is rejected first;
      then fewer free slots than components raises `tooShort`. */
  function CopyToAt<T>(comps: seq<T>, arr: Buffer<T>, index: int32, tooShort: Error): (r: Result<Buffer<T>>)
    ensures r.Ok? <==> 0 <= index && index + |comps| <= |arr|
    ensures (index < 0 || index > |arr|) ==> r == Err(OutOfRange("index"))
    ensures 0 <= index <= |arr| && r.Err? ==> r.error == tooShort
    ensures r.Ok? ==> r.value == WriteAt(arr, index as nat, comps)
  {
    Int32Arith.UnsignedBoundCheck(index, |arr|);
    if Int32Arith.Unsigned(index) > |arr| then Err(OutOfRange("index"))
    else if |arr| - index < |comps| then Err(tooShort)
    else Ok(WriteAt(arr, index as nat, comps))
  }

  /** TryCopyTo(span): false and nothing written when the span is short. */
  function TryCopyTo<T>(comps: seq<T>, dest: Buffer<T>): (r: (bool, Buffer<T>))
    ensures r.0 <==> |comps| <= |dest|
    ensures !r.0 ==> r.1 == dest
    ensures r.0 ==> r.1 == WriteAt(dest, 0, comps)
  {
    if |dest| < |comps| then (false, dest) else (true, WriteAt(dest, 0, comps))
  }

  /** Create(span): the first `n` elements, or OutOfRange("values") when the
      span is shorter than `n`. */
  function ReadFirst<T>(values: Buffer<T>, n: nat): (r: Result<seq<T>>)
    ensures r.Ok? <==> n <= |values|
    ensures r.Err? ==> r.error == OutOfRange("values")
    ensures r.Ok? ==> r.value == values[..n]
  {
    if |values| < n then Err(OutOfRange("values")) else Ok(values[..n])
  }
}

=== FILE: double2.dfy ===
/** Double2: two `double` components carried through a 4-lane register.

    Operations use the unchecked promotion, so lanes 2 and 3 hold whatever
    the `junk` argument says. The lane-wise operations give the same two
    components for every padding. Dot, and everything computed from it, and
    equality read the padding; Create(span) asks the register for four
    elements. Each of those has a corrected counterpart. */
module Double2Vector {
  import opened Lanes
  import opened Results
  import opened VectorTypes
  import opened VectorExtensions
  import opened DoubleLanes
  import Int32Arith
  import Buffers
  import Registers

  const Count: nat := 2

  // ---- construction ----

  /** Double2(value) / Create(value). */
  function CreateFromScalar<D>(value: D): (r: Double2<D>)
    ensures forall i :: 0 <= i < Count ==> r.At(i) == value
  {
    AsVec2(Broadcast(value))
  }

  /** Double2(x, y) / Create(x, y). */
  function Create<D>(ar: Arith<D>, x: D, y: D): (r: Double2<D>)
    ensures r.X == x && r.Y == y
  {
    AsVec2(Register(x, y, ar.zero, ar.zero))
  }

  /** Create(span) as written: the register is created from the span, which
      needs four elements although only two are kept. */
  function CreateFromSpan<D>(values: Buffer<D>): (r: Result<Double2<D>>)
    ensures r.Ok? <==> Registers.Count <= |values|
    ensures r.Err? ==> r.error == OutOfRange("values")
    ensures r.Ok? ==> r.value.Components() == values[..Count]
  {
    var q := Registers.CreateFromSpan(values);
    if q.Err? then Err(q.error) else Ok(AsVec2(q.value))
  }

  /** Create(span) as intended: two elements suffice. */
  function CreateFromSpanLogical<D>(values: Buffer<D>): (r: Result<Double2<D>>)
    ensures r.Ok? <==> Count <= |values|
    ensures r.Err? ==> r.error == OutOfRange("values")
    ensures r.Ok? ==> r.value.Components() == values[..Count]
  {
    var s := Buffers.ReadFirst(values, Count);
    if s.Err? then Err(s.error) else Ok(Vec2(s.value[0], s.value[1]))
  }

  /** A two-element span is rejected as written and accepted as intended;
      from four elements on, both read the same two components. */
  lemma CreateFromSpanNeedsFour<D>(x: D, y: D, values: Buffer<D>)
    ensures CreateFromSpan([x, y]) == Err(OutOfRange("values"))
    ensures CreateFromSpanLogical([x, y]) == Ok(Vec2(x, y))
    ensures Registers.Count <= |values| ==> CreateFromSpan(values) == CreateFromSpanLogical(values)
  {
  }

  /** UnitX and UnitY by axis. */
  function Unit<D>(ar: Arith<D>, axis: nat): Double2<D>
    requires axis < Count
  {
    if axis == 0 then Create(ar, ar.one, ar.zero) else Create(ar, ar.zero, ar.one)
  }

  /** Each unit vector is one on its own axis and zero on the other. */
  lemma UnitsAreOneHot<D>(ar: Arith<D>, axis: nat, i: nat)
    requires axis < Count && i < Count
    ensures Unit(ar, axis).At(i) == if axis == i then ar.one else ar.zero
  {
  }

  // ---- indexer ----

  /** this[index] get: indices outside [0, 2) are rejected before the
      register is read. */
  function Get<D>(v: Double2<D>, index: int32, junk: Register<D>): (r: Result<D>)
    ensures r.Ok? <==> 0 <= index < Count
    ensures r.Ok? ==> r.value == v.At(index as nat)
    ensures r.Err? ==> r.error == OutOfRange("index")
  {
    Int32Arith.UnsignedBoundCheck(index, Count);
    if Int32Arith.Unsigned(index) >= Count then Err(OutOfRange("index"))
    else Registers.GetElement(AsRegisterUnsafe2(v, junk), index)
  }

  /** this[index] set: the vector with component `index` replaced. */
  function Set<D>(v: Double2<D>, index: int32, value: D, junk: Register<D>): (r: Result<Double2<D>>)
    ensures r.Ok? <==> 0 <= index < Count
    ensures r.Ok? ==> r.value.At(index as nat) == value
    ensures r.Ok? ==> forall i :: 0 <= i < Count && i != index as nat ==> r.value.At(i) == v.At(i)
    ensures r.Err? ==> r.error == OutOfRange("index")
  {
    Int32Arith.UnsignedBoundCheck(index, Count);
    if Int32Arith.Unsigned(index) >= Count then Err(OutOfRange("index"))
    else
      match Registers.WithElement(AsRegisterUnsafe2(v, junk), index, value)
      case Ok(w) => Ok(AsVec2(w))
      case Err(e) => Err(e)
  }

  /** Reading a component back after setting it gives the value set, and
      the other component is untouched, whatever the padding was. */
  lemma GetAfterSet<D>(v: Double2<D>, index: int32, j: int32, value: D, junk1: Register<D>, junk2: Register<D>)
    requires 0 <= index < Count
    ensures Get(Set(v, index, value, junk1).value, index, junk2) == Ok(value)
    ensures j != index ==> Get(Set(v, index, value, junk1).value, j, junk2) == Get(v, j, junk2)
  {
  }

  // ---- copying ----

  /** CopyTo(array): an array shorter than two is too short. */
  function CopyTo<D>(v: Double2<D>, arr: Buffer<D>): (r: Result<Buffer<D>>)
    ensures r.Ok? <==> Count <= |arr|
    ensures r.Err? ==> r.error == TooShort("array")
    ensures r.Ok? ==> |r.value| == |arr| && r.value[..Count] == v.Components()
    ensures r.Ok? ==> r.value[Count..] == arr[Count..]
  {
    Buffers.CopyTo(v.Components(), arr, TooShort("array"))
  }

  /** CopyTo(array, index): an index outside [0, length] is out of range;
      fewer than two free slots is too short. */
  function CopyToAt<D>(v: Double2<D>, arr: Buffer<D>, index: int32): (r: Result<Buffer<D>>)
    ensures r.Ok? <==> 0 <= index && index + Count <= |arr|
    ensures (index < 0 || index > |arr|) ==> r == Err(OutOfRange("index"))
    ensures 0 <= index <= |arr| && r.Err? ==> r == Err(TooShort("array"))
    ensures r.Ok? ==> |r.value| == |arr| && r.value[index..index + Count] == v.Components()
    ensures r.Ok? ==> r.value[..index] == arr[..index] && r.value[index + Count..] == arr[index + Count..]
  {
    Buffers.CopyToAt(v.Components(), arr, index, TooShort("array"))
  }

  /** CopyTo(span): a span shorter than two is too short. */
  function CopyToSpan<D>(v: Double2<D>, dest: Buffer<D>): (r: Result<Buffer<D>>)
    ensures r.Ok? <==> Count <= |dest|
    ensures r.Err? ==> r.error == TooShort("destination")
    ensures r.Ok? ==> |r.value| == |dest| && r.value[..Count] == v.Components()
    ensures r.Ok? ==> r.value[Count..] == dest[Count..]
  {
    Buffers.CopyTo(v.Components(), dest, TooShort("destination"))
  }

  /** TryCopyTo(span): false, and nothing written, when the span is short. */
  function TryCopyTo<D>(v: Double2<D>, dest: Buffer<D>): (r: (bool, Buffer<D>))
    ensures r.0 <==> Count <= |dest|
    ensures !r.0 ==> r.1 == dest
    ensures r.0 ==> |r.1| == |dest| && r.1[..Count] == v.Components() && r.1[Count..] == dest[Count..]
  {
    Buffers.TryCopyTo(v.Components(), dest)
  }

  /** Creating, as intended, from what was copied gives back the vector.
      As written this holds only when the buffer has four elements. */
  lemma CopyThenCreate<D>(v: Double2<D>, dest: Buffer<D>, index: int32)
    ensures CopyToSpan(v, dest).Ok? ==> CreateFromSpanLogical(CopyToSpan(v, dest).value) == Ok(v)
    ensures CopyTo(v, dest).Ok? ==> CreateFromSpanLogical(CopyTo(v, dest).value) == Ok(v)
    ensures TryCopyTo(v, dest).0 ==> CreateFromSpanLogical(TryCopyTo(v, dest).1) == Ok(v)
    ensures CopyToAt(v, dest, index).Ok? ==>
              CreateFromSpanLogical(CopyToAt(v, dest, index).value[index..]) == Ok(v)
    ensures CopyToSpan(v, dest).Ok? ==>
              (CreateFromSpan(CopyToSpan(v, dest).value) == Ok(v) <==> Registers.Count <= |dest|)
  {
    if CopyToAt(v, dest, index).Ok? {
      var w := CopyToAt(v, dest, index).value;
      assert w[index..][..Count] == w[index..index + Count];
    }
  }

  // ---- lane-wise arithmetic ----

  /** `+`. */
  function Add<D>(ar: Arith<D>, a: Double2<D>, b: Double2<D>, ja: Register<D>, jb: Register<D>): (r: Double2<D>)
    ensures r.X == ar.add(a.X, b.X) && r.Y == ar.add(a.Y, b.Y)
  {
    AsVec2(Map2(ar.add, AsRegisterUnsafe2(a, ja), AsRegisterUnsafe2(b, jb)))
  }

  /** Binary `-`. */
  function Subtract<D>(ar: Arith<D>, a: Double2<D>, b: Double2<D>, ja: Register<D>, jb: Register<D>): (r: Double2<D>)
    ensures r.X == ar.sub(a.X, b.X) && r.Y == ar.sub(a.Y, b.Y)
  {
    AsVec2(Map2(ar.sub, AsRegisterUnsafe2(a, ja), AsRegisterUnsafe2(b, jb)))
  }

  /** `*` of two vectors. */
  function Multiply<D>(ar: Arith<D>, a: Double2<D>, b: Double2<D>, ja: Register<D>, jb: Register<D>): (r: Double2<D>)
    ensures r.X == ar.mul(a.X, b.X) && r.Y == ar.mul(a.Y, b.Y)
  {
    AsVec2(Map2(ar.mul, AsRegisterUnsafe2(a, ja), AsRegisterUnsafe2(b, jb)))
  }

  /** `/` of two vectors: lane-wise, with no fault on doubles. */
  function Divide<D>(ar: Arith<D>, a: Double2<D>, b: Double2<D>, ja: Register<D>, jb: Register<D>): (r: Double2<D>)
    ensures r.X == ar.div(a.X, b.X) && r.Y == ar.div(a.Y, b.Y)
  {
    AsVec2(Map2(ar.div, AsRegisterUnsafe2(a, ja), AsRegisterUnsafe2(b, jb)))
  }

  /** `*` by a scalar on the right. */
  function Scale<D>(ar: Arith<D>, v: Double2<D>, s: D, junk: Register<D>): (r: Double2<D>)
    ensures r.X == ar.mul(v.X, s) && r.Y == ar.mul(v.Y, s)
  {
    AsVec2(Map2(ar.mul, AsRegisterUnsafe2(v, junk), Broadcast(s)))
  }

  /** `*` by a scalar on the left, which the source forwards to `v * s`:
      the scalar becomes the right operand of every lane product. */
  function ScaleLeft<D>(ar: Arith<D>, s: D, v: Double2<D>, junk: Register<D>): (r: Double2<D>)
    ensures r.X == ar.mul(v.X, s) && r.Y == ar.mul(v.Y, s)
  {
    Scale(ar, v, s, junk)
  }

  /** `/` by a scalar. */
  function DivideScalar<D>(ar: Arith<D>, v: Double2<D>, s: D, junk: Register<D>): (r: Double2<D>)
    ensures r.X == ar.div(v.X, s) && r.Y == ar.div(v.Y, s)
  {
    AsVec2(Map2(ar.div, AsRegisterUnsafe2(v, junk), Broadcast(s)))
  }

  /** Unary `-`. */
  function Negate<D>(ar: Arith<D>, v: Double2<D>, junk: Register<D>): (r: Double2<D>)
    ensures r.X == ar.neg(v.X) && r.Y == ar.neg(v.Y)
  {
    AsVec2(Map1(ar.neg, AsRegisterUnsafe2(v, junk)))
  }

  /** MultiplyAddEstimate(a, b, c): `a * b + c` in each lane. */
  function MultiplyAdd<D>(ar: Arith<D>, a: Double2<D>, b: Double2<D>, c: Double2<D>,
                          ja: Register<D>, jb: Register<D>, jc: Register<D>): (r: Double2<D>)
    ensures r.X == ar.mulAdd(a.X, b.X, c.X) && r.Y == ar.mulAdd(a.Y, b.Y, c.Y)
  {
    AsVec2(Map3(ar.mulAdd, AsRegisterUnsafe2(a, ja), AsRegisterUnsafe2(b, jb), AsRegisterUnsafe2(c, jc)))
  }

  /** Scaling and dividing by a scalar are the vector operations with the
      broadcast scalar, from either side and for any padding. */
  lemma ScalarIsBroadcast<D>(ar: Arith<D>, v: Double2<D>, s: D, ja: Register<D>, jb: Register<D>)
    ensures Scale(ar, v, s, ja) == Multiply(ar, v, CreateFromScalar(s), ja, jb)
    ensures ScaleLeft(ar, s, v, ja) == Scale(ar, v, s, jb)
    ensures DivideScalar(ar, v, s, ja) == Divide(ar, v, CreateFromScalar(s), ja, jb)
  {
  }

  /** With exact reals, subtraction undoes addition and negation is
      subtraction from zero. */
  lemma ExactGroup(a: Double2<real>, b: Double2<real>, ja: Register<real>, jb: Register<real>, jc: Register<real>)
    ensures Subtract(Exact(), Add(Exact(), a, b, ja, jb), b, jc, jb) == a
    ensures Negate(Exact(), a, ja) == Subtract(Exact(), Create(Exact(), 0.0, 0.0), a, jb, ja)
  {
  }

  // ---- Dot and what is built on it ----

  /** Dot as written: the four-lane dot of the two unchecked registers, so
      the padding lanes contribute a product of their own. */
  function Dot<D>(ar: Arith<D>, a: Double2<D>, b: Double2<D>, ja: Register<D>, jb: Register<D>): (r: D)
    ensures r == ar.add(ar.add(ar.mul(a.X, b.X), ar.mul(a.Y, b.Y)),
                        ar.add(ar.mul(ja.e2, jb.e2), ar.mul(ja.e3, jb.e3)))
  {
    Registers.Dot(ar.add, ar.mul, AsRegisterUnsafe2(a, ja), AsRegisterUnsafe2(b, jb))
  }

  /** Dot as intended: the same four-lane dot over zero padding. */
  function DotLogical<D>(ar: Arith<D>, a: Double2<D>, b: Double2<D>): (r: D)
    ensures r == Dot(ar, a, b, Broadcast(ar.zero), Broadcast(ar.zero))
  {
    Registers.Dot(ar.add, ar.mul, AsRegister2(a, ar.zero), AsRegister2(b, ar.zero))
  }

  /** LengthSquared: Dot(v, v). Each operand of Dot is promoted on its own,
      so the two reads of v carry two independent paddings. */
  function LengthSquared<D>(ar: Arith<D>, v: Double2<D>, ja: Register<D>, jb: Register<D>): (r: D)
    ensures r == ar.add(ar.add(ar.mul(v.X, v.X), ar.mul(v.Y, v.Y)),
                        ar.add(ar.mul(ja.e2, jb.e2), ar.mul(ja.e3, jb.e3)))
  {
    Dot(ar, v, v, ja, jb)
  }

  /** Length: the square root of LengthSquared. */
  function Length<D>(ar: Arith<D>, sqrt: D -> D, v: Double2<D>, ja: Register<D>, jb: Register<D>): D
  {
    sqrt(LengthSquared(ar, v, ja, jb))
  }

  /** DistanceSquared: LengthSquared of the difference. The operands'
      padding does not matter; the two paddings of the difference do. */
  function DistanceSquared<D>(ar: Arith<D>, x: Double2<D>, y: Double2<D>,
                              jx: Register<D>, jy: Register<D>, ja: Register<D>, jb: Register<D>): (r: D)
    ensures r == LengthSquared(ar, Vec2(ar.sub(x.X, y.X), ar.sub(x.Y, y.Y)), ja, jb)
  {
    LengthSquared(ar, Subtract(ar, x, y, jx, jy), ja, jb)
  }

  /** Distance: the square root of DistanceSquared. */
  function Distance<D>(ar: Arith<D>, sqrt: D -> D, x: Double2<D>, y: Double2<D>,
                       jx: Register<D>, jy: Register<D>, ja: Register<D>, jb: Register<D>): (r: D)
    ensures r == Length(ar, sqrt, Vec2(ar.sub(x.X, y.X), ar.sub(x.Y, y.Y)), ja, jb)
  {
    sqrt(DistanceSquared(ar, x, y, jx, jy, ja, jb))
  }

  /** Normalize: each component divided by the length. */
  function Normalize<D>(ar: Arith<D>, sqrt: D -> D, v: Double2<D>,
                        ja: Register<D>, jb: Register<D>, jv: Register<D>): (r: Double2<D>)
    ensures r.X == ar.div(v.X, Length(ar, sqrt, v, ja, jb)) && r.Y == ar.div(v.Y, Length(ar, sqrt, v, ja, jb))
  {
    DivideScalar(ar, v, Length(ar, sqrt, v, ja, jb), jv)
  }

  /** With exact reals and zero padding, scaling the normalized vector by
      a nonzero length gives back the vector. */
  lemma NormalizeScalesBack(v: Double2<real>, sqrt: real -> real, jv: Register<real>, js: Register<real>)
    requires Length(Exact(), sqrt, v, Broadcast(0.0), Broadcast(0.0)) != 0.0
    ensures Scale(Exact(), Normalize(Exact(), sqrt, v, Broadcast(0.0), Broadcast(0.0), jv),
                  Length(Exact(), sqrt, v, Broadcast(0.0), Broadcast(0.0)), js) == v
  {
    var l := Length(Exact(), sqrt, v, Broadcast(0.0), Broadcast(0.0));
    var u := Normalize(Exact(), sqrt, v, Broadcast(0.0), Broadcast(0.0), jv);
    assert u.X == Quotient(v.X, l) && u.Y == Quotient(v.Y, l);
    var w := Scale(Exact(), u, l, js);
    assert w.X == u.X * l && w.Y == u.Y * l;
    assert Quotient(v.X, l) * l == v.X && Quotient(v.Y, l) * l == v.Y;
    assert w.X == v.X && w.Y == v.Y;
  }

  /** Reflect: with d = Dot(vector, normal), each lane is
      MultiplyAddEstimate(-(d + d), normal, vector). The temporaries'
      padding does not matter; the padding read by Dot does. */
  function Reflect<D>(ar: Arith<D>, v: Double2<D>, n: Double2<D>,
                      jv: Register<D>, jn: Register<D>, jt: Register<D>, ju: Register<D>): (r: Double2<D>)
    ensures var d := Dot(ar, v, n, jv, jn);
            r.X == ar.mulAdd(ar.neg(ar.add(d, d)), n.X, v.X)
            && r.Y == ar.mulAdd(ar.neg(ar.add(d, d)), n.Y, v.Y)
  {
    var tmp := CreateFromScalar(Dot(ar, v, n, jv, jn));
    var twice := Add(ar, tmp, tmp, jt, jt);
    MultiplyAdd(ar, Negate(ar, twice, ju), n, v, ju, jn, jv)
  }

  /** The reflection of v across the line normal to n over the reals,
      v - 2 (v . n) n, as a reference for Reflect. */
  function Reflection(v: Double2<real>, n: Double2<real>): Double2<real>
  {
    var d := DotLogical(Exact(), v, n);
    Vec2(Mirror(v.X, d, n.X), Mirror(v.Y, d, n.Y))
  }

  /** With exact reals and zero padding under Dot, Reflect is the
      reflection v - 2 (v . n) n, whatever the temporaries' padding. */
  lemma ReflectExact(v: Double2<real>, n: Double2<real>, jt: Register<real>, ju: Register<real>)
    ensures Reflect(Exact(), v, n, Broadcast(0.0), Broadcast(0.0), jt, ju) == Reflection(v, n)
  {
    var d := DotLogical(Exact(), v, n);
    var r := Reflect(Exact(), v, n, Broadcast(0.0), Broadcast(0.0), jt, ju);
    assert d == Dot(Exact(), v, n, Broadcast(0.0), Broadcast(0.0));
    assert r.X == -(d + d) * n.X + v.X && r.Y == -(d + d) * n.Y + v.Y;
    Twice(d, n.X, v.X);
    Twice(d, n.Y, v.Y);
    assert r.X == Mirror(v.X, d, n.X);
    assert r.Y == Mirror(v.Y, d, n.Y);
    assert Reflection(v, n) == Vec2(Mirror(v.X, d, n.X), Mirror(v.Y, d, n.Y));
  }

  /** Across a unit normal, the reflection negates the dot with the
      normal, and reflecting twice gives back the vector. */
  lemma ReflectionTwice(v: Double2<real>, n: Double2<real>)
    requires DotLogical(Exact(), n, n) == 1.0
    ensures DotLogical(Exact(), Reflection(v, n), n) == -DotLogical(Exact(), v, n)
    ensures Reflection(Reflection(v, n), n) == v
  {
    var d := DotLogical(Exact(), v, n);
    var w := Reflection(v, n);
    DotReadsPadding(n, n, Broadcast(0.0), Broadcast(0.0));
    DotReadsPadding(v, n, Broadcast(0.0), Broadcast(0.0));
    DotReadsPadding(w, n, Broadcast(0.0), Broadcast(0.0));
    MirroredDot(v.X, v.Y, n.X, n.Y, d);
    assert DotLogical(Exact(), w, n) == -d;
    Unmirror(v.X, d, n.X);
    Unmirror(v.Y, d, n.Y);
  }

  /** Reflect across a unit normal, with zero padding under Dot, is an
      involution that negates the dot with the normal. */
  lemma ReflectTwice(v: Double2<real>, n: Double2<real>, jt: Register<real>, ju: Register<real>)
    requires DotLogical(Exact(), n, n) == 1.0
    ensures var w := Reflect(Exact(), v, n, Broadcast(0.0), Broadcast(0.0), jt, ju);
            DotLogical(Exact(), w, n) == -DotLogical(Exact(), v, n)
            && Reflect(Exact(), w, n, Broadcast(0.0), Broadcast(0.0), jt, ju) == v
  {
    ReflectExact(v, n, jt, ju);
    ReflectExact(Reflection(v, n), n, jt, ju);
    ReflectionTwice(v, n);
  }

  /** For a unit (nx, ny) and d = vx nx + vy ny, the mirrored point has
      dot -d with the normal. */
  lemma MirroredDot(vx: real, vy: real, nx: real, ny: real, d: real)
    requires d == vx * nx + vy * ny && nx * nx + ny * ny == 1.0
    ensures Mirror(vx, d, nx) * nx + Mirror(vy, d, ny) * ny == -d
  {
    assert Mirror(vx, d, nx) * nx + Mirror(vy, d, ny) * ny
        == (vx * nx + vy * ny) - 2.0 * d * (nx * nx + ny * ny);
  }

  /** With exact reals the written Dot adds the padding lanes' product to
      the dot of the components, and so does LengthSquared with the product
      of its two reads' paddings; the intended Dot is the dot of the
      components. */
  lemma DotReadsPadding(a: Double2<real>, b: Double2<real>, ja: Register<real>, jb: Register<real>)
    ensures Dot(Exact(), a, b, ja, jb) == a.X * b.X + a.Y * b.Y + (ja.e2 * jb.e2 + ja.e3 * jb.e3)
    ensures DotLogical(Exact(), a, b) == a.X * b.X + a.Y * b.Y
    ensures LengthSquared(Exact(), a, ja, jb) == DotLogical(Exact(), a, a) + (ja.e2 * jb.e2 + ja.e3 * jb.e3)
  {
  }

  /** With independent paddings the written LengthSquared can be negative,
      so that Length takes the square root of a negative number: for (0, 0)
      with paddings of ones and of minus ones it is -2. The intended
      LengthSquared is never negative. */
  lemma LengthSquaredCanBeNegative(v: Double2<real>)
    ensures LengthSquared(Exact(), Vec2(0.0, 0.0), Broadcast(1.0), Broadcast(-1.0)) == -2.0
    ensures DotLogical(Exact(), v, v) >= 0.0
  {
    DotReadsPadding(v, v, Broadcast(0.0), Broadcast(0.0));
  }

  /** The dot of (0, 0) and (1, 1) is 2 when both paddings hold ones, not 0. */
  lemma DotPaddingExample()
    ensures Dot(Exact(), Vec2(0.0, 0.0), Vec2(1.0, 1.0), Broadcast(1.0), Broadcast(1.0)) == 2.0
    ensures DotLogical(Exact(), Vec2(0.0, 0.0), Vec2(1.0, 1.0)) == 0.0
  {
    DotReadsPadding(Vec2(0.0, 0.0), Vec2(1.0, 1.0), Broadcast(1.0), Broadcast(1.0));
  }

  // ---- equality ----

  /** `==` (with `same` the lane `==`) and Equals (with `same` the lane
      Equals) as written: all four register lanes compared. */
  function Equal<D>(same: (D, D) -> bool, a: Double2<D>, b: Double2<D>, ja: Register<D>, jb: Register<D>): (r: bool)
    ensures r <==> same(a.X, b.X) && same(a.Y, b.Y) && same(ja.e2, jb.e2) && same(ja.e3, jb.e3)
  {
    Registers.AllLanes(same, AsRegisterUnsafe2(a, ja), AsRegisterUnsafe2(b, jb))
  }

  /** `==` and Equals as intended: zero padding on both sides, so only the
      components decide whenever zero compares equal to itself. */
  function EqualLogical<D>(same: (D, D) -> bool, zero: D, a: Double2<D>, b: Double2<D>): (r: bool)
    ensures same(zero, zero) ==> (r <==> same(a.X, b.X) && same(a.Y, b.Y))
  {
    Registers.AllLanes(same, AsRegister2(a, zero), AsRegister2(b, zero))
  }

  /** With exact reals, a vector is unequal to itself as written whenever
      the operands' padding differs; the intended comparison is reflexive. */
  lemma EqualReadsPadding(v: Double2<real>, ja: Register<real>, jb: Register<real>)
    requires ja.e2 != jb.e2 || ja.e3 != jb.e3
    ensures !Equal(Exact().equal, v, v, ja, jb) && !Equal(Exact().same, v, v, ja, jb)
    ensures EqualLogical(Exact().equal, 0.0, v, v) && EqualLogical(Exact().same, 0.0, v, v)
  {
  }
}

=== FILE: double3.dfy ===
/** Double3: three `double` components carried through a 4-lane register.

    As for Double2, operations use the unchecked promotion, so lane 3 holds
    whatever the `junk` argument says: lane-wise operations do not depend on
    it, while Dot, the lengths and distances built on it, and equality do,
    and Create(span) asks the register for four elements. */
module Double3Vector {
  import opened Lanes
  import opened Results
  import opened VectorTypes
  import opened VectorExtensions
  import opened DoubleLanes
  import Int32Arith
  import Buffers
  import Registers

  const Count: nat := 3

  // ---- construction ----

  /** Double3(value) / Create(value). */
  function CreateFromScalar<D>(value: D): (r: Double3<D>)
    ensures forall i :: 0 <= i < Count ==> r.At(i) == value
  {
    AsVec3(Broadcast(value))
  }

  /** Double3(x, y, z) / Create(x, y, z). */
  function Create<D>(ar: Arith<D>, x: D, y: D, z: D): (r: Double3<D>)
    ensures r.X == x && r.Y == y && r.Z == z
  {
    AsVec3(Register(x, y, z, ar.zero))
  }

  /** Double3(Double2, z) / Create(Double2, z): the Double2 is promoted
      unchecked and `z` written over lane 2, so the padding never reaches
      the result. */
  function CreateFromDouble2<D>(v: Double2<D>, z: D, junk: Register<D>): (r: Double3<D>)
    ensures r.X == v.X && r.Y == v.Y && r.Z == z
  {
    AsVec3(AsRegisterUnsafe2(v, junk).WithLane(2, z))
  }

  /** Create(span) as written: the register is created from the span, which
      needs four elements although only three are kept. */
  function CreateFromSpan<D>(values: Buffer<D>): (r: Result<Double3<D>>)
    ensures r.Ok? <==> Registers.Count <= |values|
    ensures r.Err? ==> r.error == OutOfRange("values")
    ensures r.Ok? ==> r.value.Components() == values[..Count]
  {
    var q := Registers.CreateFromSpan(values);
    if q.Err? then Err(q.error) else Ok(AsVec3(q.value))
  }

  /** Create(span) as intended: three elements suffice. */
  function CreateFromSpanLogical<D>(values: Buffer<D>): (r: Result<Double3<D>>)
    ensures r.Ok? <==> Count <= |values|
    ensures r.Err? ==> r.error == OutOfRange("values")
    ensures r.Ok? ==> r.value.Components() == values[..Count]
  {
    var s := Buffers.ReadFirst(values, Count);
    if s.Err? then Err(s.error) else Ok(Vec3(s.value[0], s.value[1], s.value[2]))
  }

  /** A three-element span is rejected as written and accepted as intended;
      from four elements on, both read the same three components. */
  lemma CreateFromSpanNeedsFour<D>(x: D, y: D, z: D, values: Buffer<D>)
    ensures CreateFromSpan([x, y, z]) == Err(OutOfRange("values"))
    ensures CreateFromSpanLogical([x, y, z]) == Ok(Vec3(x, y, z))
    ensures Registers.Count <= |values| ==> CreateFromSpan(values) == CreateFromSpanLogical(values)
  {
  }

  /** UnitX, UnitY and UnitZ by axis. */
  function Unit<D>(ar: Arith<D>, axis: nat): Double3<D>
    requires axis < Count
  {
    match axis
    case 0 => Create(ar, ar.one, ar.zero, ar.zero)
    case 1 => Create(ar, ar.zero, ar.one, ar.zero)
    case 2 => Create(ar, ar.zero, ar.zero, ar.one)
  }

  /** Each unit vector is one on its own axis and zero on the others. */
  lemma UnitsAreOneHot<D>(ar: Arith<D>, axis: nat, i: nat)
    requires axis < Count && i < Count
    ensures Unit(ar, axis).At(i) == if axis == i then ar.one else ar.zero
  {
  }

  // ---- indexer ----

  /** this[index] get: indices outside [0, 3) are rejected before the
      register is read. */
  function Get<D>(v: Double3<D>, index: int32, junk: Register<D>): (r: Result<D>)
    ensures r.Ok? <==> 0 <= index < Count
    ensures r.Ok? ==> r.value == v.At(index as nat)
    ensures r.Err? ==> r.error == OutOfRange("index")
  {
    Int32Arith.UnsignedBoundCheck(index, Count);
    if Int32Arith.Unsigned(index) >= Count then Err(OutOfRange("index"))
    else Registers.GetElement(AsRegisterUnsafe3(v, junk), index)
  }

  /** this[index] set: the vector with component `index` replaced. */
  function Set<D>(v: Double3<D>, index: int32, value: D, junk: Register<D>): (r: Result<Double3<D>>)
    ensures r.Ok? <==> 0 <= index < Count
    ensures r.Ok? ==> r.value.At(index as nat) == value
    ensures r.Ok? ==> forall i :: 0 <= i < Count && i != index as nat ==> r.value.At(i) == v.At(i)
    ensures r.Err? ==> r.error == OutOfRange("index")
  {
    Int32Arith.UnsignedBoundCheck(index, Count);
    if Int32Arith.Unsigned(index) >= Count then Err(OutOfRange("index"))
    else
      match Registers.WithElement(AsRegisterUnsafe3(v, junk), index, value)
      case Ok(w) => Ok(AsVec3(w))
      case Err(e) => Err(e)
  }

  /** Reading a component back after setting it gives the value set, and
      the other components are untouched, whatever the padding was. */
  lemma GetAfterSet<D>(v: Double3<D>, index: int32, j: int32, value: D, junk1: Register<D>, junk2: Register<D>)
    requires 0 <= index < Count
    ensures Get(Set(v, index, value, junk1).value, index, junk2) == Ok(value)
    ensures j != index ==> Get(Set(v, index, value, junk1).value, j, junk2) == Get(v, j, junk2)
  {
  }

  // ---- copying ----

  /** CopyTo(array): an array shorter than three is too short. */
  function CopyTo<D>(v: Double3<D>, arr: Buffer<D>): (r: Result<Buffer<D>>)
    ensures r.Ok? <==> Count <= |arr|
    ensures r.Err? ==> r.error == TooShort("array")
    ensures r.Ok? ==> |r.value| == |arr| && r.value[..Count] == v.Components()
    ensures r.Ok? ==> r.value[Count..] == arr[Count..]
  {
    Buffers.CopyTo(v.Components(), arr, TooShort("array"))
  }

  /** CopyTo(array, index): an index outside [0, length] is out of range;
      fewer than three free slots is too short. */
  function CopyToAt<D>(v: Double3<D>, arr: Buffer<D>, index: int32): (r: Result<Buffer<D>>)
    ensures r.Ok? <==> 0 <= index && index + Count <= |arr|
    ensures (index < 0 || index > |arr|) ==> r == Err(OutOfRange("index"))
    ensures 0 <= index <= |arr| && r.Err? ==> r == Err(TooShort("array"))
    ensures r.Ok? ==> |r.value| == |arr| && r.value[index..index + Count] == v.Components()
    ensures r.Ok? ==> r.value[..index] == arr[..index] && r.value[index + Count..] == arr[index + Count..]
  {
    Buffers.CopyToAt(v.Components(), arr, index, TooShort("array"))
  }

  /** CopyTo(span): a span shorter than three is too short. */
  function CopyToSpan<D>(v: Double3<D>, dest: Buffer<D>): (r: Result<Buffer<D>>)
    ensures r.Ok? <==> Count <= |dest|
    ensures r.Err? ==> r.error == TooShort("destination")
    ensures r.Ok? ==> |r.value| == |dest| && r.value[..Count] == v.Components()
    ensures r.Ok? ==> r.value[Count..] == dest[Count..]
  {
    Buffers.CopyTo(v.Components(), dest, TooShort("destination"))
  }

  /** TryCopyTo(span): false, and nothing written, when the span is short. */
  function TryCopyTo<D>(v: Double3<D>, dest: Buffer<D>): (r: (bool, Buffer<D>))
    ensures r.0 <==> Count <= |dest|
    ensures !r.0 ==> r.1 == dest
    ensures r.0 ==> |r.1| == |dest| && r.1[..Count] == v.Components() && r.1[Count..] == dest[Count..]
  {
    Buffers.TryCopyTo(v.Components(), dest)
  }

  /** Creating, as intended, from what was copied gives back the vector.
      As written this holds only when the buffer has four elements. */
  lemma CopyThenCreate<D>(v: Double3<D>, dest: Buffer<D>, index: int32)
    ensures CopyToSpan(v, dest).Ok? ==> CreateFromSpanLogical(CopyToSpan(v, dest).value) == Ok(v)
    ensures CopyTo(v, dest).Ok? ==> CreateFromSpanLogical(CopyTo(v, dest).value) == Ok(v)
    ensures TryCopyTo(v, dest).0 ==> CreateFromSpanLogical(TryCopyTo(v, dest).1) == Ok(v)
    ensures CopyToAt(v, dest, index).Ok? ==>
              CreateFromSpanLogical(CopyToAt(v, dest, index).value[index..]) == Ok(v)
    ensures CopyToSpan(v, dest).Ok? ==>
              (CreateFromSpan(CopyToSpan(v, dest).value) == Ok(v) <==> Registers.Count <= |dest|)
  {
    if CopyToAt(v, dest, index).Ok? {
      var w := CopyToAt(v, dest, index).value;
      assert w[index..][..Count] == w[index..index + Count];
    }
  }

  // ---- lane-wise arithmetic ----

  /** `+`. */
  function Add<D>(ar: Arith<D>, a: Double3<D>, b: Double3<D>, ja: Register<D>, jb: Register<D>): (r: Double3<D>)
    ensures r.X == ar.add(a.X, b.X) && r.Y == ar.add(a.Y, b.Y) && r.Z == ar.add(a.Z, b.Z)
  {
    AsVec3(Map2(ar.add, AsRegisterUnsafe3(a, ja), AsRegisterUnsafe3(b, jb)))
  }

  /** Binary `-`. */
  function Subtract<D>(ar: Arith<D>, a: Double3<D>, b: Double3<D>, ja: Register<D>, jb: Register<D>): (r: Double3<D>)
    ensures r.X == ar.sub(a.X, b.X) && r.Y == ar.sub(a.Y, b.Y) && r.Z == ar.sub(a.Z, b.Z)
  {
    AsVec3(Map2(ar.sub, AsRegisterUnsafe3(a, ja), AsRegisterUnsafe3(b, jb)))
  }

  /** `*` of two vectors. */
  function Multiply<D>(ar: Arith<D>, a: Double3<D>, b: Double3<D>, ja: Register<D>, jb: Register<D>): (r: Double3<D>)
    ensures r.X == ar.mul(a.X, b.X) && r.Y == ar.mul(a.Y, b.Y) && r.Z == ar.mul(a.Z, b.Z)
  {
    AsVec3(Map2(ar.mul, AsRegisterUnsafe3(a, ja), AsRegisterUnsafe3(b, jb)))
  }

  /** `/` of two vectors: lane-wise, with no fault on doubles. */
  function Divide<D>(ar: Arith<D>, a: Double3<D>, b: Double3<D>, ja: Register<D>, jb: Register<D>): (r: Double3<D>)
    ensures r.X == ar.div(a.X, b.X) && r.Y == ar.div(a.Y, b.Y) && r.Z == ar.div(a.Z, b.Z)
  {
    AsVec3(Map2(ar.div, AsRegisterUnsafe3(a, ja), AsRegisterUnsafe3(b, jb)))
  }

  /** `*` by a scalar on the right. */
  function Scale<D>(ar: Arith<D>, v: Double3<D>, s: D, junk: Register<D>): (r: Double3<D>)
    ensures r.X == ar.mul(v.X, s) && r.Y == ar.mul(v.Y, s) && r.Z == ar.mul(v.Z, s)
  {
    AsVec3(Map2(ar.mul, AsRegisterUnsafe3(v, junk), Broadcast(s)))
  }

  /** `*` by a scalar on the left, which the source forwards to `v * s`:
      the scalar becomes the right operand of every lane product. */
  function ScaleLeft<D>(ar: Arith<D>, s: D, v: Double3<D>, junk: Register<D>): (r: Double3<D>)
    ensures r.X == ar.mul(v.X, s) && r.Y == ar.mul(v.Y, s) && r.Z == ar.mul(v.Z, s)
  {
    Scale(ar, v, s, junk)
  }

  /** `/` by a scalar. */
  function DivideScalar<D>(ar: Arith<D>, v: Double3<D>, s: D, junk: Register<D>): (r: Double3<D>)
    ensures r.X == ar.div(v.X, s) && r.Y == ar.div(v.Y, s) && r.Z == ar.div(v.Z, s)
  {
    AsVec3(Map2(ar.div, AsRegisterUnsafe3(v, junk), Broadcast(s)))
  }

  /** Unary `-`. */
  function Negate<D>(ar: Arith<D>, v: Double3<D>, junk: Register<D>): (r: Double3<D>)
    ensures r.X == ar.neg(v.X) && r.Y == ar.neg(v.Y) && r.Z == ar.neg(v.Z)
  {
    AsVec3(Map1(ar.neg, AsRegisterUnsafe3(v, junk)))
  }

  /** MultiplyAddEstimate(a, b, c): `a * b + c` in each lane. */
  function MultiplyAdd<D>(ar: Arith<D>, a: Double3<D>, b: Double3<D>, c: Double3<D>,
                          ja: Register<D>, jb: Register<D>, jc: Register<D>): (r: Double3<D>)
    ensures r.X == ar.mulAdd(a.X, b.X, c.X) && r.Y == ar.mulAdd(a.Y, b.Y, c.Y)
    ensures r.Z == ar.mulAdd(a.Z, b.Z, c.Z)
  {
    AsVec3(Map3(ar.mulAdd, AsRegisterUnsafe3(a, ja), AsRegisterUnsafe3(b, jb), AsRegisterUnsafe3(c, jc)))
  }

  /** Scaling and dividing by a scalar are the vector operations with the
      broadcast scalar, from either side and for any padding. */
  lemma ScalarIsBroadcast<D>(ar: Arith<D>, v: Double3<D>, s: D, ja: Register<D>, jb: Register<D>)
    ensures Scale(ar, v, s, ja) == Multiply(ar, v, CreateFromScalar(s), ja, jb)
    ensures ScaleLeft(ar, s, v, ja) == Scale(ar, v, s, jb)
    ensures DivideScalar(ar, v, s, ja) == Divide(ar, v, CreateFromScalar(s), ja, jb)
  {
  }

  /** With exact reals, subtraction undoes addition and negation is
      subtraction from zero. */
  lemma ExactGroup(a: Double3<real>, b: Double3<real>, ja: Register<real>, jb: Register<real>, jc: Register<real>)
    ensures Subtract(Exact(), Add(Exact(), a, b, ja, jb), b, jc, jb) == a
    ensures Negate(Exact(), a, ja) == Subtract(Exact(), Create(Exact(), 0.0, 0.0, 0.0), a, jb, ja)
  {
  }

  // ---- Dot and what is built on it ----

  /** Dot as written: the four-lane dot of the two unchecked registers, so
      the padding lanes contribute a product of their own. */
  function Dot<D>(ar: Arith<D>, a: Double3<D>, b: Double3<D>, ja: Register<D>, jb: Register<D>): (r: D)
    ensures r == ar.add(ar.add(ar.mul(a.X, b.X), ar.mul(a.Y, b.Y)),
                        ar.add(ar.mul(a.Z, b.Z), ar.mul(ja.e3, jb.e3)))
  {
    Registers.Dot(ar.add, ar.mul, AsRegisterUnsafe3(a, ja), AsRegisterUnsafe3(b, jb))
  }

  /** Dot as intended: the same four-lane dot over zero padding. */
  function DotLogical<D>(ar: Arith<D>, a: Double3<D>, b: Double3<D>): (r: D)
    ensures r == Dot(ar, a, b, Broadcast(ar.zero), Broadcast(ar.zero))
  {
    Registers.Dot(ar.add, ar.mul, AsRegister3(a, ar.zero), AsRegister3(b, ar.zero))
  }

  /** LengthSquared: Dot(v, v). Each operand of Dot is promoted on its own,
      so the two reads of v carry two independent paddings. */
  function LengthSquared<D>(ar: Arith<D>, v: Double3<D>, ja: Register<D>, jb: Register<D>): (r: D)
    ensures r == ar.add(ar.add(ar.mul(v.X, v.X), ar.mul(v.Y, v.Y)),
                        ar.add(ar.mul(v.Z, v.Z), ar.mul(ja.e3, jb.e3)))
  {
    Dot(ar, v, v, ja, jb)
  }

  /** Length: the square root of LengthSquared. */
  function Length<D>(ar: Arith<D>, sqrt: D -> D, v: Double3<D>, ja: Register<D>, jb: Register<D>): D
  {
    sqrt(LengthSquared(ar, v, ja, jb))
  }

  /** DistanceSquared: LengthSquared of the difference. The operands'
      padding does not matter; the two paddings of the difference do. */
  function DistanceSquared<D>(ar: Arith<D>, x: Double3<D>, y: Double3<D>,
                              jx: Register<D>, jy: Register<D>, ja: Register<D>, jb: Register<D>): (r: D)
    ensures r == LengthSquared(ar, Vec3(ar.sub(x.X, y.X), ar.sub(x.Y, y.Y), ar.sub(x.Z, y.Z)), ja, jb)
  {
    LengthSquared(ar, Subtract(ar, x, y, jx, jy), ja, jb)
  }

  /** Distance: the square root of DistanceSquared. */
  function Distance<D>(ar: Arith<D>, sqrt: D -> D, x: Double3<D>, y: Double3<D>,
                       jx: Register<D>, jy: Register<D>, ja: Register<D>, jb: Register<D>): (r: D)
    ensures r == Length(ar, sqrt, Vec3(ar.sub(x.X, y.X), ar.sub(x.Y, y.Y), ar.sub(x.Z, y.Z)), ja, jb)
  {
    sqrt(DistanceSquared(ar, x, y, jx, jy, ja, jb))
  }

  /** Normalize: each component divided by the length. */
  function Normalize<D>(ar: Arith<D>, sqrt: D -> D, v: Double3<D>,
                        ja: Register<D>, jb: Register<D>, jv: Register<D>): (r: Double3<D>)
    ensures r.X == ar.div(v.X, Length(ar, sqrt, v, ja, jb)) && r.Y == ar.div(v.Y, Length(ar, sqrt, v, ja, jb))
    ensures r.Z == ar.div(v.Z, Length(ar, sqrt, v, ja, jb))
  {
    DivideScalar(ar, v, Length(ar, sqrt, v, ja, jb), jv)
  }

  /** With exact reals and zero padding, scaling the normalized vector by
      a nonzero length gives back the vector. */
  lemma NormalizeScalesBack(v: Double3<real>, sqrt: real -> real, jv: Register<real>, js: Register<real>)
    requires Length(Exact(), sqrt, v, Broadcast(0.0), Broadcast(0.0)) != 0.0
    ensures Scale(Exact(), Normalize(Exact(), sqrt, v, Broadcast(0.0), Broadcast(0.0), jv),
                  Length(Exact(), sqrt, v, Broadcast(0.0), Broadcast(0.0)), js) == v
  {
    var l := Length(Exact(), sqrt, v, Broadcast(0.0), Broadcast(0.0));
    var u := Normalize(Exact(), sqrt, v, Broadcast(0.0), Broadcast(0.0), jv);
    assert u.X == Quotient(v.X, l) && u.Y == Quotient(v.Y, l) && u.Z == Quotient(v.Z, l);
    var w := Scale(Exact(), u, l, js);
    assert w.X == u.X * l && w.Y == u.Y * l && w.Z == u.Z * l;
    assert Quotient(v.X, l) * l == v.X && Quotient(v.Y, l) * l == v.Y && Quotient(v.Z, l) * l == v.Z;
    assert w.X == v.X && w.Y == v.Y && w.Z == v.Z;
  }

  /** Reflect: with d = Dot(vector, normal), each lane is
      MultiplyAddEstimate(-(d + d), normal, vector). The temporaries'
      padding does not matter; the padding read by Dot does. */
  function Reflect<D>(ar: Arith<D>, v: Double3<D>, n: Double3<D>,
                      jv: Register<D>, jn: Register<D>, jt: Register<D>, ju: Register<D>): (r: Double3<D>)
    ensures var d := Dot(ar, v, n, jv, jn);
            r.X == ar.mulAdd(ar.neg(ar.add(d, d)), n.X, v.X)
            && r.Y == ar.mulAdd(ar.neg(ar.add(d, d)), n.Y, v.Y)
            && r.Z == ar.mulAdd(ar.neg(ar.add(d, d)), n.Z, v.Z)
  {
    var tmp := CreateFromScalar(Dot(ar, v, n, jv, jn));
    var twice := Add(ar, tmp, tmp, jt, jt);
    MultiplyAdd(ar, Negate(ar, twice, ju), n, v, ju, jn, jv)
  }

  /** The reflection of v across the plane normal to n over the reals,
      v - 2 (v . n) n, as a reference for Reflect. */
  function Reflection(v: Double3<real>, n: Double3<real>): Double3<real>
  {
    var d := DotLogical(Exact(), v, n);
    Vec3(Mirror(v.X, d, n.X), Mirror(v.Y, d, n.Y), Mirror(v.Z, d, n.Z))
  }

  /** With exact reals and zero padding under Dot, Reflect is the
      reflection v - 2 (v . n) n, whatever the temporaries' padding. */
  lemma ReflectExact(v: Double3<real>, n: Double3<real>, jt: Register<real>, ju: Register<real>)
    ensures Reflect(Exact(), v, n, Broadcast(0.0), Broadcast(0.0), jt, ju) == Reflection(v, n)
  {
    var d := DotLogical(Exact(), v, n);
    var r := Reflect(Exact(), v, n, Broadcast(0.0), Broadcast(0.0), jt, ju);
    assert d == Dot(Exact(), v, n, Broadcast(0.0), Broadcast(0.0));
    assert r.X == -(d + d) * n.X + v.X && r.Y == -(d + d) * n.Y + v.Y && r.Z == -(d + d) * n.Z + v.Z;
    Twice(d, n.X, v.X);
    Twice(d, n.Y, v.Y);
    Twice(d, n.Z, v.Z);
    assert r.X == Mirror(v.X, d, n.X);
    assert r.Y == Mirror(v.Y, d, n.Y);
    assert r.Z == Mirror(v.Z, d, n.Z);
    assert Reflection(v, n) == Vec3(Mirror(v.X, d, n.X), Mirror(v.Y, d, n.Y),
                                    Mirror(v.Z, d, n.Z));
  }

  /** Across a unit normal, the reflection negates the dot with the
      normal, and reflecting twice gives back the vector. */
  lemma ReflectionTwice(v: Double3<real>, n: Double3<real>)
    requires DotLogical(Exact(), n, n) == 1.0
    ensures DotLogical(Exact(), Reflection(v, n), n) == -DotLogical(Exact(), v, n)
    ensures Reflection(Reflection(v, n), n) == v
  {
    var d := DotLogical(Exact(), v, n);
    var w := Reflection(v, n);
    DotReadsPadding(n, n, Broadcast(0.0), Broadcast(0.0));
    DotReadsPadding(v, n, Broadcast(0.0), Broadcast(0.0));
    DotReadsPadding(w, n, Broadcast(0.0), Broadcast(0.0));
    MirroredDot3(v.X, v.Y, v.Z, n.X, n.Y, n.Z, d);
    assert DotLogical(Exact(), w, n) == -d;
    Unmirror(v.X, d, n.X);
    Unmirror(v.Y, d, n.Y);
    Unmirror(v.Z, d, n.Z);
  }

  /** Reflect across a unit normal, with zero padding under Dot, is an
      involution that negates the dot with the normal. */
  lemma ReflectTwice(v: Double3<real>, n: Double3<real>, jt: Register<real>, ju: Register<real>)
    requires DotLogical(Exact(), n, n) == 1.0
    ensures var w := Reflect(Exact(), v, n, Broadcast(0.0), Broadcast(0.0), jt, ju);
            DotLogical(Exact(), w, n) == -DotLogical(Exact(), v, n)
            && Reflect(Exact(), w, n, Broadcast(0.0), Broadcast(0.0), jt, ju) == v
  {
    ReflectExact(v, n, jt, ju);
    ReflectExact(Reflection(v, n), n, jt, ju);
    ReflectionTwice(v, n);
  }

  /** For a unit (nx, ny, nz) and d = vx nx + vy ny + vz nz, the mirrored
      point has dot -d with the normal. */
  lemma MirroredDot3(vx: real, vy: real, vz: real, nx: real, ny: real, nz: real, d: real)
    requires d == vx * nx + vy * ny + vz * nz && nx * nx + ny * ny + nz * nz == 1.0
    ensures Mirror(vx, d, nx) * nx + Mirror(vy, d, ny) * ny
            + Mirror(vz, d, nz) * nz == -d
  {
    assert Mirror(vx, d, nx) * nx + Mirror(vy, d, ny) * ny
           + Mirror(vz, d, nz) * nz
        == (vx * nx + vy * ny + vz * nz) - 2.0 * d * (nx * nx + ny * ny + nz * nz);
  }

  /** With exact reals the written Dot adds the padding lanes' product to
      the dot of the components, and so does LengthSquared with the product
      of its two reads' paddings; the intended Dot is the dot of the
      components. */
  lemma DotReadsPadding(a: Double3<real>, b: Double3<real>, ja: Register<real>, jb: Register<real>)
    ensures Dot(Exact(), a, b, ja, jb) == a.X * b.X + a.Y * b.Y + a.Z * b.Z + ja.e3 * jb.e3
    ensures DotLogical(Exact(), a, b) == a.X * b.X + a.Y * b.Y + a.Z * b.Z
    ensures LengthSquared(Exact(), a, ja, jb) == DotLogical(Exact(), a, a) + ja.e3 * jb.e3
  {
  }

  /** With independent paddings the written LengthSquared can be negative,
      so that Length takes the square root of a negative number: for
      (0, 0, 0) with paddings of ones and of minus ones it is -1. The
      intended LengthSquared is never negative. */
  lemma LengthSquaredCanBeNegative(v: Double3<real>)
    ensures LengthSquared(Exact(), Vec3(0.0, 0.0, 0.0), Broadcast(1.0), Broadcast(-1.0)) == -1.0
    ensures DotLogical(Exact(), v, v) >= 0.0
  {
    DotReadsPadding(v, v, Broadcast(0.0), Broadcast(0.0));
  }

  /** The demonstration program's Dot((0, 0, 0), (1, 1, 1)) is 1, not 0,
      when both paddings hold ones. */
  lemma DotPaddingExample()
    ensures Dot(Exact(), Vec3(0.0, 0.0, 0.0), Vec3(1.0, 1.0, 1.0), Broadcast(1.0), Broadcast(1.0)) == 1.0
    ensures DotLogical(Exact(), Vec3(0.0, 0.0, 0.0), Vec3(1.0, 1.0, 1.0)) == 0.0
  {
    DotReadsPadding(Vec3(0.0, 0.0, 0.0), Vec3(1.0, 1.0, 1.0), Broadcast(1.0), Broadcast(1.0));
  }

  // ---- equality ----

  /** `==` (with `same` the lane `==`) and Equals (with `same` the lane
      Equals) as written: all four register lanes compared. */
  function Equal<D>(same: (D, D) -> bool, a: Double3<D>, b: Double3<D>, ja: Register<D>, jb: Register<D>): (r: bool)
    ensures r <==> same(a.X, b.X) && same(a.Y, b.Y) && same(a.Z, b.Z) && same(ja.e3, jb.e3)
  {
    Registers.AllLanes(same, AsRegisterUnsafe3(a, ja), AsRegisterUnsafe3(b, jb))
  }

  /** `==` and Equals as intended: zero padding on both sides, so only the
      components decide whenever zero compares equal to itself. */
  function EqualLogical<D>(same: (D, D) -> bool, zero: D, a: Double3<D>, b: Double3<D>): (r: bool)
    ensures same(zero, zero) ==> (r <==> same(a.X, b.X) && same(a.Y, b.Y) && same(a.Z, b.Z))
  {
    Registers.AllLanes(same, AsRegister3(a, zero), AsRegister3(b, zero))
  }

  /** With exact reals, a vector is unequal to itself as written whenever
      the operands' padding differs; the intended comparison is reflexive. */
  lemma EqualReadsPadding(v: Double3<real>, ja: Register<real>, jb: Register<real>)
    requires ja.e3 != jb.e3
    ensures !Equal(Exact().equal, v, v, ja, jb) && !Equal(Exact().same, v, v, ja, jb)
    ensures EqualLogical(Exact().equal, 0.0, v, v) && EqualLogical(Exact().same, 0.0, v, v)
  {
  }
}

=== FILE: double4.dfy ===
/** Double4: four `double` components that fill a 4-lane register exactly.

    The promotion is a bit cast, so Dot, the lengths and distances built on
    it, and equality see exactly X, Y, Z and W. The constructors from a
    Double2 or Double3 promote it unchecked but overwrite every padding
    lane. */
module Double4Vector {
  import opened Lanes
  import opened Results
  import opened VectorTypes
  import opened VectorExtensions
  import opened DoubleLanes
  import Buffers
  import Registers

  const Count: nat := 4

  // ---- construction ----

  /** Double4(value) / Create(value). */
  function CreateFromScalar<D>(value: D): (r: Double4<D>)
    ensures forall i :: 0 <= i < Count ==> r.At(i) == value
  {
    AsVec4(Broadcast(value))
  }

  /** Double4(x, y, z, w) / Create(x, y, z, w). */
  function Create<D>(x: D, y: D, z: D, w: D): (r: Double4<D>)
    ensures r.X == x && r.Y == y && r.Z == z && r.W == w
  {
    AsVec4(Register(x, y, z, w))
  }

  /** Double4(Double2, z, w) / Create(Double2, z, w): both padding lanes of
      the unchecked promotion are overwritten. */
  function CreateFromDouble2<D>(v: Double2<D>, z: D, w: D, junk: Register<D>): (r: Double4<D>)
    ensures r.X == v.X && r.Y == v.Y && r.Z == z && r.W == w
  {
    AsVec4(AsRegisterUnsafe2(v, junk).WithLane(2, z).WithLane(3, w))
  }

  /** Double4(Double3, w) / Create(Double3, w): the one padding lane is
      overwritten. */
  function CreateFromDouble3<D>(v: Double3<D>, w: D, junk: Register<D>): (r: Double4<D>)
    ensures r.X == v.X && r.Y == v.Y && r.Z == v.Z && r.W == w
  {
    AsVec4(AsRegisterUnsafe3(v, junk).WithLane(3, w))
  }

  /** Create(span): the register's own creation, which needs four elements. */
  function CreateFromSpan<D>(values: Buffer<D>): (r: Result<Double4<D>>)
    ensures r.Ok? <==> Count <= |values|
    ensures r.Err? ==> r.error == OutOfRange("values")
    ensures r.Ok? ==> r.value.Components() == values[..Count]
  {
    var q := Registers.CreateFromSpan(values);
    if q.Err? then Err(q.error) else Ok(AsVec4(q.value))
  }

  /** The constructors from smaller vectors give the same vector whatever
      the padding, and agree with the one from four components. */
  lemma CreateFromSmaller<D>(v: Double2<D>, u: Double3<D>, z: D, w: D, j1: Register<D>, j2: Register<D>)
    ensures CreateFromDouble2(v, z, w, j1) == CreateFromDouble2(v, z, w, j2) == Create(v.X, v.Y, z, w)
    ensures CreateFromDouble3(u, w, j1) == CreateFromDouble3(u, w, j2) == Create(u.X, u.Y, u.Z, w)
  {
  }

  /** UnitX, UnitY, UnitZ and UnitW by axis. */
  function Unit<D>(ar: Arith<D>, axis: nat): Double4<D>
    requires axis < Count
  {
    match axis
    case 0 => Create(ar.one, ar.zero, ar.zero, ar.zero)
    case 1 => Create(ar.zero, ar.one, ar.zero, ar.zero)
    case 2 => Create(ar.zero, ar.zero, ar.one, ar.zero)
    case 3 => Create(ar.zero, ar.zero, ar.zero, ar.one)
  }

  /** Each unit vector is one on its own axis and zero on the others. */
  lemma UnitsAreOneHot<D>(ar: Arith<D>, axis: nat, i: nat)
    requires axis < Count && i < Count
    ensures Unit(ar, axis).At(i) == if axis == i then ar.one else ar.zero
  {
  }

  // ---- indexer ----

  /** this[index] get: the register's own element access. */
  function Get<D>(v: Double4<D>, index: int32): (r: Result<D>)
    ensures r.Ok? <==> 0 <= index < Count
    ensures r.Ok? ==> r.value == v.At(index as nat)
    ensures r.Err? ==> r.error == OutOfRange("index")
  {
    Registers.GetElement(AsRegister4(v), index)
  }

  /** this[index] set. */
  function Set<D>(v: Double4<D>, index: int32, value: D): (r: Result<Double4<D>>)
    ensures r.Ok? <==> 0 <= index < Count
    ensures r.Ok? ==> r.value.At(index as nat) == value
    ensures r.Ok? ==> forall i :: 0 <= i < Count && i != index as nat ==> r.value.At(i) == v.At(i)
    ensures r.Err? ==> r.error == OutOfRange("index")
  {
    var q := Registers.WithElement(AsRegister4(v), index, value);
    if q.Err? then Err(q.error) else Ok(AsVec4(q.value))
  }

  /** Reading a component back after setting it gives the value set, and
      the others are untouched. */
  lemma GetAfterSet<D>(v: Double4<D>, index: int32, j: int32, value: D)
    requires 0 <= index < Count
    ensures Get(Set(v, index, value).value, index) == Ok(value)
    ensures j != index ==> Get(Set(v, index, value).value, j) == Get(v, j)
  {
  }

  // ---- copying: the register's own rules ----

  /** CopyTo(array) and CopyTo(span): a destination shorter than four is
      rejected. */
  function CopyTo<D>(v: Double4<D>, dest: Buffer<D>): (r: Result<Buffer<D>>)
    ensures r.Ok? <==> Count <= |dest|
    ensures r.Err? ==> r.error == TooShort("destination")
    ensures r.Ok? ==> |r.value| == |dest| && r.value[..Count] == v.Components()
    ensures r.Ok? ==> r.value[Count..] == dest[Count..]
  {
    Registers.CopyTo(AsRegister4(v), dest)
  }

  /** CopyTo(array, index): the start index must be a position of the
      array and leave room for four components. */
  function CopyToAt<D>(v: Double4<D>, arr: Buffer<D>, index: int32): (r: Result<Buffer<D>>)
    ensures r.Ok? <==> 0 <= index && index + Count <= |arr|
    ensures (index < 0 || index >= |arr|) ==> r == Err(OutOfRange("startIndex"))
    ensures 0 <= index < |arr| && r.Err? ==> r == Err(TooShort("destination"))
    ensures r.Ok? ==> |r.value| == |arr| && r.value[index..index + Count] == v.Components()
    ensures r.Ok? ==> r.value[..index] == arr[..index] && r.value[index + Count..] == arr[index + Count..]
  {
    Registers.CopyToAt(AsRegister4(v), arr, index)
  }

  /** TryCopyTo(span). */
  function TryCopyTo<D>(v: Double4<D>, dest: Buffer<D>): (r: (bool, Buffer<D>))
    ensures r.0 <==> Count <= |dest|
    ensures !r.0 ==> r.1 == dest
    ensures r.0 ==> |r.1| == |dest| && r.1[..Count] == v.Components() && r.1[Count..] == dest[Count..]
  {
    Registers.TryCopyTo(AsRegister4(v), dest)
  }

  /** Creating from what was copied gives back the vector. */
  lemma CopyThenCreate<D>(v: Double4<D>, dest: Buffer<D>, index: int32)
    ensures CopyTo(v, dest).Ok? ==> CreateFromSpan(CopyTo(v, dest).value) == Ok(v)
    ensures TryCopyTo(v, dest).0 ==> CreateFromSpan(TryCopyTo(v, dest).1) == Ok(v)
    ensures CopyToAt(v, dest, index).Ok? ==>
              CreateFromSpan(CopyToAt(v, dest, index).value[index..]) == Ok(v)
  {
    if CopyToAt(v, dest, index).Ok? {
      var w := CopyToAt(v, dest, index).value;
      assert w[index..][..Count] == w[index..index + Count];
    }
  }

  // ---- lane-wise arithmetic ----

  /** `+`. */
  function Add<D>(ar: Arith<D>, a: Double4<D>, b: Double4<D>): (r: Double4<D>)
    ensures forall i :: 0 <= i < Count ==> r.At(i) == ar.add(a.At(i), b.At(i))
  {
    AsVec4(Map2(ar.add, AsRegister4(a), AsRegister4(b)))
  }

  /** Binary `-`. */
  function Subtract<D>(ar: Arith<D>, a: Double4<D>, b: Double4<D>): (r: Double4<D>)
    ensures forall i :: 0 <= i < Count ==> r.At(i) == ar.sub(a.At(i), b.At(i))
  {
    AsVec4(Map2(ar.sub, AsRegister4(a), AsRegister4(b)))
  }

  /** `*` of two vectors. */
  function Multiply<D>(ar: Arith<D>, a: Double4<D>, b: Double4<D>): (r: Double4<D>)
    ensures forall i :: 0 <= i < Count ==> r.At(i) == ar.mul(a.At(i), b.At(i))
  {
    AsVec4(Map2(ar.mul, AsRegister4(a), AsRegister4(b)))
  }

  /** `/` of two vectors. */
  function Divide<D>(ar: Arith<D>, a: Double4<D>, b: Double4<D>): (r: Double4<D>)
    ensures forall i :: 0 <= i < Count ==> r.At(i) == ar.div(a.At(i), b.At(i))
  {
    AsVec4(Map2(ar.div, AsRegister4(a), AsRegister4(b)))
  }

  /** `*` by a scalar on the right. */
  function Scale<D>(ar: Arith<D>, v: Double4<D>, s: D): (r: Double4<D>)
    ensures forall i :: 0 <= i < Count ==> r.At(i) == ar.mul(v.At(i), s)
  {
    AsVec4(Map2(ar.mul, AsRegister4(v), Broadcast(s)))
  }

  /** `*` by a scalar on the left, forwarded to `v * s`. */
  function ScaleLeft<D>(ar: Arith<D>, s: D, v: Double4<D>): (r: Double4<D>)
    ensures forall i :: 0 <= i < Count ==> r.At(i) == ar.mul(v.At(i), s)
  {
    Scale(ar, v, s)
  }

  /** `/` by a scalar. */
  function DivideScalar<D>(ar: Arith<D>, v: Double4<D>, s: D): (r: Double4<D>)
    ensures forall i :: 0 <= i < Count ==> r.At(i) == ar.div(v.At(i), s)
  {
    AsVec4(Map2(ar.div, AsRegister4(v), Broadcast(s)))
  }

  /** Unary `-`. */
  function Negate<D>(ar: Arith<D>, v: Double4<D>): (r: Double4<D>)
    ensures forall i :: 0 <= i < Count ==> r.At(i) == ar.neg(v.At(i))
  {
    AsVec4(Map1(ar.neg, AsRegister4(v)))
  }

  /** MultiplyAddEstimate(a, b, c): `a * b + c` in each lane. */
  function MultiplyAdd<D>(ar: Arith<D>, a: Double4<D>, b: Double4<D>, c: Double4<D>): (r: Double4<D>)
    ensures forall i :: 0 <= i < Count ==> r.At(i) == ar.mulAdd(a.At(i), b.At(i), c.At(i))
  {
    AsVec4(Map3(ar.mulAdd, AsRegister4(a), AsRegister4(b), AsRegister4(c)))
  }

  /** Scaling and dividing by a scalar are the vector operations with the
      broadcast scalar. */
  lemma ScalarIsBroadcast<D>(ar: Arith<D>, v: Double4<D>, s: D)
    ensures Scale(ar, v, s) == Multiply(ar, v, CreateFromScalar(s))
    ensures ScaleLeft(ar, s, v) == Scale(ar, v, s)
    ensures DivideScalar(ar, v, s) == Divide(ar, v, CreateFromScalar(s))
  {
  }

  /** With exact reals, subtraction undoes addition and negation is
      subtraction from zero. */
  lemma ExactGroup(a: Double4<real>, b: Double4<real>)
    ensures Subtract(Exact(), Add(Exact(), a, b), b) == a
    ensures Negate(Exact(), a) == Subtract(Exact(), Create(0.0, 0.0, 0.0, 0.0), a)
  {
  }

  // ---- Dot and what is built on it ----

  /** Dot: the four-lane dot, summed pairwise. */
  function Dot<D>(ar: Arith<D>, a: Double4<D>, b: Double4<D>): (r: D)
    ensures r == ar.add(ar.add(ar.mul(a.X, b.X), ar.mul(a.Y, b.Y)), ar.add(ar.mul(a.Z, b.Z), ar.mul(a.W, b.W)))
  {
    Registers.Dot(ar.add, ar.mul, AsRegister4(a), AsRegister4(b))
  }

  /** LengthSquared: Dot(v, v). */
  function LengthSquared<D>(ar: Arith<D>, v: Double4<D>): (r: D)
    ensures r == ar.add(ar.add(ar.mul(v.X, v.X), ar.mul(v.Y, v.Y)), ar.add(ar.mul(v.Z, v.Z), ar.mul(v.W, v.W)))
  {
    Dot(ar, v, v)
  }

  /** Length: the square root of LengthSquared. */
  function Length<D>(ar: Arith<D>, sqrt: D -> D, v: Double4<D>): D
  {
    sqrt(LengthSquared(ar, v))
  }

  /** DistanceSquared: LengthSquared of the difference. */
  function DistanceSquared<D>(ar: Arith<D>, x: Double4<D>, y: Double4<D>): (r: D)
    ensures r == LengthSquared(ar, Vec4(ar.sub(x.X, y.X), ar.sub(x.Y, y.Y), ar.sub(x.Z, y.Z), ar.sub(x.W, y.W)))
  {
    LengthSquared(ar, Subtract(ar, x, y))
  }

  /** Distance: the square root of DistanceSquared. */
  function Distance<D>(ar: Arith<D>, sqrt: D -> D, x: Double4<D>, y: Double4<D>): (r: D)
    ensures r == Length(ar, sqrt, Vec4(ar.sub(x.X, y.X), ar.sub(x.Y, y.Y), ar.sub(x.Z, y.Z), ar.sub(x.W, y.W)))
  {
    sqrt(DistanceSquared(ar, x, y))
  }

  /** Normalize: each component divided by the length. */
  function Normalize<D>(ar: Arith<D>, sqrt: D -> D, v: Double4<D>): (r: Double4<D>)
    ensures forall i :: 0 <= i < Count ==> r.At(i) == ar.div(v.At(i), Length(ar, sqrt, v))
  {
    DivideScalar(ar, v, Length(ar, sqrt, v))
  }

  /** With exact reals, Dot is the sum of the component products and
      DistanceSquared the sum of the squared differences. */
  lemma ExactDot(a: Double4<real>, b: Double4<real>)
    ensures Dot(Exact(), a, b) == a.X * b.X + a.Y * b.Y + a.Z * b.Z + a.W * b.W
    ensures DistanceSquared(Exact(), a, b)
            == (a.X - b.X) * (a.X - b.X) + (a.Y - b.Y) * (a.Y - b.Y)
             + (a.Z - b.Z) * (a.Z - b.Z) + (a.W - b.W) * (a.W - b.W)
  {
  }

  // ---- equality ----

  /** `==` (with `same` the lane `==`) and Equals (with `same` the lane
      Equals): every component compared, nothing else. */
  function Equal<D>(same: (D, D) -> bool, a: Double4<D>, b: Double4<D>): (r: bool)
    ensures r <==> forall i :: 0 <= i < Count ==> same(a.At(i), b.At(i))
  {
    var r := Registers.AllLanes(same, AsRegister4(a), AsRegister4(b));
    assert r <==> forall i :: 0 <= i < Count ==> same(a.At(i), b.At(i)) by {
      if !r {
        assert !same(a.At(0), b.At(0)) || !same(a.At(1), b.At(1))
            || !same(a.At(2), b.At(2)) || !same(a.At(3), b.At(3));
      }
    }
    r
  }

  /** With exact reals, equality is equality of the vectors. */
  lemma ExactEqual(a: Double4<real>, b: Double4<real>)
    ensures Equal(Exact().equal, a, b) <==> a == b
    ensures Equal(Exact().same, a, b) <==> a == b
  {
    if a != b {
      assert !Exact().equal(a.X, b.X) || !Exact().equal(a.Y, b.Y)
          || !Exact().equal(a.Z, b.Z) || !Exact().equal(a.W, b.W);
    }
  }
}

=== FILE: double_lanes.dfy ===
/** The lane operations of Vector256<double>, kept uninterpreted: the double
    vectors are generic in an opaque element type `D` and take the
    operations as a record. The properties of the double vectors hold for
    every such record; `Exact` is one instance, exact real arithmetic, used
    to exhibit concrete values. */
module DoubleLanes {

  /** `zero` and `one` are 0.0 and 1.0; `mulAdd(a, b, c)` is one lane of
      MultiplyAddEstimate, `a * b + c`; `equal` is one lane of `==` and
      `same` one lane of Equals. */
  datatype Arith<!D> = Arith(
    zero: D,
    one: D,
    add: (D, D) -> D,
    sub: (D, D) -> D,
    mul: (D, D) -> D,
    div: (D, D) -> D,
    neg: D -> D,
    mulAdd: (D, D, D) -> D,
    equal: (D, D) -> bool,
    same: (D, D) -> bool)

  /** Real division; dividing by zero yields zero. */
  function Quotient(x: real, y: real): (q: real)
    ensures y != 0.0 ==> q * y == x
    ensures y == 0.0 ==> q == 0.0
  {
    if y == 0.0 then 0.0 else x / y
  }

  /** Exact real arithmetic. Division by zero yields zero here; the
      properties stated with this instance divide only by nonzero values. */
  function Exact(): (ar: Arith<real>)
    ensures ar.zero == 0.0 && ar.one == 1.0
    ensures forall x: real, y: real :: ar.add(x, y) == x + y && ar.mul(x, y) == x * y
    ensures forall x: real, y: real :: ar.sub(x, y) == x - y
    ensures forall x: real, y: real :: ar.div(x, y) == Quotient(x, y)
    ensures forall x: real :: ar.neg(x) == -x
    ensures forall a: real, b: real, c: real :: ar.mulAdd(a, b, c) == a * b + c
  {
    Arith(
      0.0,
      1.0,
      (x: real, y: real) => x + y,
      (x: real, y: real) => x - y,
      (x: real, y: real) => x * y,
      Quotient,
      (x: real) => -x,
      (a: real, b: real, c: real) => a * b + c,
      (x: real, y: real) => x == y,
      (x: real, y: real) => x == y)
  }

  /** One component of a reflection over the reals: a - 2 d c, for the
      component a, the dot d and the normal's component c. */
  function Mirror(a: real, d: real, c: real): real
  {
    a - 2.0 * d * c
  }

  /** -(d + d) c + a is the mirrored component. */
  lemma Twice(d: real, c: real, a: real)
    ensures -(d + d) * c + a == Mirror(a, d, c)
  {
  }

  /** Mirroring with the opposite dot undoes a mirroring. */
  lemma Unmirror(a: real, d: real, c: real)
    ensures Mirror(Mirror(a, d, c), -d, c) == a
  {
  }
}

=== FILE: int2.dfy ===
/** Int2: two `int` components carried through a 4-lane register.

    Every operation promotes its operands with the unchecked promotion, so
    lanes 2 and 3 hold whatever the `junk` argument says. The lane-wise
    arithmetic gives the same two components for every padding; equality
    and division do not, and each has a corrected counterpart that looks at
    the two components only. */
module Int2Vector {
  import opened Lanes
  import opened Results
  import opened VectorTypes
  import opened VectorExtensions
  import Int32Arith
  import Buffers
  import Registers

  const Count: nat := 2

  // ---- construction ----

  /** Int2(value) / Create(value). */
  function CreateFromScalar(value: int32): (r: Int2)
    ensures forall i :: 0 <= i < Count ==> r.At(i) == value
  {
    AsVec2(Broadcast(value))
  }

  /** Int2(x, y) / Create(x, y). */
  function Create(x: int32, y: int32): (r: Int2)
    ensures r.X == x && r.Y == y
  {
    AsVec2(Register(x, y, 0, 0))
  }

  /** Int2(span) / Create(span): the first two elements. */
  function CreateFromSpan(values: Buffer<int32>): (r: Result<Int2>)
    ensures r.Ok? <==> Count <= |values|
    ensures r.Err? ==> r.error == OutOfRange("values")
    ensures r.Ok? ==> r.value.Components() == values[..Count]
  {
    var s := Buffers.ReadFirst(values, Count);
    if s.Err? then Err(s.error) else Ok(Vec2(s.value[0], s.value[1]))
  }

  const MinValue: Int2 := CreateFromScalar(MinInt32 as int32)
  const MaxValue: Int2 := CreateFromScalar(MaxInt32 as int32)
  const One: Int2 := CreateFromScalar(1)
  const UnitX: Int2 := Create(1, 0)
  const UnitY: Int2 := Create(0, 1)
  const Zero: Int2 := Vec2(0, 0)

  /** The unit vectors by axis. */
  function Unit(axis: nat): Int2
    requires axis < Count
  {
    if axis == 0 then UnitX else UnitY
  }

  /** Each unit vector is one on its own axis and zero on the other. */
  lemma UnitsAreOneHot(axis: nat, i: nat)
    requires axis < Count && i < Count
    ensures Unit(axis).At(i) == if axis == i then 1 else 0
  {
  }

  /** MinValue and MaxValue bound every Int2 componentwise. */
  lemma ValueBounds(v: Int2, i: nat)
    requires i < Count
    ensures MinValue.At(i) <= v.At(i) <= MaxValue.At(i)
  {
  }

  // ---- indexer ----

  /** this[index] get: indices outside [0, 2) are rejected before the
      register is read. */
  function Get(v: Int2, index: int32, junk: Register<int32>): (r: Result<int32>)
    ensures r.Ok? <==> 0 <= index < Count
    ensures r.Ok? ==> r.value == v.At(index as nat)
    ensures r.Err? ==> r.error == OutOfRange("index")
  {
    Int32Arith.UnsignedBoundCheck(index, Count);
    if Int32Arith.Unsigned(index) >= Count then Err(OutOfRange("index"))
    else Registers.GetElement(AsRegisterUnsafe2(v, junk), index)
  }

  /** this[index] set: the vector with component `index` replaced. */
  function Set(v: Int2, index: int32, value: int32, junk: Register<int32>): (r: Result<Int2>)
    ensures r.Ok? <==> 0 <= index < Count
    ensures r.Ok? ==> r.value.At(index as nat) == value
    ensures r.Ok? ==> forall i :: 0 <= i < Count && i != index as nat ==> r.value.At(i) == v.At(i)
    ensures r.Err? ==> r.error == OutOfRange("index")
  {
    Int32Arith.UnsignedBoundCheck(index, Count);
    if Int32Arith.Unsigned(index) >= Count then Err(OutOfRange("index"))
    else
      match Registers.WithElement(AsRegisterUnsafe2(v, junk), index, value)
      case Ok(w) => Ok(AsVec2(w))
      case Err(e) => Err(e)
  }

  /** Reading a component back after setting it gives the value set, and
      the other component is untouched, whatever the padding was. */
  lemma GetAfterSet(v: Int2, index: int32, j: int32, value: int32, junk1: Register<int32>, junk2: Register<int32>)
    requires 0 <= index < Count
    ensures Get(Set(v, index, value, junk1).value, index, junk2) == Ok(value)
    ensures j != index ==> Get(Set(v, index, value, junk1).value, j, junk2) == Get(v, j, junk2)
  {
  }

  // ---- copying ----

  /** CopyTo(array): an array shorter than two is rejected. */
  function CopyTo(v: Int2, arr: Buffer<int32>): (r: Result<Buffer<int32>>)
    ensures r.Ok? <==> Count <= |arr|
    ensures r.Err? ==> r.error == OutOfRange("array")
    ensures r.Ok? ==> |r.value| == |arr| && r.value[..Count] == v.Components()
    ensures r.Ok? ==> r.value[Count..] == arr[Count..]
  {
    Buffers.CopyTo(v.Components(), arr, OutOfRange("array"))
  }

  /** CopyTo(array, index): the index must lie in [0, length] and leave
      room for both components. */
  function CopyToAt(v: Int2, arr: Buffer<int32>, index: int32): (r: Result<Buffer<int32>>)
    ensures r.Ok? <==> 0 <= index && index + Count <= |arr|
    ensures (index < 0 || index > |arr|) ==> r == Err(OutOfRange("index"))
    ensures 0 <= index <= |arr| && r.Err? ==> r == Err(OutOfRange("array"))
    ensures r.Ok? ==> |r.value| == |arr| && r.value[index..index + Count] == v.Components()
    ensures r.Ok? ==> r.value[..index] == arr[..index] && r.value[index + Count..] == arr[index + Count..]
  {
    Buffers.CopyToAt(v.Components(), arr, index, OutOfRange("array"))
  }

  /** CopyTo(span): a span shorter than two is rejected. */
  function CopyToSpan(v: Int2, dest: Buffer<int32>): (r: Result<Buffer<int32>>)
    ensures r.Ok? <==> Count <= |dest|
    ensures r.Err? ==> r.error == OutOfRange("destination")
    ensures r.Ok? ==> |r.value| == |dest| && r.value[..Count] == v.Components()
    ensures r.Ok? ==> r.value[Count..] == dest[Count..]
  {
    Buffers.CopyTo(v.Components(), dest, OutOfRange("destination"))
  }

  /** TryCopyTo(span): false, and nothing written, when the span is short. */
  function TryCopyTo(v: Int2, dest: Buffer<int32>): (r: (bool, Buffer<int32>))
    ensures r.0 <==> Count <= |dest|
    ensures !r.0 ==> r.1 == dest
    ensures r.0 ==> |r.1| == |dest| && r.1[..Count] == v.Components() && r.1[Count..] == dest[Count..]
  {
    Buffers.TryCopyTo(v.Components(), dest)
  }

  /** Creating from what was copied gives back the vector. */
  lemma CopyThenCreate(v: Int2, dest: Buffer<int32>, index: int32)
    ensures CopyToSpan(v, dest).Ok? ==> CreateFromSpan(CopyToSpan(v, dest).value) == Ok(v)
    ensures CopyTo(v, dest).Ok? ==> CreateFromSpan(CopyTo(v, dest).value) == Ok(v)
    ensures TryCopyTo(v, dest).0 ==> CreateFromSpan(TryCopyTo(v, dest).1) == Ok(v)
    ensures CopyToAt(v, dest, index).Ok? ==>
              CreateFromSpan(CopyToAt(v, dest, index).value[index..]) == Ok(v)
  {
    if CopyToAt(v, dest, index).Ok? {
      var w := CopyToAt(v, dest, index).value;
      assert w[index..][..Count] == w[index..index + Count];
    }
  }

  // ---- lane-wise arithmetic ----

  /** `+`: componentwise unchecked addition. */
  function Add(a: Int2, b: Int2, ja: Register<int32>, jb: Register<int32>): (r: Int2)
    ensures r.X == Int32Arith.Add(a.X, b.X) && r.Y == Int32Arith.Add(a.Y, b.Y)
  {
    AsVec2(Map2(Int32Arith.Add, AsRegisterUnsafe2(a, ja), AsRegisterUnsafe2(b, jb)))
  }

  /** Binary `-`: componentwise unchecked subtraction. */
  function Subtract(a: Int2, b: Int2, ja: Register<int32>, jb: Register<int32>): (r: Int2)
    ensures r.X == Int32Arith.Sub(a.X, b.X) && r.Y == Int32Arith.Sub(a.Y, b.Y)
  {
    AsVec2(Map2(Int32Arith.Sub, AsRegisterUnsafe2(a, ja), AsRegisterUnsafe2(b, jb)))
  }

  /** `*` of two vectors: componentwise unchecked multiplication. */
  function Multiply(a: Int2, b: Int2, ja: Register<int32>, jb: Register<int32>): (r: Int2)
    ensures r.X == Int32Arith.Mul(a.X, b.X) && r.Y == Int32Arith.Mul(a.Y, b.Y)
  {
    AsVec2(Map2(Int32Arith.Mul, AsRegisterUnsafe2(a, ja), AsRegisterUnsafe2(b, jb)))
  }

  /** `*` by a scalar on the right. */
  function Scale(v: Int2, s: int32, junk: Register<int32>): (r: Int2)
    ensures r.X == Int32Arith.Mul(v.X, s) && r.Y == Int32Arith.Mul(v.Y, s)
  {
    AsVec2(Map2(Int32Arith.Mul, AsRegisterUnsafe2(v, junk), Broadcast(s)))
  }

  /** `*` by a scalar on the left, which the source forwards to `v * s`. */
  function ScaleLeft(s: int32, v: Int2, junk: Register<int32>): (r: Int2)
    ensures r.X == Int32Arith.Mul(s, v.X) && r.Y == Int32Arith.Mul(s, v.Y)
  {
    Scale(v, s, junk)
  }

  /** Unary `-`: componentwise unchecked negation. */
  function Negate(v: Int2, junk: Register<int32>): (r: Int2)
    ensures r.X == Int32Arith.Neg(v.X) && r.Y == Int32Arith.Neg(v.Y)
  {
    AsVec2(Map1(Int32Arith.Neg, AsRegisterUnsafe2(v, junk)))
  }

  /** Min: the smaller value in each component. */
  function Min(a: Int2, b: Int2, ja: Register<int32>, jb: Register<int32>): (r: Int2)
    ensures r.X <= a.X && r.X <= b.X && (r.X == a.X || r.X == b.X)
    ensures r.Y <= a.Y && r.Y <= b.Y && (r.Y == a.Y || r.Y == b.Y)
  {
    AsVec2(Map2(Registers.MinLane, AsRegisterUnsafe2(a, ja), AsRegisterUnsafe2(b, jb)))
  }

  /** Max: the larger value in each component. */
  function Max(a: Int2, b: Int2, ja: Register<int32>, jb: Register<int32>): (r: Int2)
    ensures r.X >= a.X && r.X >= b.X && (r.X == a.X || r.X == b.X)
    ensures r.Y >= a.Y && r.Y >= b.Y && (r.Y == a.Y || r.Y == b.Y)
  {
    AsVec2(Map2(Registers.MaxLane, AsRegisterUnsafe2(a, ja), AsRegisterUnsafe2(b, jb)))
  }

  /** Subtracting what was added gives back the vector, even when a
      component wrapped around. */
  lemma SubtractUndoesAdd(a: Int2, b: Int2, ja: Register<int32>, jb: Register<int32>, jc: Register<int32>)
    ensures Subtract(Add(a, b, ja, jb), b, jc, jb) == a
  {
    Int32Arith.SubUndoesAdd(a.X, b.X);
    Int32Arith.SubUndoesAdd(a.Y, b.Y);
  }

  /** Negation is subtraction from Zero. */
  lemma NegateIsSubtractFromZero(v: Int2, j1: Register<int32>, j2: Register<int32>, j3: Register<int32>)
    ensures Negate(v, j1) == Subtract(Zero, v, j2, j3)
  {
    Int32Arith.NegIsSubFromZero(v.X);
    Int32Arith.NegIsSubFromZero(v.Y);
  }

  /** Zero and One are the identities of `+` and `*`; scaling is
      multiplication by the broadcast scalar, from either side. */
  lemma Identities(v: Int2, s: int32, ja: Register<int32>, jb: Register<int32>)
    ensures Add(v, Zero, ja, jb) == v
    ensures Multiply(v, One, ja, jb) == v
    ensures Scale(v, s, ja) == Multiply(v, CreateFromScalar(s), ja, jb)
    ensures ScaleLeft(s, v, ja) == Scale(v, s, jb)
  {
  }

  /** Min and Max split each pair of components between them. */
  lemma MinMaxPartition(a: Int2, b: Int2, ja: Register<int32>, jb: Register<int32>)
    ensures Min(a, b, ja, jb) == Min(b, a, jb, ja)
    ensures Max(a, b, ja, jb) == Max(b, a, jb, ja)
    ensures Min(a, b, ja, jb).X + Max(a, b, ja, jb).X == a.X + b.X
    ensures Min(a, b, ja, jb).Y + Max(a, b, ja, jb).Y == a.Y + b.Y
  {
  }

  // ---- division ----

  /** `/` of two vectors as written: all four register lanes are divided,
      so a zero or int.MinValue / -1 in the padding faults too. */
  function Divide(a: Int2, b: Int2, ja: Register<int32>, jb: Register<int32>): (r: Result<Int2>)
    ensures r.Ok? <==> Int32Arith.Divisible(a.X, b.X) && Int32Arith.Divisible(a.Y, b.Y)
                       && Int32Arith.Divisible(ja.e2, jb.e2) && Int32Arith.Divisible(ja.e3, jb.e3)
    ensures r.Ok? ==> Int32Arith.Div(a.X, b.X) == Ok(r.value.X) && Int32Arith.Div(a.Y, b.Y) == Ok(r.value.Y)
    ensures r.Err? ==> (r.error == DivideByZero <==> b.X == 0 || b.Y == 0 || jb.e2 == 0 || jb.e3 == 0)
    ensures r.Err? && r.error != DivideByZero ==> r.error == Overflow
  {
    var q := Registers.DivLanes(AsRegisterUnsafe2(a, ja), AsRegisterUnsafe2(b, jb));
    if q.Err? then Err(q.error) else Ok(AsVec2(q.value))
  }

  /** `/` by a scalar as written: every register lane is divided by it. */
  function DivideScalar(v: Int2, s: int32, junk: Register<int32>): (r: Result<Int2>)
    ensures r.Ok? <==> Int32Arith.Divisible(v.X, s) && Int32Arith.Divisible(v.Y, s)
                       && Int32Arith.Divisible(junk.e2, s) && Int32Arith.Divisible(junk.e3, s)
    ensures r.Ok? ==> Int32Arith.Div(v.X, s) == Ok(r.value.X) && Int32Arith.Div(v.Y, s) == Ok(r.value.Y)
    ensures r.Err? ==> (r.error == DivideByZero <==> s == 0)
    ensures r.Err? && r.error != DivideByZero ==> r.error == Overflow
  {
    var q := Registers.DivLanes(AsRegisterUnsafe2(v, junk), Broadcast(s));
    if q.Err? then Err(q.error) else Ok(AsVec2(q.value))
  }

  /** `/` of two vectors as intended: the padding is 0 / 1, which never
      faults, so only the two components decide. */
  function DivideLogical(a: Int2, b: Int2): (r: Result<Int2>)
    ensures r.Ok? <==> Int32Arith.Divisible(a.X, b.X) && Int32Arith.Divisible(a.Y, b.Y)
    ensures r.Ok? ==> Int32Arith.Div(a.X, b.X) == Ok(r.value.X) && Int32Arith.Div(a.Y, b.Y) == Ok(r.value.Y)
    ensures r.Err? ==> (r.error == DivideByZero <==> b.X == 0 || b.Y == 0)
    ensures r.Err? && b.X != 0 && b.Y != 0 ==> r.error == Overflow
  {
    Divide(a, b, Broadcast(0), Broadcast(1))
  }

  /** `/` by a scalar as intended. */
  function DivideScalarLogical(v: Int2, s: int32): (r: Result<Int2>)
    ensures r.Ok? <==> Int32Arith.Divisible(v.X, s) && Int32Arith.Divisible(v.Y, s)
    ensures r.Ok? ==> Int32Arith.Div(v.X, s) == Ok(r.value.X) && Int32Arith.Div(v.Y, s) == Ok(r.value.Y)
    ensures r.Err? ==> (r.error == DivideByZero <==> s == 0)
    ensures r.Err? && r.error != DivideByZero ==> r.error == Overflow
  {
    DivideScalar(v, s, Broadcast(0))
  }

  /** Dividing by a scalar is dividing by its broadcast, and dividing by
      One gives back the vector. */
  lemma DivideScalarIsDivideByBroadcast(v: Int2, s: int32)
    ensures DivideScalarLogical(v, s) == DivideLogical(v, CreateFromScalar(s))
    ensures DivideLogical(v, One) == Ok(v)
  {
    Int32Arith.DivByOne(v.X);
    Int32Arith.DivByOne(v.Y);
  }

  /** The padding alone makes the written division fail: (1, 1) / (1, 1)
      raises DivideByZero when the divisor's padding is zero, and (4, 4) / -1
      raises Overflow when the dividend's padding holds int.MinValue. The
      intended division of the same operands succeeds. */
  lemma DividePaddingFaults()
    ensures Divide(Vec2(1, 1), Vec2(1, 1), Broadcast(0), Broadcast(0)) == Err(DivideByZero)
    ensures DivideLogical(Vec2(1, 1), Vec2(1, 1)) == Ok(Vec2(1, 1))
    ensures DivideScalar(Vec2(4, 4), -1, Broadcast(MinInt32 as int32)) == Err(Overflow)
    ensures DivideScalarLogical(Vec2(4, 4), -1) == Ok(Vec2(-4, -4))
  {
    Int32Arith.DivByOne(1);
    assert Int32Arith.TruncDiv(4, -1) == -4;
  }

  // ---- equality ----

  /** `==` and Equals(Int2) as written: all four register lanes compared. */
  function Equal(a: Int2, b: Int2, ja: Register<int32>, jb: Register<int32>): (r: bool)
    ensures r <==> a == b && ja.e2 == jb.e2 && ja.e3 == jb.e3
  {
    Registers.AllLanes((x: int32, y: int32) => x == y, AsRegisterUnsafe2(a, ja), AsRegisterUnsafe2(b, jb))
  }

  /** `==` as intended: the two components compared. */
  function EqualLogical(a: Int2, b: Int2): (r: bool)
    ensures r <==> a.X == b.X && a.Y == b.Y
  {
    Equal(a, b, Broadcast(0), Broadcast(0))
  }

  /** A vector is unequal to itself as written whenever the two operands'
      padding differs, while the intended comparison is reflexive. */
  lemma EqualReadsPadding(v: Int2, ja: Register<int32>, jb: Register<int32>)
    requires ja.e2 != jb.e2 || ja.e3 != jb.e3
    ensures !Equal(v, v, ja, jb)
    ensures EqualLogical(v, v)
  {
  }
}

=== FILE: int3.dfy ===
/** Int3: three `int` components carried through a 4-lane register.

    As for Int2, operations use the unchecked promotion, so lane 3 holds
    whatever the `junk` argument says: lane-wise arithmetic does not depend
    on it, equality and division do. */
module Int3Vector {
  import opened Lanes
  import opened Results
  import opened VectorTypes
  import opened VectorExtensions
  import Int32Arith
  import Buffers
  import Registers

  const Count: nat := 3

  // ---- construction ----

  /** Int3(value) / Create(value). */
  function CreateFromScalar(value: int32): (r: Int3)
    ensures forall i :: 0 <= i < Count ==> r.At(i) == value
  {
    AsVec3(Broadcast(value))
  }

  /** Int3(x, y, z) / Create(x, y, z). */
  function Create(x: int32, y: int32, z: int32): (r: Int3)
    ensures r.X == x && r.Y == y && r.Z == z
  {
    AsVec3(Register(x, y, z, 0))
  }

  /** Int3(Int2, z) / Create(Int2, z): the Int2 is promoted unchecked and
      `z` written over lane 2, so the padding never reaches the result. */
  function CreateFromInt2(v: Int2, z: int32, junk: Register<int32>): (r: Int3)
    ensures r.X == v.X && r.Y == v.Y && r.Z == z
  {
    AsVec3(AsRegisterUnsafe2(v, junk).WithLane(2, z))
  }

  /** Int3(span) / Create(span): the first three elements. */
  function CreateFromSpan(values: Buffer<int32>): (r: Result<Int3>)
    ensures r.Ok? <==> Count <= |values|
    ensures r.Err? ==> r.error == OutOfRange("values")
    ensures r.Ok? ==> r.value.Components() == values[..Count]
  {
    var s := Buffers.ReadFirst(values, Count);
    if s.Err? then Err(s.error) else Ok(Vec3(s.value[0], s.value[1], s.value[2]))
  }

  const MinValue: Int3 := CreateFromScalar(MinInt32 as int32)
  const MaxValue: Int3 := CreateFromScalar(MaxInt32 as int32)
  const One: Int3 := CreateFromScalar(1)
  const UnitX: Int3 := Create(1, 0, 0)
  const UnitY: Int3 := Create(0, 1, 0)
  const UnitZ: Int3 := Create(0, 0, 1)
  const Zero: Int3 := Vec3(0, 0, 0)

  /** The unit vectors by axis. */
  function Unit(axis: nat): Int3
    requires axis < Count
  {
    match axis
    case 0 => UnitX
    case 1 => UnitY
    case 2 => UnitZ
  }

  /** Each unit vector is one on its own axis and zero on the others. */
  lemma UnitsAreOneHot(axis: nat, i: nat)
    requires axis < Count && i < Count
    ensures Unit(axis).At(i) == if axis == i then 1 else 0
  {
  }

  /** MinValue and MaxValue bound every Int3 componentwise. */
  lemma ValueBounds(v: Int3, i: nat)
    requires i < Count
    ensures MinValue.At(i) <= v.At(i) <= MaxValue.At(i)
  {
  }

  // ---- indexer ----

  /** this[index] get: indices outside [0, 3) are rejected before the
      register is read. */
  function Get(v: Int3, index: int32, junk: Register<int32>): (r: Result<int32>)
    ensures r.Ok? <==> 0 <= index < Count
    ensures r.Ok? ==> r.value == v.At(index as nat)
    ensures r.Err? ==> r.error == OutOfRange("index")
  {
    Int32Arith.UnsignedBoundCheck(index, Count);
    if Int32Arith.Unsigned(index) >= Count then Err(OutOfRange("index"))
    else Registers.GetElement(AsRegisterUnsafe3(v, junk), index)
  }

  /** this[index] set: the vector with component `index` replaced. */
  function Set(v: Int3, index: int32, value: int32, junk: Register<int32>): (r: Result<Int3>)
    ensures r.Ok? <==> 0 <= index < Count
    ensures r.Ok? ==> r.value.At(index as nat) == value
    ensures r.Ok? ==> forall i :: 0 <= i < Count && i != index as nat ==> r.value.At(i) == v.At(i)
    ensures r.Err? ==> r.error == OutOfRange("index")
  {
    Int32Arith.UnsignedBoundCheck(index, Count);
    if Int32Arith.Unsigned(index) >= Count then Err(OutOfRange("index"))
    else
      match Registers.WithElement(AsRegisterUnsafe3(v, junk), index, value)
      case Ok(w) => Ok(AsVec3(w))
      case Err(e) => Err(e)
  }

  /** Reading a component back after setting it gives the value set, and
      the other components are untouched, whatever the padding was. */
  lemma GetAfterSet(v: Int3, index: int32, j: int32, value: int32, junk1: Register<int32>, junk2: Register<int32>)
    requires 0 <= index < Count
    ensures Get(Set(v, index, value, junk1).value, index, junk2) == Ok(value)
    ensures j != index ==> Get(Set(v, index, value, junk1).value, j, junk2) == Get(v, j, junk2)
  {
  }

  // ---- copying ----

  /** CopyTo(array): an array shorter than three is rejected. */
  function CopyTo(v: Int3, arr: Buffer<int32>): (r: Result<Buffer<int32>>)
    ensures r.Ok? <==> Count <= |arr|
    ensures r.Err? ==> r.error == OutOfRange("array")
    ensures r.Ok? ==> |r.value| == |arr| && r.value[..Count] == v.Components()
    ensures r.Ok? ==> r.value[Count..] == arr[Count..]
  {
    Buffers.CopyTo(v.Components(), arr, OutOfRange("array"))
  }

  /** CopyTo(array, index): the index must lie in [0, length] and leave
      room for all three components. */
  function CopyToAt(v: Int3, arr: Buffer<int32>, index: int32): (r: Result<Buffer<int32>>)
    ensures r.Ok? <==> 0 <= index && index + Count <= |arr|
    ensures (index < 0 || index > |arr|) ==> r == Err(OutOfRange("index"))
    ensures 0 <= index <= |arr| && r.Err? ==> r == Err(OutOfRange("array"))
    ensures r.Ok? ==> |r.value| == |arr| && r.value[index..index + Count] == v.Components()
    ensures r.Ok? ==> r.value[..index] == arr[..index] && r.value[index + Count..] == arr[index + Count..]
  {
    Buffers.CopyToAt(v.Components(), arr, index, OutOfRange("array"))
  }

  /** CopyTo(span): a span shorter than three is rejected. */
  function CopyToSpan(v: Int3, dest: Buffer<int32>): (r: Result<Buffer<int32>>)
    ensures r.Ok? <==> Count <= |dest|
    ensures r.Err? ==> r.error == OutOfRange("destination")
    ensures r.Ok? ==> |r.value| == |dest| && r.value[..Count] == v.Components()
    ensures r.Ok? ==> r.value[Count..] == dest[Count..]
  {
    Buffers.CopyTo(v.Components(), dest, OutOfRange("destination"))
  }

  /** TryCopyTo(span): false, and nothing written, when the span is short. */
  function TryCopyTo(v: Int3, dest: Buffer<int32>): (r: (bool, Buffer<int32>))
    ensures r.0 <==> Count <= |dest|
    ensures !r.0 ==> r.1 == dest
    ensures r.0 ==> |r.1| == |dest| && r.1[..Count] == v.Components() && r.1[Count..] == dest[Count..]
  {
    Buffers.TryCopyTo(v.Components(), dest)
  }

  /** Creating from what was copied gives back the vector. */
  lemma CopyThenCreate(v: Int3, dest: Buffer<int32>, index: int32)
    ensures CopyToSpan(v, dest).Ok? ==> CreateFromSpan(CopyToSpan(v, dest).value) == Ok(v)
    ensures CopyTo(v, dest).Ok? ==> CreateFromSpan(CopyTo(v, dest).value) == Ok(v)
    ensures TryCopyTo(v, dest).0 ==> CreateFromSpan(TryCopyTo(v, dest).1) == Ok(v)
    ensures CopyToAt(v, dest, index).Ok? ==>
              CreateFromSpan(CopyToAt(v, dest, index).value[index..]) == Ok(v)
  {
    if CopyToAt(v, dest, index).Ok? {
      var w := CopyToAt(v, dest, index).value;
      assert w[index..][..Count] == w[index..index + Count];
    }
  }

  // ---- lane-wise arithmetic ----

  /** `+`: componentwise unchecked addition. */
  function Add(a: Int3, b: Int3, ja: Register<int32>, jb: Register<int32>): (r: Int3)
    ensures r.X == Int32Arith.Add(a.X, b.X) && r.Y == Int32Arith.Add(a.Y, b.Y) && r.Z == Int32Arith.Add(a.Z, b.Z)
  {
    AsVec3(Map2(Int32Arith.Add, AsRegisterUnsafe3(a, ja), AsRegisterUnsafe3(b, jb)))
  }

  /** Binary `-`: componentwise unchecked subtraction. */
  function Subtract(a: Int3, b: Int3, ja: Register<int32>, jb: Register<int32>): (r: Int3)
    ensures r.X == Int32Arith.Sub(a.X, b.X) && r.Y == Int32Arith.Sub(a.Y, b.Y) && r.Z == Int32Arith.Sub(a.Z, b.Z)
  {
    AsVec3(Map2(Int32Arith.Sub, AsRegisterUnsafe3(a, ja), AsRegisterUnsafe3(b, jb)))
  }

  /** `*` of two vectors: componentwise unchecked multiplication. */
  function Multiply(a: Int3, b: Int3, ja: Register<int32>, jb: Register<int32>): (r: Int3)
    ensures r.X == Int32Arith.Mul(a.X, b.X) && r.Y == Int32Arith.Mul(a.Y, b.Y) && r.Z == Int32Arith.Mul(a.Z, b.Z)
  {
    AsVec3(Map2(Int32Arith.Mul, AsRegisterUnsafe3(a, ja), AsRegisterUnsafe3(b, jb)))
  }

  /** `*` by a scalar on the right. */
  function Scale(v: Int3, s: int32, junk: Register<int32>): (r: Int3)
    ensures r.X == Int32Arith.Mul(v.X, s) && r.Y == Int32Arith.Mul(v.Y, s) && r.Z == Int32Arith.Mul(v.Z, s)
  {
    AsVec3(Map2(Int32Arith.Mul, AsRegisterUnsafe3(v, junk), Broadcast(s)))
  }

  /** `*` by a scalar on the left, which the source forwards to `v * s`. */
  function ScaleLeft(s: int32, v: Int3, junk: Register<int32>): (r: Int3)
    ensures r.X == Int32Arith.Mul(s, v.X) && r.Y == Int32Arith.Mul(s, v.Y) && r.Z == Int32Arith.Mul(s, v.Z)
  {
    Scale(v, s, junk)
  }

  /** Unary `-`: componentwise unchecked negation. */
  function Negate(v: Int3, junk: Register<int32>): (r: Int3)
    ensures r.X == Int32Arith.Neg(v.X) && r.Y == Int32Arith.Neg(v.Y) && r.Z == Int32Arith.Neg(v.Z)
  {
    AsVec3(Map1(Int32Arith.Neg, AsRegisterUnsafe3(v, junk)))
  }

  /** Min: the smaller value in each component. */
  function Min(a: Int3, b: Int3, ja: Register<int32>, jb: Register<int32>): (r: Int3)
    ensures r.X <= a.X && r.X <= b.X && (r.X == a.X || r.X == b.X)
    ensures r.Y <= a.Y && r.Y <= b.Y && (r.Y == a.Y || r.Y == b.Y)
    ensures r.Z <= a.Z && r.Z <= b.Z && (r.Z == a.Z || r.Z == b.Z)
  {
    AsVec3(Map2(Registers.MinLane, AsRegisterUnsafe3(a, ja), AsRegisterUnsafe3(b, jb)))
  }

  /** Max: the larger value in each component. */
  function Max(a: Int3, b: Int3, ja: Register<int32>, jb: Register<int32>): (r: Int3)
    ensures r.X >= a.X && r.X >= b.X && (r.X == a.X || r.X == b.X)
    ensures r.Y >= a.Y && r.Y >= b.Y && (r.Y == a.Y || r.Y == b.Y)
    ensures r.Z >= a.Z && r.Z >= b.Z && (r.Z == a.Z || r.Z == b.Z)
  {
    AsVec3(Map2(Registers.MaxLane, AsRegisterUnsafe3(a, ja), AsRegisterUnsafe3(b, jb)))
  }

  /** Subtracting what was added gives back the vector, even when a
      component wrapped around. */
  lemma SubtractUndoesAdd(a: Int3, b: Int3, ja: Register<int32>, jb: Register<int32>, jc: Register<int32>)
    ensures Subtract(Add(a, b, ja, jb), b, jc, jb) == a
  {
    Int32Arith.SubUndoesAdd(a.X, b.X);
    Int32Arith.SubUndoesAdd(a.Y, b.Y);
    Int32Arith.SubUndoesAdd(a.Z, b.Z);
  }

  /** Negation is subtraction from Zero. */
  lemma NegateIsSubtractFromZero(v: Int3, j1: Register<int32>, j2: Register<int32>, j3: Register<int32>)
    ensures Negate(v, j1) == Subtract(Zero, v, j2, j3)
  {
    Int32Arith.NegIsSubFromZero(v.X);
    Int32Arith.NegIsSubFromZero(v.Y);
    Int32Arith.NegIsSubFromZero(v.Z);
  }

  /** Zero and One are the identities of `+` and `*`; scaling is
      multiplication by the broadcast scalar, from either side. */
  lemma Identities(v: Int3, s: int32, ja: Register<int32>, jb: Register<int32>)
    ensures Add(v, Zero, ja, jb) == v
    ensures Multiply(v, One, ja, jb) == v
    ensures Scale(v, s, ja) == Multiply(v, CreateFromScalar(s), ja, jb)
    ensures ScaleLeft(s, v, ja) == Scale(v, s, jb)
  {
  }

  /** Min and Max split each pair of components between them. */
  lemma MinMaxPartition(a: Int3, b: Int3, ja: Register<int32>, jb: Register<int32>)
    ensures Min(a, b, ja, jb) == Min(b, a, jb, ja)
    ensures Max(a, b, ja, jb) == Max(b, a, jb, ja)
    ensures Min(a, b, ja, jb).X + Max(a, b, ja, jb).X == a.X + b.X
    ensures Min(a, b, ja, jb).Y + Max(a, b, ja, jb).Y == a.Y + b.Y
    ensures Min(a, b, ja, jb).Z + Max(a, b, ja, jb).Z == a.Z + b.Z
  {
  }

  // ---- division ----

  /** `/` of two vectors as written: all four register lanes are divided,
      so a zero or int.MinValue / -1 in the padding faults too. */
  function Divide(a: Int3, b: Int3, ja: Register<int32>, jb: Register<int32>): (r: Result<Int3>)
    ensures r.Ok? <==> Int32Arith.Divisible(a.X, b.X) && Int32Arith.Divisible(a.Y, b.Y)
                       && Int32Arith.Divisible(a.Z, b.Z) && Int32Arith.Divisible(ja.e3, jb.e3)
    ensures r.Ok? ==> Int32Arith.Div(a.X, b.X) == Ok(r.value.X) && Int32Arith.Div(a.Y, b.Y) == Ok(r.value.Y)
    ensures r.Ok? ==> Int32Arith.Div(a.Z, b.Z) == Ok(r.value.Z)
    ensures r.Err? ==> (r.error == DivideByZero <==> b.X == 0 || b.Y == 0 || b.Z == 0 || jb.e3 == 0)
    ensures r.Err? && r.error != DivideByZero ==> r.error == Overflow
  {
    var q := Registers.DivLanes(AsRegisterUnsafe3(a, ja), AsRegisterUnsafe3(b, jb));
    if q.Err? then Err(q.error) else Ok(AsVec3(q.value))
  }

  /** `/` by a scalar as written: every register lane is divided by it. */
  function DivideScalar(v: Int3, s: int32, junk: Register<int32>): (r: Result<Int3>)
    ensures r.Ok? <==> Int32Arith.Divisible(v.X, s) && Int32Arith.Divisible(v.Y, s)
                       && Int32Arith.Divisible(v.Z, s) && Int32Arith.Divisible(junk.e3, s)
    ensures r.Ok? ==> Int32Arith.Div(v.X, s) == Ok(r.value.X) && Int32Arith.Div(v.Y, s) == Ok(r.value.Y)
    ensures r.Ok? ==> Int32Arith.Div(v.Z, s) == Ok(r.value.Z)
    ensures r.Err? ==> (r.error == DivideByZero <==> s == 0)
    ensures r.Err? && r.error != DivideByZero ==> r.error == Overflow
  {
    var q := Registers.DivLanes(AsRegisterUnsafe3(v, junk), Broadcast(s));
    if q.Err? then Err(q.error) else Ok(AsVec3(q.value))
  }

  /** `/` of two vectors as intended: the padding is 0 / 1, which never
      faults, so only the three components decide. */
  function DivideLogical(a: Int3, b: Int3): (r: Result<Int3>)
    ensures r.Ok? <==> Int32Arith.Divisible(a.X, b.X) && Int32Arith.Divisible(a.Y, b.Y) && Int32Arith.Divisible(a.Z, b.Z)
    ensures r.Ok? ==> Int32Arith.Div(a.X, b.X) == Ok(r.value.X) && Int32Arith.Div(a.Y, b.Y) == Ok(r.value.Y)
    ensures r.Ok? ==> Int32Arith.Div(a.Z, b.Z) == Ok(r.value.Z)
    ensures r.Err? ==> (r.error == DivideByZero <==> b.X == 0 || b.Y == 0 || b.Z == 0)
    ensures r.Err? && b.X != 0 && b.Y != 0 && b.Z != 0 ==> r.error == Overflow
  {
    Divide(a, b, Broadcast(0), Broadcast(1))
  }

  /** `/` by a scalar as intended. */
  function DivideScalarLogical(v: Int3, s: int32): (r: Result<Int3>)
    ensures r.Ok? <==> Int32Arith.Divisible(v.X, s) && Int32Arith.Divisible(v.Y, s) && Int32Arith.Divisible(v.Z, s)
    ensures r.Ok? ==> Int32Arith.Div(v.X, s) == Ok(r.value.X) && Int32Arith.Div(v.Y, s) == Ok(r.value.Y)
    ensures r.Ok? ==> Int32Arith.Div(v.Z, s) == Ok(r.value.Z)
    ensures r.Err? ==> (r.error == DivideByZero <==> s == 0)
    ensures r.Err? && r.error != DivideByZero ==> r.error == Overflow
  {
    DivideScalar(v, s, Broadcast(0))
  }

  /** Dividing by a scalar is dividing by its broadcast, and dividing by
      One gives back the vector. */
  lemma DivideScalarIsDivideByBroadcast(v: Int3, s: int32)
    ensures DivideScalarLogical(v, s) == DivideLogical(v, CreateFromScalar(s))
    ensures DivideLogical(v, One) == Ok(v)
  {
    Int32Arith.DivByOne(v.X);
    Int32Arith.DivByOne(v.Y);
    Int32Arith.DivByOne(v.Z);
  }

  /** The padding alone makes the written division fail: (1, 1, 1) /
      (1, 1, 1) raises DivideByZero when the divisor's padding is zero, and
      (4, 4, 4) / -1 raises Overflow when the dividend's padding holds
      int.MinValue. The intended division of the same operands succeeds. */
  lemma DividePaddingFaults()
    ensures Divide(Vec3(1, 1, 1), Vec3(1, 1, 1), Broadcast(0), Broadcast(0)) == Err(DivideByZero)
    ensures DivideLogical(Vec3(1, 1, 1), Vec3(1, 1, 1)) == Ok(Vec3(1, 1, 1))
    ensures DivideScalar(Vec3(4, 4, 4), -1, Broadcast(MinInt32 as int32)) == Err(Overflow)
    ensures DivideScalarLogical(Vec3(4, 4, 4), -1) == Ok(Vec3(-4, -4, -4))
  {
    Int32Arith.DivByOne(1);
    assert Int32Arith.TruncDiv(4, -1) == -4;
  }

  // ---- equality ----

  /** `==` and Equals(Int3) as written: all four register lanes compared. */
  function Equal(a: Int3, b: Int3, ja: Register<int32>, jb: Register<int32>): (r: bool)
    ensures r <==> a == b && ja.e3 == jb.e3
  {
    Registers.AllLanes((x: int32, y: int32) => x == y, AsRegisterUnsafe3(a, ja), AsRegisterUnsafe3(b, jb))
  }

  /** `==` as intended: the three components compared. */
  function EqualLogical(a: Int3, b: Int3): (r: bool)
    ensures r <==> a.X == b.X && a.Y == b.Y && a.Z == b.Z
  {
    Equal(a, b, Broadcast(0), Broadcast(0))
  }

  /** A vector is unequal to itself as written whenever the two operands'
      padding differs, while the intended comparison is reflexive. */
  lemma EqualReadsPadding(v: Int3, ja: Register<int32>, jb: Register<int32>)
    requires ja.e3 != jb.e3
    ensures !Equal(v, v, ja, jb)
    ensures EqualLogical(v, v)
  {
  }
}

=== FILE: int32_arith.dfy ===
/** C# `int` arithmetic as the integer lanes perform it: unchecked (wrapping)
    addition, subtraction, multiplication and negation, truncating division
    that faults on a zero divisor and on int.MinValue / -1, and the
    `(uint)` reinterpretation used by every bounds check. */
module Int32Arith {
  import opened Lanes
  import opened Results

  const Modulus: int := 0x1_0000_0000

  /** Reduction of a mathematical integer to the int32 with the same residue
      modulo 2^32, which is what unchecked C# arithmetic keeps. */
  function Wrap(x: int): (r: int32)
    ensures (x - r) % Modulus == 0
    ensures MinInt32 <= x <= MaxInt32 ==> r == x
  {
    var m := x % Modulus;
    if m > MaxInt32 then m - Modulus else m
  }

  /** Wrap is the only int32 in its residue class. */
  lemma WrapUnique(x: int, r: int32)
    requires (x - r) % Modulus == 0
    ensures Wrap(x) == r
  {
    var w := Wrap(x);
    assert (w - r) % Modulus == 0 by {
      assert w - r == (x - r) - (x - w);
    }
    assert -Modulus < w - r < Modulus;
  }

  /** `(uint)i`: the two's-complement bit pattern of `i` read as unsigned. */
  function Unsigned(i: int32): (u: nat)
    ensures u < Modulus && (u - i) % Modulus == 0
  {
    if i < 0 then i + Modulus else i
  }

  /** The bounds-check idiom `(uint)index >= (uint)n` rejects exactly the
      indices outside [0, n), and `(uint)index > (uint)n` exactly those
      outside [0, n], for every n an array length can take. */
  lemma UnsignedBoundCheck(i: int32, n: nat)
    requires n <= MaxInt32
    ensures Unsigned(i) >= n <==> (i < 0 || i >= n)
    ensures Unsigned(i) > n <==> (i < 0 || i > n)
  {
  }

  function Add(a: int32, b: int32): (r: int32)
    ensures (a + b - r) % Modulus == 0
  {
    Wrap(a + b)
  }

  function Sub(a: int32, b: int32): (r: int32)
    ensures (a - b - r) % Modulus == 0
  {
    Wrap(a - b)
  }

  function Mul(a: int32, b: int32): (r: int32)
    ensures (a * b - r) % Modulus == 0
  {
    Wrap(a * b)
  }

  function Neg(a: int32): (r: int32)
    ensures (0 - a - r) % Modulus == 0
    ensures a != MinInt32 ==> r == 0 - a
  {
    Wrap(0 - a)
  }

  /** Unchecked subtraction undoes unchecked addition, overflow or not. */
  lemma SubUndoesAdd(a: int32, b: int32)
    ensures Sub(Add(a, b), b) == a
  {
    var s := Add(a, b);
    var k := (a + b - s) / Modulus;
    assert s - b - a == (0 - k) * Modulus;
    WrapUnique(s - b, a);
  }

  /** Unchecked negation is subtraction from zero. */
  lemma NegIsSubFromZero(a: int32)
    ensures Neg(a) == Sub(0, a)
  {
  }

  /** Division by one gives back the dividend. */
  lemma DivByOne(a: int32)
    ensures Div(a, 1) == Ok(a)
  {
  }

  /** Unchecked negation of int.MinValue is int.MinValue itself. */
  lemma NegMinValue()
    ensures Neg(MinInt32 as int32) == MinInt32
  {
  }

  function Abs(x: int): nat
  {
    if x < 0 then -x else x
  }

  /** C#'s `/` on integers: the quotient rounded toward zero. */
  function TruncDiv(a: int, b: int): (q: int)
    requires b != 0
    ensures Abs(q) == Abs(a) / Abs(b)
    ensures Abs(a - q * b) < Abs(b)
    ensures a - q * b == 0 || (a - q * b < 0 <==> a < 0)
  {
    var n := Abs(a) / Abs(b);
    var q := if (a < 0) == (b < 0) then n else -n;
    QuotientNonNegative(Abs(a), Abs(b));
    RemainderSign(a, b, q);
    q
  }

  lemma QuotientNonNegative(x: nat, d: nat)
    requires d > 0
    ensures x / d >= 0
  {
  }

  lemma RemainderSign(a: int, b: int, q: int)
    requires b != 0
    requires q == if (a < 0) == (b < 0) then Abs(a) / Abs(b) else -(Abs(a) / Abs(b))
    ensures Abs(a - q * b) < Abs(b)
    ensures a - q * b == 0 || (a - q * b < 0 <==> a < 0)
  {
    var x: int, d: int := Abs(a), Abs(b);
    var n: int, m: int := x / d, x % d;
    assert x == n * d + m && 0 <= m < d;
    var p := q * b;
    if a >= 0 && b > 0 {
      assert p == n * d;
    } else if a < 0 && b < 0 {
      assert p == n * (-d);
    } else if a >= 0 {
      assert p == (-n) * (-d);
    } else {
      assert p == (-n) * d;
    }
    assert a >= 0 ==> a - p == m;
    assert a < 0 ==> a - p == -m;
  }

  /** The lane division succeeds unless the divisor is zero or the quotient
      would be 2^31. */
  predicate Divisible(a: int32, b: int32)
  {
    b != 0 && !(a == MinInt32 && b == -1)
  }

  /** One lane of `Vector128<int>` division. */
  function Div(a: int32, b: int32): (r: Result<int32>)
    ensures r.Ok? <==> Divisible(a, b)
    ensures r.Ok? ==> Abs(a - r.value * b) < Abs(b)
    ensures r.Ok? ==> a - r.value * b == 0 || (a - r.value * b < 0 <==> a < 0)
    ensures b == 0 ==> r == Err(DivideByZero)
    ensures b != 0 && r.Err? ==> r == Err(Overflow)
  {
    if b == 0 then Err(DivideByZero)
    else if a == MinInt32 && b == -1 then Err(Overflow)
    else
      DivFits(a, b);
      Ok(TruncDiv(a, b))
  }

  /** Apart from int.MinValue / -1, a truncated int32 quotient is an int32. */
  lemma DivFits(a: int32, b: int32)
    requires Divisible(a, b)
    ensures MinInt32 <= TruncDiv(a, b) <= MaxInt32
  {
    var n := Abs(a) / Abs(b);
    if Abs(b) == 1 {
      assert n == Abs(a);
    } else {
      HalfBound(Abs(a), Abs(b));
    }
  }

  lemma HalfBound(x: nat, d: nat)
    requires d >= 2
    ensures (x / d) * 2 <= x
  {
    var n := x / d;
    assert x == n * d + x % d;
    assert n * d >= n * 2 by {
      assert n * d - n * 2 == n * (d - 2);
    }
  }
}

=== FILE: int4.dfy ===
/** Int4: four `int` components that fill a 4-lane register exactly.

    The promotion is a bit cast, so every operation is the register's own,
    and equality and division depend on the four components only. */
module Int4Vector {
  import opened Lanes
  import opened Results
  import opened VectorTypes
  import opened VectorExtensions
  import Int32Arith
  import Buffers
  import Registers

  const Count: nat := 4

  // ---- construction ----

  /** Int4(value) / Create(value). */
  function CreateFromScalar(value: int32): (r: Int4)
    ensures forall i :: 0 <= i < Count ==> r.At(i) == value
  {
    AsVec4(Broadcast(value))
  }

  /** Int4(x, y, z, w) / Create(x, y, z, w). */
  function Create(x: int32, y: int32, z: int32, w: int32): (r: Int4)
    ensures r.X == x && r.Y == y && r.Z == z && r.W == w
  {
    AsVec4(Register(x, y, z, w))
  }

  /** Int4(Int2, z, w) / Create(Int2, z, w) as intended: the Int2 promoted
      with zero padding, then `z` and `w` written over lanes 2 and 3. As
      written the promotion calls back into this constructor and never
      returns; see VectorExtensions.CheckedPromotion2NeverReturns. */
  function CreateFromInt2(v: Int2, z: int32, w: int32): (r: Int4)
    ensures r.X == v.X && r.Y == v.Y && r.Z == z && r.W == w
  {
    AsVec4(AsRegister2(v, 0).WithLane(2, z).WithLane(3, w))
  }

  /** Int4(Int3, w) / Create(Int3, w) as intended. */
  function CreateFromInt3(v: Int3, w: int32): (r: Int4)
    ensures r.X == v.X && r.Y == v.Y && r.Z == v.Z && r.W == w
  {
    AsVec4(AsRegister3(v, 0).WithLane(3, w))
  }

  /** Int4(span) / Create(span): the first four elements. */
  function CreateFromSpan(values: Buffer<int32>): (r: Result<Int4>)
    ensures r.Ok? <==> Count <= |values|
    ensures r.Err? ==> r.error == OutOfRange("values")
    ensures r.Ok? ==> r.value.Components() == values[..Count]
  {
    var q := Registers.CreateFromSpan(values);
    if q.Err? then Err(q.error) else Ok(AsVec4(q.value))
  }

  /** The constructors from smaller vectors agree with the one from four
      components. */
  lemma CreateFromSmaller(v: Int2, u: Int3, z: int32, w: int32)
    ensures CreateFromInt2(v, z, w) == Create(v.X, v.Y, z, w)
    ensures CreateFromInt3(u, w) == Create(u.X, u.Y, u.Z, w)
  {
  }

  const MinValue: Int4 := CreateFromScalar(MinInt32 as int32)
  const MaxValue: Int4 := CreateFromScalar(MaxInt32 as int32)
  const One: Int4 := CreateFromScalar(1)
  const UnitX: Int4 := Create(1, 0, 0, 0)
  const UnitY: Int4 := Create(0, 1, 0, 0)
  const UnitZ: Int4 := Create(0, 0, 1, 0)
  const Zero: Int4 := Vec4(0, 0, 0, 0)

  /** The unit vectors Int4 defines; there is no UnitW. */
  function Unit(axis: nat): Int4
    requires axis < 3
  {
    match axis
    case 0 => UnitX
    case 1 => UnitY
    case 2 => UnitZ
  }

  /** Each unit vector is one on its own axis and zero on the others. */
  lemma UnitsAreOneHot(axis: nat, i: nat)
    requires axis < 3 && i < Count
    ensures Unit(axis).At(i) == if axis == i then 1 else 0
  {
  }

  /** MinValue and MaxValue bound every Int4 componentwise. */
  lemma ValueBounds(v: Int4, i: nat)
    requires i < Count
    ensures MinValue.At(i) <= v.At(i) <= MaxValue.At(i)
  {
  }

  // ---- indexer ----

  /** this[index] get: the register's own element access. */
  function Get(v: Int4, index: int32): (r: Result<int32>)
    ensures r.Ok? <==> 0 <= index < Count
    ensures r.Ok? ==> r.value == v.At(index as nat)
    ensures r.Err? ==> r.error == OutOfRange("index")
  {
    Registers.GetElement(AsRegister4(v), index)
  }

  /** this[index] set. */
  function Set(v: Int4, index: int32, value: int32): (r: Result<Int4>)
    ensures r.Ok? <==> 0 <= index < Count
    ensures r.Ok? ==> r.value.At(index as nat) == value
    ensures r.Ok? ==> forall i :: 0 <= i < Count && i != index as nat ==> r.value.At(i) == v.At(i)
    ensures r.Err? ==> r.error == OutOfRange("index")
  {
    var q := Registers.WithElement(AsRegister4(v), index, value);
    if q.Err? then Err(q.error) else Ok(AsVec4(q.value))
  }

  /** Reading a component back after setting it gives the value set, and
      the others are untouched. */
  lemma GetAfterSet(v: Int4, index: int32, j: int32, value: int32)
    requires 0 <= index < Count
    ensures Get(Set(v, index, value).value, index) == Ok(value)
    ensures j != index ==> Get(Set(v, index, value).value, j) == Get(v, j)
  {
  }

  // ---- copying: the register's own rules ----

  /** CopyTo(array) and CopyTo(span): a destination shorter than four is
      rejected. */
  function CopyTo(v: Int4, dest: Buffer<int32>): (r: Result<Buffer<int32>>)
    ensures r.Ok? <==> Count <= |dest|
    ensures r.Err? ==> r.error == TooShort("destination")
    ensures r.Ok? ==> |r.value| == |dest| && r.value[..Count] == v.Components()
    ensures r.Ok? ==> r.value[Count..] == dest[Count..]
  {
    Registers.CopyTo(AsRegister4(v), dest)
  }

  /** CopyTo(array, index): the start index must be a position of the
      array and leave room for four components. */
  function CopyToAt(v: Int4, arr: Buffer<int32>, index: int32): (r: Result<Buffer<int32>>)
    ensures r.Ok? <==> 0 <= index && index + Count <= |arr|
    ensures (index < 0 || index >= |arr|) ==> r == Err(OutOfRange("startIndex"))
    ensures 0 <= index < |arr| && r.Err? ==> r == Err(TooShort("destination"))
    ensures r.Ok? ==> |r.value| == |arr| && r.value[index..index + Count] == v.Components()
    ensures r.Ok? ==> r.value[..index] == arr[..index] && r.value[index + Count..] == arr[index + Count..]
  {
    Registers.CopyToAt(AsRegister4(v), arr, index)
  }

  /** TryCopyTo(span). */
  function TryCopyTo(v: Int4, dest: Buffer<int32>): (r: (bool, Buffer<int32>))
    ensures r.0 <==> Count <= |dest|
    ensures !r.0 ==> r.1 == dest
    ensures r.0 ==> |r.1| == |dest| && r.1[..Count] == v.Components() && r.1[Count..] == dest[Count..]
  {
    Registers.TryCopyTo(AsRegister4(v), dest)
  }

  /** Creating from what was copied gives back the vector. */
  lemma CopyThenCreate(v: Int4, dest: Buffer<int32>, index: int32)
    ensures CopyTo(v, dest).Ok? ==> CreateFromSpan(CopyTo(v, dest).value) == Ok(v)
    ensures TryCopyTo(v, dest).0 ==> CreateFromSpan(TryCopyTo(v, dest).1) == Ok(v)
    ensures CopyToAt(v, dest, index).Ok? ==>
              CreateFromSpan(CopyToAt(v, dest, index).value[index..]) == Ok(v)
  {
    if CopyToAt(v, dest, index).Ok? {
      var w := CopyToAt(v, dest, index).value;
      assert w[index..][..Count] == w[index..index + Count];
    }
  }

  // ---- lane-wise arithmetic ----

  /** `+`: componentwise unchecked addition. */
  function Add(a: Int4, b: Int4): (r: Int4)
    ensures forall i :: 0 <= i < Count ==> r.At(i) == Int32Arith.Add(a.At(i), b.At(i))
  {
    AsVec4(Map2(Int32Arith.Add, AsRegister4(a), AsRegister4(b)))
  }

  /** Binary `-`: componentwise unchecked subtraction. */
  function Subtract(a: Int4, b: Int4): (r: Int4)
    ensures forall i :: 0 <= i < Count ==> r.At(i) == Int32Arith.Sub(a.At(i), b.At(i))
  {
    AsVec4(Map2(Int32Arith.Sub, AsRegister4(a), AsRegister4(b)))
  }

  /** `*` of two vectors: componentwise unchecked multiplication. */
  function Multiply(a: Int4, b: Int4): (r: Int4)
    ensures forall i :: 0 <= i < Count ==> r.At(i) == Int32Arith.Mul(a.At(i), b.At(i))
  {
    AsVec4(Map2(Int32Arith.Mul, AsRegister4(a), AsRegister4(b)))
  }

  /** `*` by a scalar on the right. */
  function Scale(v: Int4, s: int32): (r: Int4)
    ensures forall i :: 0 <= i < Count ==> r.At(i) == Int32Arith.Mul(v.At(i), s)
  {
    AsVec4(Map2(Int32Arith.Mul, AsRegister4(v), Broadcast(s)))
  }

  /** `*` by a scalar on the left, forwarded to `v * s`. */
  function ScaleLeft(s: int32, v: Int4): (r: Int4)
    ensures forall i :: 0 <= i < Count ==> r.At(i) == Int32Arith.Mul(s, v.At(i))
  {
    Scale(v, s)
  }

  /** Unary `-`: componentwise unchecked negation. */
  function Negate(v: Int4): (r: Int4)
    ensures forall i :: 0 <= i < Count ==> r.At(i) == Int32Arith.Neg(v.At(i))
  {
    AsVec4(Map1(Int32Arith.Neg, AsRegister4(v)))
  }

  /** Min: the smaller value in each component. */
  function Min(a: Int4, b: Int4): (r: Int4)
    ensures forall i :: 0 <= i < Count ==>
              r.At(i) <= a.At(i) && r.At(i) <= b.At(i) && (r.At(i) == a.At(i) || r.At(i) == b.At(i))
  {
    AsVec4(Map2(Registers.MinLane, AsRegister4(a), AsRegister4(b)))
  }

  /** Max: the larger value in each component. */
  function Max(a: Int4, b: Int4): (r: Int4)
    ensures forall i :: 0 <= i < Count ==>
              r.At(i) >= a.At(i) && r.At(i) >= b.At(i) && (r.At(i) == a.At(i) || r.At(i) == b.At(i))
  {
    AsVec4(Map2(Registers.MaxLane, AsRegister4(a), AsRegister4(b)))
  }

  /** Subtracting what was added gives back the vector, even when a
      component wrapped around. */
  lemma SubtractUndoesAdd(a: Int4, b: Int4)
    ensures Subtract(Add(a, b), b) == a
  {
    Int32Arith.SubUndoesAdd(a.X, b.X);
    Int32Arith.SubUndoesAdd(a.Y, b.Y);
    Int32Arith.SubUndoesAdd(a.Z, b.Z);
    Int32Arith.SubUndoesAdd(a.W, b.W);
  }

  /** Negation is subtraction from Zero. */
  lemma NegateIsSubtractFromZero(v: Int4)
    ensures Negate(v) == Subtract(Zero, v)
  {
    Int32Arith.NegIsSubFromZero(v.X);
    Int32Arith.NegIsSubFromZero(v.Y);
    Int32Arith.NegIsSubFromZero(v.Z);
    Int32Arith.NegIsSubFromZero(v.W);
  }

  /** Zero and One are the identities of `+` and `*`; scaling is
      multiplication by the broadcast scalar, from either side. */
  lemma Identities(v: Int4, s: int32)
    ensures Add(v, Zero) == v
    ensures Multiply(v, One) == v
    ensures Scale(v, s) == Multiply(v, CreateFromScalar(s))
    ensures ScaleLeft(s, v) == Scale(v, s)
  {
  }

  /** Min and Max split each pair of components between them. */
  lemma MinMaxPartition(a: Int4, b: Int4, i: nat)
    requires i < Count
    ensures Min(a, b) == Min(b, a) && Max(a, b) == Max(b, a)
    ensures Min(a, b).At(i) + Max(a, b).At(i) == a.At(i) + b.At(i)
  {
  }

  // ---- division ----

  /** `/` of two vectors: every component divided; a zero divisor anywhere
      raises DivideByZero, otherwise int.MinValue / -1 anywhere raises
      Overflow. */
  function Divide(a: Int4, b: Int4): (r: Result<Int4>)
    ensures r.Ok? <==> forall i :: 0 <= i < Count ==> Int32Arith.Divisible(a.At(i), b.At(i))
    ensures r.Ok? ==> forall i :: 0 <= i < Count ==> Int32Arith.Div(a.At(i), b.At(i)) == Ok(r.value.At(i))
    ensures r.Err? ==> (r.error == DivideByZero <==> exists i :: 0 <= i < Count && b.At(i) == 0)
    ensures r.Err? && r.error != DivideByZero ==> r.error == Overflow
  {
    var q := Registers.DivLanes(AsRegister4(a), AsRegister4(b));
    assert Registers.AnyZero(AsRegister4(b)) <==> exists i :: 0 <= i < Count && b.At(i) == 0 by {
      if Registers.AnyZero(AsRegister4(b)) {
        if b.X == 0 { assert b.At(0) == 0; }
        else if b.Y == 0 { assert b.At(1) == 0; }
        else if b.Z == 0 { assert b.At(2) == 0; }
        else { assert b.At(3) == 0; }
      }
    }
    assert Registers.AllDivisible(AsRegister4(a), AsRegister4(b))
           <==> forall i :: 0 <= i < Count ==> Int32Arith.Divisible(a.At(i), b.At(i)) by {
      if Registers.AllDivisible(AsRegister4(a), AsRegister4(b)) {
        forall i | 0 <= i < Count
          ensures Int32Arith.Divisible(a.At(i), b.At(i))
        {
          assert AsRegister4(a).Lane(i) == a.At(i) && AsRegister4(b).Lane(i) == b.At(i);
        }
      } else {
        assert !Int32Arith.Divisible(a.At(0), b.At(0)) || !Int32Arith.Divisible(a.At(1), b.At(1))
            || !Int32Arith.Divisible(a.At(2), b.At(2)) || !Int32Arith.Divisible(a.At(3), b.At(3));
      }
    }
    if q.Err? then Err(q.error)
    else
      Exact4(a, q.value);
      Exact4(b, q.value);
      Ok(AsVec4(q.value))
  }

  /** `/` by a scalar: every component divided by it. */
  function DivideScalar(v: Int4, s: int32): (r: Result<Int4>)
    ensures r.Ok? <==> forall i :: 0 <= i < Count ==> Int32Arith.Divisible(v.At(i), s)
    ensures r.Ok? ==> forall i :: 0 <= i < Count ==> Int32Arith.Div(v.At(i), s) == Ok(r.value.At(i))
    ensures r.Err? ==> (r.error == DivideByZero <==> s == 0)
    ensures r.Err? && r.error != DivideByZero ==> r.error == Overflow
  {
    Divide(v, CreateFromScalar(s))
  }

  /** Dividing by One gives back the vector. */
  lemma DivideByOne(v: Int4)
    ensures Divide(v, One) == Ok(v)
    ensures DivideScalar(v, 1) == Ok(v)
  {
    Int32Arith.DivByOne(v.X);
    Int32Arith.DivByOne(v.Y);
    Int32Arith.DivByOne(v.Z);
    Int32Arith.DivByOne(v.W);
  }

  // ---- equality ----

  /** `==` and Equals(Int4): every lane equal, which is equality of the
      vectors since there is no padding. */
  function Equal(a: Int4, b: Int4): (r: bool)
    ensures r <==> a == b
  {
    Registers.AllLanes((x: int32, y: int32) => x == y, AsRegister4(a), AsRegister4(b))
  }
}

=== FILE: lanes.dfy ===
/** The data model shared by every vector type: 32-bit integers, bounded
    buffers (arrays and spans), the 4-lane register, and the 2/3/4-component
    vectors themselves. */
module Lanes {

  const MinInt32: int := -0x8000_0000
  const MaxInt32: int := 0x7FFF_FFFF

  /** A C# `int`. */
  type int32 = x: int | -0x8000_0000 <= x <= 0x7FFF_FFFF

  /** An array or span: its length is a non-negative `int`. */
  type Buffer<T> = s: seq<T> | |s| <= 0x7FFF_FFFF witness []

  /** A 4-lane hardware register (Vector128<int> or Vector256<double>). */
  datatype Register<T> = Register(e0: T, e1: T, e2: T, e3: T) {

    function Lane(i: nat): T
      requires i < 4
    {
      match i
      case 0 => e0
      case 1 => e1
      case 2 => e2
      case 3 => e3
    }

    /** The register with lane `i` replaced by `v`. */
    function WithLane(i: nat, v: T): (r: Register<T>)
      requires i < 4
      ensures r.Lane(i) == v
      ensures forall j :: 0 <= j < 4 && j != i ==> r.Lane(j) == Lane(j)
    {
      match i
      case 0 => this.(e0 := v)
      case 1 => this.(e1 := v)
      case 2 => this.(e2 := v)
      case 3 => this.(e3 := v)
    }
  }

  /** The register with every lane equal to `v` (Vector128.Create(value)). */
  function Broadcast<T>(v: T): (r: Register<T>)
    ensures forall i :: 0 <= i < 4 ==> r.Lane(i) == v
  {
    Register(v, v, v, v)
  }

  /** A lane-wise unary operation. */
  function Map1<T>(f: T -> T, a: Register<T>): (r: Register<T>)
    ensures forall i :: 0 <= i < 4 ==> r.Lane(i) == f(a.Lane(i))
  {
    Register(f(a.e0), f(a.e1), f(a.e2), f(a.e3))
  }

  /** A lane-wise binary operation. */
  function Map2<T>(f: (T, T) -> T, a: Register<T>, b: Register<T>): (r: Register<T>)
    ensures forall i :: 0 <= i < 4 ==> r.Lane(i) == f(a.Lane(i), b.Lane(i))
  {
    Register(f(a.e0, b.e0), f(a.e1, b.e1), f(a.e2, b.e2), f(a.e3, b.e3))
  }

  /** A lane-wise ternary operation. */
  function Map3<T>(f: (T, T, T) -> T, a: Register<T>, b: Register<T>, c: Register<T>): (r: Register<T>)
    ensures forall i :: 0 <= i < 4 ==> r.Lane(i) == f(a.Lane(i), b.Lane(i), c.Lane(i))
  {
    Register(f(a.e0, b.e0, c.e0), f(a.e1, b.e1, c.e1), f(a.e2, b.e2, c.e2), f(a.e3, b.e3, c.e3))
  }

  /** Two components, X and Y (Int2, Double2). */
  datatype Vec2<T> = Vec2(X: T, Y: T) {
    function At(i: nat): T
      requires i < 2
    {
      if i == 0 then X else Y
    }
    function Components(): (s: seq<T>)
      ensures |s| == 2 && forall i :: 0 <= i < 2 ==> s[i] == At(i)
    {
      [X, Y]
    }
  }

  /** Three components, X, Y and Z (Int3, Double3). */
  datatype Vec3<T> = Vec3(X: T, Y: T, Z: T) {
    function At(i: nat): T
      requires i < 3
    {
      match i
      case 0 => X
      case 1 => Y
      case 2 => Z
    }
    function Components(): (s: seq<T>)
      ensures |s| == 3 && forall i :: 0 <= i < 3 ==> s[i] == At(i)
    {
      [X, Y, Z]
    }
  }

  /** Four components, X, Y, Z and W (Int4, Double4). */
  datatype Vec4<T> = Vec4(X: T, Y: T, Z: T, W: T) {
    function At(i: nat): T
      requires i < 4
    {
      match i
      case 0 => X
      case 1 => Y
      case 2 => Z
      case 3 => W
    }
    function Components(): (s: seq<T>)
      ensures |s| == 4 && forall i :: 0 <= i < 4 ==> s[i] == At(i)
    {
      [X, Y, Z, W]
    }
  }
}

/** The six vector types of the library. The integer types hold int32
    components; the double types are generic in an opaque element type. */
module VectorTypes {
  import opened Lanes

  type Int2 = Vec2<int32>
  type Int3 = Vec3<int32>
  type Int4 = Vec4<int32>
  type Double2<D> = Vec2<D>
  type Double3<D> = Vec3<D>
  type Double4<D> = Vec4<D>
}

=== FILE: meth.dfy ===
/** The scalar helpers: integer Min, Max and Clamp (one overload per integer
    width), and FloorToInt, CeilingToInt, EuclideanMod and WrapDegrees on
    doubles, idealised as exact real numbers. FloorToInt and CeilingToInt
    take inputs whose `(int)` cast is defined; EuclideanMod and WrapDegrees
    take any real. */
module Meth {
  import opened Lanes
  import Int32Arith

  /** The eight integer widths that have Min, Max and Clamp overloads. */
  datatype IntKind = SByte | Byte | Short | UShort | Int | UInt | Long | ULong

  function MinOf(k: IntKind): int
  {
    match k
    case SByte => -0x80
    case Byte => 0
    case Short => -0x8000
    case UShort => 0
    case Int => -0x8000_0000
    case UInt => 0
    case Long => -0x8000_0000_0000_0000
    case ULong => 0
  }

  function MaxOf(k: IntKind): int
  {
    match k
    case SByte => 0x7F
    case Byte => 0xFF
    case Short => 0x7FFF
    case UShort => 0xFFFF
    case Int => 0x7FFF_FFFF
    case UInt => 0xFFFF_FFFF
    case Long => 0x7FFF_FFFF_FFFF_FFFF
    case ULong => 0xFFFF_FFFF_FFFF_FFFF
  }

  /** `x` is a value of width `k`. */
  predicate InKind(k: IntKind, x: int)
  {
    MinOf(k) <= x <= MaxOf(k)
  }

  /** Min: `x < y ? x : y`, the same for every integer width. */
  function Min(x: int, y: int): (r: int)
    ensures r <= x && r <= y
    ensures r == x || r == y
  {
    if x < y then x else y
  }

  /** Max: `x > y ? x : y`. */
  function Max(x: int, y: int): (r: int)
    ensures r >= x && r >= y
    ensures r == x || r == y
  {
    if x > y then x else y
  }

  /** Clamp: `x < min ? min : x > max ? max : x`. The bounds are not
      checked; when min > max, min wins for x below it and max otherwise. */
  function Clamp(x: int, min: int, max: int): (r: int)
    ensures min <= max ==> min <= r <= max
    ensures min <= max ==> r == Min(Max(x, min), max)
    ensures min <= x <= max ==> r == x
    ensures min > max ==> r == (if x < min then min else max)
  {
    if x < min then min else if x > max then max else x
  }

  /** The result of Min, Max and Clamp on values of one width is a value of
      that width, so every overload returns within its type. */
  lemma StaysInKind(k: IntKind, x: int, y: int, z: int)
    requires InKind(k, x) && InKind(k, y) && InKind(k, z)
    ensures InKind(k, Min(x, y)) && InKind(k, Max(x, y)) && InKind(k, Clamp(x, y, z))
  {
  }

  /** With ordered bounds, clamping twice is clamping once. */
  lemma ClampIdempotent(x: int, min: int, max: int)
    requires min <= max
    ensures Clamp(Clamp(x, min, max), min, max) == Clamp(x, min, max)
  {
  }

  /** Clamp on a value above, below and inside [0, 100]. */
  lemma ClampExamples()
    ensures Clamp(150, 0, 100) == 100 && Clamp(-5, 0, 100) == 0 && Clamp(50, 0, 100) == 50
  {
  }

  // ---- doubles, as exact reals ----

  predicate IsInteger(z: real)
  {
    z == z.Floor as real
  }

  /** The conversion `(int)x` rounds toward zero. */
  function Truncate(x: real): (n: int)
    ensures 0.0 <= x ==> n as real <= x < n as real + 1.0
    ensures x < 0.0 ==> n as real - 1.0 < x <= n as real
  {
    if x >= 0.0 then x.Floor else -((-x).Floor)
  }

  /** Doubles whose conversion to `int` does not overflow. */
  predicate CastInRange(x: real)
  {
    -2147483649.0 < x < 2147483648.0
  }

  /** `(int)x` for a double in range. */
  function ToInt32(x: real): (n: int32)
    requires CastInRange(x)
    ensures n == Truncate(x)
  {
    Truncate(x)
  }

  /** FloorToInt as written: `(int)x - (x < 0.0 ? 1 : 0)`, with C#'s
      unchecked int subtraction. */
  function FloorToIntAsWritten(x: real): (r: int32)
    requires CastInRange(x)
    ensures x >= 0.0 ==> r == x.Floor
    ensures MinInt32 as real < x < 0.0 ==> r as real < x < r as real + 2.0
  {
    Int32Arith.Wrap(ToInt32(x) - (if x < 0.0 then 1 else 0))
  }

  /** The inputs of the intended FloorToInt are exactly the doubles whose
      `(int)` cast is defined and whose floor is an int32; just below
      int.MinValue the cast is defined but the floor is not an int32. */
  lemma FloorToIntDomain(x: real)
    ensures MinInt32 as real <= x < 2147483648.0 <==> CastInRange(x) && MinInt32 <= x.Floor <= MaxInt32
    ensures CastInRange(-2147483648.5) && (-2147483648.5).Floor < MinInt32
  {
  }

  /** FloorToInt as intended: the truncation, less one exactly when it
      rounded up (mirroring CeilingToInt). Its inputs are the doubles whose
      floor is an int32 (`FloorToIntDomain`). */
  function FloorToInt(x: real): (r: int32)
    requires MinInt32 as real <= x < 2147483648.0
    ensures r == x.Floor
  {
    var ix := ToInt32(x);
    ix - (if x < ix as real then 1 else 0)
  }

  /** As written, FloorToInt agrees with the floor exactly on inputs that are
      not negative integers; on a negative integer it is one too small, and
      at -2^31 the subtraction wraps to int.MaxValue. */
  lemma FloorToIntAsWrittenMisses(x: real)
    requires CastInRange(x) && x > MinInt32 as real
    ensures FloorToIntAsWritten(x) == x.Floor <==> !(x < 0.0 && IsInteger(x))
    ensures x < 0.0 && IsInteger(x) ==> FloorToIntAsWritten(x) == x.Floor - 1
  {
    if x < 0.0 {
      assert Truncate(x) - 1 > MinInt32 - 1;
      if IsInteger(x) {
        assert Truncate(x) == x.Floor;
      } else {
        assert Truncate(x) == x.Floor + 1;
      }
    }
  }

  /** FloorToInt(-2.0) is -3 as written and -2 as intended; FloorToInt of
      int.MinValue wraps around to int.MaxValue. */
  lemma FloorToIntAsWrittenExamples()
    ensures FloorToIntAsWritten(-2.0) == -3 && FloorToInt(-2.0) == -2
    ensures FloorToIntAsWritten(-2147483648.0) == MaxInt32
    ensures FloorToIntAsWritten(-2.5) == -3 && FloorToIntAsWritten(2.5) == 2
  {
    assert Truncate(-2.0) == -2;
    assert Truncate(-2.5) == -2;
    assert Truncate(-2147483648.0) == MinInt32;
  }

  /** CeilingToInt: `ix + (ix < x ? 1 : 0)` with `ix = (int)x`; it is the
      ceiling whenever the ceiling is an int, and wraps to int.MinValue just
      above int.MaxValue. */
  function CeilingToInt(x: real): (r: int32)
    requires CastInRange(x)
    ensures x <= MaxInt32 as real ==> r as real - 1.0 < x <= r as real
    ensures x > MaxInt32 as real ==> r == MinInt32
  {
    var ix := ToInt32(x);
    Int32Arith.Wrap(ix + (if (ix as real) < x then 1 else 0))
  }

  function AbsReal(x: real): real
  {
    if x < 0.0 then -x else x
  }

  /** C#'s `%` on doubles: the remainder of the quotient truncated toward
      zero. It is smaller than the divisor, has the dividend's sign, and
      differs from the dividend by a whole multiple of the divisor. */
  function Remainder(x: real, y: real): (r: real)
    requires y != 0.0
    ensures AbsReal(r) < AbsReal(y)
    ensures r == 0.0 || (r < 0.0 <==> x < 0.0)
    ensures IsInteger((x - r) / y)
  {
    var t := Truncate(x / y);
    RemainderBound(x, y, t);
    Witness(x, x - t as real * y, y, t);
    x - t as real * y
  }

  lemma RemainderBound(x: real, y: real, t: int)
    requires y != 0.0 && t == Truncate(x / y)
    ensures AbsReal(x - t as real * y) < AbsReal(y)
    ensures x - t as real * y == 0.0 || (x - t as real * y < 0.0 <==> x < 0.0)
  {
    var q := x / y;
    var f := q - t as real;
    QuotientTimes(x, y);
    Distrib(q, t as real, y);
    assert x - t as real * y == f * y;
    AbsProduct(f, y);
    SignProduct(f, y);
    SignProduct(q, y);
  }

  /** Dividing then multiplying by the same non-zero number. */
  lemma QuotientTimes(a: real, y: real)
    requires y != 0.0
    ensures (a / y) * y == a
  {
  }

  lemma DivOfProduct(c: real, y: real)
    requires y != 0.0
    ensures (c * y) / y == c
  {
  }

  lemma Distrib(a: real, b: real, y: real)
    ensures (a - b) * y == a * y - b * y
  {
  }

  lemma SignProduct(a: real, b: real)
    ensures a * b < 0.0 <==> (a < 0.0 && b > 0.0) || (a > 0.0 && b < 0.0)
  {
  }

  lemma AbsProduct(a: real, b: real)
    requires 0.0 <= AbsReal(a) < 1.0 && b != 0.0
    ensures AbsReal(a * b) < AbsReal(b)
  {
    if b > 0.0 {
      PositiveProduct(1.0 - a, b);
      PositiveProduct(1.0 + a, b);
      assert b - a * b == (1.0 - a) * b;
      assert b + a * b == (1.0 + a) * b;
    } else {
      PositiveProduct(1.0 - a, -b);
      PositiveProduct(1.0 + a, -b);
      assert -b + a * b == (1.0 - a) * -b;
      assert -b - a * b == (1.0 + a) * -b;
      assert b < a * b < -b;
    }
  }

  lemma PositiveProduct(u: real, v: real)
    requires u > 0.0 && v > 0.0
    ensures u * v > 0.0
  {
  }

  /** `x - r` is the whole multiple `k` of `y`. */
  lemma Witness(x: real, r: real, y: real, k: int)
    requires y != 0.0 && x - r == k as real * y
    ensures IsInteger((x - r) / y) && ((x - r) / y).Floor == k
  {
    DivOfProduct(k as real, y);
  }

  /** The whole multiple behind `IsInteger((x - r) / y)`. */
  lemma Multiple(x: real, r: real, y: real)
    requires y != 0.0 && IsInteger((x - r) / y)
    ensures x - r == ((x - r) / y).Floor as real * y
  {
    QuotientTimes(x - r, y);
  }

  /** EuclideanMod: the remainder, moved by `y` when it is negative. For a
      negative modulus that moves a negative remainder further down, below
      y, rather than into [0, -y). */
  function EuclideanMod(x: real, y: real): (r: real)
    requires y != 0.0
    ensures y > 0.0 ==> 0.0 <= r < y
    ensures y < 0.0 ==> (2.0 * y < r < y || 0.0 <= r < -y)
    ensures IsInteger((x - r) / y)
  {
    var m := Remainder(x, y);
    ShiftKeepsInteger(x, y, m);
    if m < 0.0 then m + y else m
  }

  /** Adding the modulus to a remainder keeps it in the same class. */
  lemma ShiftKeepsInteger(x: real, y: real, m: real)
    requires y != 0.0 && IsInteger((x - m) / y)
    ensures IsInteger((x - (m + y)) / y)
  {
    var k := ((x - m) / y).Floor;
    Multiple(x, m, y);
    assert x - (m + y) == k as real * y - y;
    assert k as real * y - y == (k - 1) as real * y;
    Witness(x, m + y, y, k - 1);
  }

  /** With a negative modulus the result can be negative: -1 mod -3 is -4,
      while 1 mod -3 is 1. */
  lemma EuclideanModNegativeDivisor()
    ensures EuclideanMod(-1.0, -3.0) == -4.0
    ensures EuclideanMod(1.0, -3.0) == 1.0
  {
    assert -1.0 / -3.0 == 1.0 / 3.0;
    assert Truncate(1.0 / 3.0) == 0;
    assert Truncate(1.0 / -3.0) == 0;
  }

  /** For a positive modulus, EuclideanMod is the one value in [0, y) that
      differs from x by a whole multiple of y. */
  lemma EuclideanModUnique(x: real, y: real, r: real)
    requires y > 0.0 && 0.0 <= r < y && IsInteger((x - r) / y)
    ensures EuclideanMod(x, y) == r
  {
    var e := EuclideanMod(x, y);
    SameClass(x, y, r, e);
  }

  /** Two values of [0, y) in the same class modulo y are equal. */
  lemma SameClass(x: real, y: real, r: real, e: real)
    requires y > 0.0 && 0.0 <= r < y && 0.0 <= e < y
    requires IsInteger((x - r) / y) && IsInteger((x - e) / y)
    ensures e == r
  {
    var k1 := ((x - r) / y).Floor;
    var k2 := ((x - e) / y).Floor;
    Multiple(x, r, y);
    Multiple(x, e, y);
    Distrib(k1 as real, k2 as real, y);
    assert e - r == (k1 - k2) as real * y;
    NoMultipleBetween(k1 - k2, y, e - r);
    assert e - r == 0.0 * y;
  }

  /** The only whole multiple of y strictly between -y and y is zero. */
  lemma NoMultipleBetween(k: int, y: real, p: real)
    requires y > 0.0 && p == k as real * y && -y < p < y
    ensures k == 0
  {
    MultipleBound(k, y);
  }

  /** A non-zero whole multiple of a positive y is at least y in size. */
  lemma MultipleBound(k: int, y: real)
    requires y > 0.0
    ensures k >= 1 ==> k as real * y >= y
    ensures k <= -1 ==> k as real * y <= -y
  {
    assert k as real * y - y == (k - 1) as real * y;
    assert k as real * y + y == (k + 1) as real * y;
    if k >= 1 {
      assert (k - 1) as real * y >= 0.0;
    }
    if k <= -1 {
      assert (k + 1) as real * y <= 0.0;
    }
  }

  /** WrapDegrees: an angle reduced into [0, 360). */
  function WrapDegrees(x: real): (r: real)
    ensures 0.0 <= r < 360.0
    ensures IsInteger((x - r) / 360.0)
  {
    EuclideanMod(x, 360.0)
  }

  /** The angles the demonstration program wraps. */
  lemma WrapDegreesExamples()
    ensures WrapDegrees(0.0) == 0.0 && WrapDegrees(180.0) == 180.0
    ensures WrapDegrees(-180.0) == 180.0 && WrapDegrees(360.0) == 0.0
    ensures WrapDegrees(720.0) == 0.0 && WrapDegrees(-1024.0) == 56.0
  {
    EuclideanModUnique(0.0, 360.0, 0.0);
    EuclideanModUnique(180.0, 360.0, 180.0);
    EuclideanModUnique(-180.0, 360.0, 180.0);
    EuclideanModUnique(360.0, 360.0, 0.0);
    EuclideanModUnique(720.0, 360.0, 0.0);
    EuclideanModUnique(-1024.0, 360.0, 56.0);
  }
}

=== FILE: registers.dfy ===
/** The behaviour this library relies on from the 4-lane register types
    (Vector128<int>, Vector256<double>). That library is not part of this
    model; these definitions state what is assumed of it: element access and
    creation from a span reject out-of-range arguments, copying needs four
    slots, equality holds when every lane is equal, `Dot` sums the four
    lane products pairwise, and integer division faults when any lane's
    divisor is zero or any lane computes int.MinValue / -1. */
module Registers {
  import opened Lanes
  import opened Results
  import Int32Arith
  import Buffers
  import Meth

  const Count: nat := 4

  /** GetElement(index). */
  function GetElement<T>(r: Register<T>, index: int32): (x: Result<T>)
    ensures x.Ok? <==> 0 <= index < 4
    ensures x.Ok? ==> x.value == r.Lane(index as nat)
    ensures x.Err? ==> x.error == OutOfRange("index")
  {
    Int32Arith.UnsignedBoundCheck(index, Count);
    if Int32Arith.Unsigned(index) >= Count then Err(OutOfRange("index"))
    else Ok(r.Lane(index as nat))
  }

  /** WithElement(index, value). */
  function WithElement<T>(r: Register<T>, index: int32, v: T): (x: Result<Register<T>>)
    ensures x.Ok? <==> 0 <= index < 4
    ensures x.Ok? ==> x.value == r.WithLane(index as nat, v)
    ensures x.Err? ==> x.error == OutOfRange("index")
  {
    Int32Arith.UnsignedBoundCheck(index, Count);
    if Int32Arith.Unsigned(index) >= Count then Err(OutOfRange("index"))
    else Ok(r.WithLane(index as nat, v))
  }

  /** Create(ReadOnlySpan): the first four elements. */
  function CreateFromSpan<T>(values: Buffer<T>): (x: Result<Register<T>>)
    ensures x.Ok? <==> 4 <= |values|
    ensures x.Err? ==> x.error == OutOfRange("values")
    ensures x.Ok? ==> x.value == Register(values[0], values[1], values[2], values[3])
  {
    if |values| < Count then Err(OutOfRange("values"))
    else Ok(Register(values[0], values[1], values[2], values[3]))
  }

  function Lanes4<T>(r: Register<T>): seq<T>
  {
    [r.e0, r.e1, r.e2, r.e3]
  }

  /** CopyTo(array) and CopyTo(span). */
  function CopyTo<T>(r: Register<T>, dest: Buffer<T>): (x: Result<Buffer<T>>)
    ensures x.Ok? <==> 4 <= |dest|
    ensures x.Err? ==> x.error == TooShort("destination")
    ensures x.Ok? ==> x.value == Buffers.WriteAt(dest, 0, Lanes4(r))
  {
    Buffers.CopyTo(Lanes4(r), dest, TooShort("destination"))
  }

  /** CopyTo(array, startIndex): the start must be a valid element index of
      the arr, and four slots must follow it. */
  function CopyToAt<T>(r: Register<T>, arr: Buffer<T>, startIndex: int32): (x: Result<Buffer<T>>)
    ensures x.Ok? <==> 0 <= startIndex && startIndex + 4 <= |arr|
    ensures (startIndex < 0 || startIndex >= |arr|) ==> x == Err(OutOfRange("startIndex"))
    ensures 0 <= startIndex < |arr| && x.Err? ==> x == Err(TooShort("destination"))
    ensures x.Ok? ==> x.value == Buffers.WriteAt(arr, startIndex as nat, Lanes4(r))
  {
    Int32Arith.UnsignedBoundCheck(startIndex, |arr|);
    if Int32Arith.Unsigned(startIndex) >= |arr| then Err(OutOfRange("startIndex"))
    else if |arr| - startIndex < Count then Err(TooShort("destination"))
    else Ok(Buffers.WriteAt(arr, startIndex as nat, Lanes4(r)))
  }

  /** TryCopyTo(span). */
  function TryCopyTo<T>(r: Register<T>, dest: Buffer<T>): (x: (bool, Buffer<T>))
    ensures x.0 <==> 4 <= |dest|
    ensures !x.0 ==> x.1 == dest
    ensures x.0 ==> x.1 == Buffers.WriteAt(dest, 0, Lanes4(r))
  {
    Buffers.TryCopyTo(Lanes4(r), dest)
  }

  /** One lane of Vector128.Min on `int`: the scalar Min. */
  function MinLane(x: int32, y: int32): int32
  {
    Meth.Min(x, y)
  }

  /** One lane of Vector128.Max on `int`: the scalar Max. */
  function MaxLane(x: int32, y: int32): int32
  {
    Meth.Max(x, y)
  }

  /** `==` and Equals: true when `same` holds in every lane. */
  predicate AllLanes<T>(same: (T, T) -> bool, a: Register<T>, b: Register<T>)
  {
    same(a.e0, b.e0) && same(a.e1, b.e1) && same(a.e2, b.e2) && same(a.e3, b.e3)
  }

  /** Dot: the sum of the four lane products. */
  function Dot<T>(add: (T, T) -> T, mul: (T, T) -> T, a: Register<T>, b: Register<T>): T
  {
    add(add(mul(a.e0, b.e0), mul(a.e1, b.e1)), add(mul(a.e2, b.e2), mul(a.e3, b.e3)))
  }

  /** Every lane of `a` divisible by the matching lane of `b`. */
  predicate AllDivisible(a: Register<int32>, b: Register<int32>)
  {
    && Int32Arith.Divisible(a.e0, b.e0) && Int32Arith.Divisible(a.e1, b.e1)
    && Int32Arith.Divisible(a.e2, b.e2) && Int32Arith.Divisible(a.e3, b.e3)
  }

  /** Some lane of `b` is zero. */
  predicate AnyZero(b: Register<int32>)
  {
    b.e0 == 0 || b.e1 == 0 || b.e2 == 0 || b.e3 == 0
  }

  /** Lane-wise `/` on Vector128<int> as the x64 accelerated path computes
      it: a zero divisor in any lane raises DivideByZero; otherwise
      int.MinValue / -1 in any lane raises Overflow. */
  function DivLanes(a: Register<int32>, b: Register<int32>): (x: Result<Register<int32>>)
    ensures x.Ok? <==> AllDivisible(a, b)
    ensures x.Ok? ==> forall i :: 0 <= i < 4 ==> Int32Arith.Div(a.Lane(i), b.Lane(i)) == Ok(x.value.Lane(i))
    ensures x.Err? ==> (x.error == DivideByZero <==> AnyZero(b))
    ensures x.Err? && !AnyZero(b) ==> x.error == Overflow
  {
    if AnyZero(b) then Err(DivideByZero)
    else
      var q0 := Int32Arith.Div(a.e0, b.e0);
      var q1 := Int32Arith.Div(a.e1, b.e1);
      var q2 := Int32Arith.Div(a.e2, b.e2);
      var q3 := Int32Arith.Div(a.e3, b.e3);
      if q0.Ok? && q1.Ok? && q2.Ok? && q3.Ok? then
        Ok(Register(q0.value, q1.value, q2.value, q3.value))
      else Err(Overflow)
  }

  /** Lane `i` is the first lane whose division faults. */
  predicate FirstFault(a: Register<int32>, b: Register<int32>, i: nat)
    requires i < 4
  {
    && Int32Arith.Div(a.Lane(i), b.Lane(i)).Err?
    && forall j :: 0 <= j < i ==> Int32Arith.Div(a.Lane(j), b.Lane(j)).Ok?
  }

  /** Lane-wise `/` on Vector128<int> as the software fallback computes it:
      the lanes are divided in order, and the first faulting lane's error is
      the one raised. */
  function DivLanesInOrder(a: Register<int32>, b: Register<int32>): (x: Result<Register<int32>>)
    ensures x.Ok? <==> AllDivisible(a, b)
    ensures x.Ok? ==> forall i :: 0 <= i < 4 ==> Int32Arith.Div(a.Lane(i), b.Lane(i)) == Ok(x.value.Lane(i))
    ensures x.Err? ==> exists i :: 0 <= i < 4 && FirstFault(a, b, i) && Int32Arith.Div(a.Lane(i), b.Lane(i)) == Err(x.error)
  {
    var q0 := Int32Arith.Div(a.e0, b.e0);
    var q1 := Int32Arith.Div(a.e1, b.e1);
    var q2 := Int32Arith.Div(a.e2, b.e2);
    var q3 := Int32Arith.Div(a.e3, b.e3);
    if q0.Err? then
      assert FirstFault(a, b, 0);
      Err(q0.error)
    else if q1.Err? then
      assert FirstFault(a, b, 1);
      Err(q1.error)
    else if q2.Err? then
      assert FirstFault(a, b, 2);
      Err(q2.error)
    else if q3.Err? then
      assert FirstFault(a, b, 3);
      Err(q3.error)
    else Ok(Register(q0.value, q1.value, q2.value, q3.value))
  }

  /** The two division paths agree on whether division succeeds and on its
      value; they raise different errors exactly when the fallback meets an
      Overflow lane before any zero divisor, while a later lane's divisor is
      zero. */
  lemma DivPathsAgree(a: Register<int32>, b: Register<int32>)
    ensures DivLanes(a, b).Ok? <==> DivLanesInOrder(a, b).Ok?
    ensures DivLanes(a, b).Ok? ==> DivLanes(a, b) == DivLanesInOrder(a, b)
    ensures DivLanes(a, b) != DivLanesInOrder(a, b) <==> DivLanesInOrder(a, b) == Err(Overflow) && AnyZero(b)
  {
    var x, y := DivLanes(a, b), DivLanesInOrder(a, b);
    if x.Ok? {
      assert x.value == y.value by {
        assert forall i :: 0 <= i < 4 ==> x.value.Lane(i) == y.value.Lane(i);
      }
    }
  }

  /** Dividing by a broadcast scalar, both paths raise the same error: every
      divisor lane is zero or none is. */
  lemma DivPathsAgreeOnBroadcast(a: Register<int32>, s: int32)
    ensures DivLanes(a, Broadcast(s)) == DivLanesInOrder(a, Broadcast(s))
  {
    DivPathsAgree(a, Broadcast(s));
  }

  /** (int.MinValue, 1, 1, 1) / (-1, 0, 1, 1): the accelerated path raises
      DivideByZero for lane 1, the fallback raises Overflow for lane 0. */
  lemma DivPathsDiffer()
    ensures DivLanes(Register(MinInt32 as int32, 1, 1, 1), Register(-1, 0, 1, 1)) == Err(DivideByZero)
    ensures DivLanesInOrder(Register(MinInt32 as int32, 1, 1, 1), Register(-1, 0, 1, 1)) == Err(Overflow)
  {
  }
}

=== FILE: results.dfy ===
/** Failure values of the vector library: the exceptions its operations throw,
    and a Result type that carries either a value or one of them. */
module Results {

  /** The exceptions the modelled operations can raise. */
  datatype Error =
    | OutOfRange(paramName: string)  // ArgumentOutOfRangeException for the named parameter
    | TooShort(paramName: string)    // ArgumentException "Destination is too short"
    | DivideByZero                   // integer division by a zero lane
    | Overflow                       // int.MinValue / -1 in some lane
    | StackOverflow                  // unbounded recursion exhausted the stack

  datatype Result<+T> = Ok(value: T) | Err(error: Error)
}

=== FILE: vector_extensions.dfy ===
/** Promotion of a vector into a 4-lane register and demotion back.

    The unchecked promotion of a 2- or 3-component vector starts from an
    uninitialised register and writes the vector's bytes over its low lanes,
    so lanes N..3 hold whatever was in memory. That content is the explicit
    `junk` argument here: every property below either holds for all junk or
    is shown to fail for some. */
module VectorExtensions {
  import opened Lanes
  import opened Results
  import opened VectorTypes

  /** AsVector128Unsafe(Int2) / AsVector256Unsafe(Double2). */
  function AsRegisterUnsafe2<T>(v: Vec2<T>, junk: Register<T>): (r: Register<T>)
    ensures r.e2 == junk.e2 && r.e3 == junk.e3
  {
    Register(v.X, v.Y, junk.e2, junk.e3)
  }

  /** AsVector128Unsafe(Int3) / AsVector256Unsafe(Double3). */
  function AsRegisterUnsafe3<T>(v: Vec3<T>, junk: Register<T>): (r: Register<T>)
    ensures r.e3 == junk.e3
  {
    Register(v.X, v.Y, v.Z, junk.e3)
  }

  /** AsVector128(Int4) / AsVector256(Double4): an exact bit cast. */
  function AsRegister4<T>(v: Vec4<T>): (r: Register<T>)
    ensures forall i :: 0 <= i < 4 ==> r.Lane(i) == v.At(i)
  {
    Register(v.X, v.Y, v.Z, v.W)
  }

  /** AsInt2 / AsDouble2: the first two lanes. */
  function AsVec2<T>(r: Register<T>): (v: Vec2<T>)
    ensures forall i :: 0 <= i < 2 ==> v.At(i) == r.Lane(i)
  {
    Vec2(r.e0, r.e1)
  }

  /** AsInt3 / AsDouble3: the first three lanes. */
  function AsVec3<T>(r: Register<T>): (v: Vec3<T>)
    ensures forall i :: 0 <= i < 3 ==> v.At(i) == r.Lane(i)
  {
    Vec3(r.e0, r.e1, r.e2)
  }

  /** AsInt4 / AsDouble4: an exact bit cast. */
  function AsVec4<T>(r: Register<T>): (v: Vec4<T>)
    ensures forall i :: 0 <= i < 4 ==> v.At(i) == r.Lane(i)
  {
    Vec4(r.e0, r.e1, r.e2, r.e3)
  }

  /** The checked promotion of a 2-component vector as it is meant to be:
      the components in lanes 0-1 and `zero` in lanes 2-3. */
  function AsRegister2<T>(v: Vec2<T>, zero: T): (r: Register<T>)
    ensures AsVec2(r) == v
    ensures r.e2 == zero && r.e3 == zero
  {
    Register(v.X, v.Y, zero, zero)
  }

  /** The checked promotion of a 3-component vector as it is meant to be. */
  function AsRegister3<T>(v: Vec3<T>, zero: T): (r: Register<T>)
    ensures AsVec3(r) == v
    ensures r.e3 == zero
  {
    Register(v.X, v.Y, v.Z, zero)
  }

  /** Demoting an unchecked promotion gives back the vector, whatever the
      padding held. */
  lemma RoundTrip2<T>(v: Vec2<T>, junk: Register<T>)
    ensures AsVec2(AsRegisterUnsafe2(v, junk)) == v
    ensures forall i :: 0 <= i < 2 ==> AsRegisterUnsafe2(v, junk).Lane(i) == v.At(i)
  {
  }

  lemma RoundTrip3<T>(v: Vec3<T>, junk: Register<T>)
    ensures AsVec3(AsRegisterUnsafe3(v, junk)) == v
    ensures forall i :: 0 <= i < 3 ==> AsRegisterUnsafe3(v, junk).Lane(i) == v.At(i)
  {
  }

  /** The 4-component casts are inverse bijections that map component i to
      lane i. */
  lemma Exact4<T>(v: Vec4<T>, r: Register<T>)
    ensures AsVec4(AsRegister4(v)) == v
    ensures AsRegister4(AsVec4(r)) == r
    ensures forall i :: 0 <= i < 4 ==> AsRegister4(v).Lane(i) == v.At(i)
  {
  }

  /** Demotion reads only the low lanes: registers that agree there demote
      to the same vector. */
  lemma DemoteReadsLowLanes<T>(a: Register<T>, b: Register<T>)
    ensures (a.e0 == b.e0 && a.e1 == b.e1) <==> AsVec2(a) == AsVec2(b)
    ensures (a.e0 == b.e0 && a.e1 == b.e1 && a.e2 == b.e2) <==> AsVec3(a) == AsVec3(b)
  {
  }

  /** Any lane-wise operation on unchecked promotions, demoted back, is the
      component-wise operation: the padding never reaches the result. */
  lemma LaneWise2<T>(f: T -> T, g: (T, T) -> T, h: (T, T, T) -> T,
                     a: Vec2<T>, b: Vec2<T>, c: Vec2<T>, ja: Register<T>, jb: Register<T>, jc: Register<T>)
    ensures AsVec2(Map1(f, AsRegisterUnsafe2(a, ja))) == Vec2(f(a.X), f(a.Y))
    ensures AsVec2(Map2(g, AsRegisterUnsafe2(a, ja), AsRegisterUnsafe2(b, jb))) == Vec2(g(a.X, b.X), g(a.Y, b.Y))
    ensures AsVec2(Map3(h, AsRegisterUnsafe2(a, ja), AsRegisterUnsafe2(b, jb), AsRegisterUnsafe2(c, jc)))
            == Vec2(h(a.X, b.X, c.X), h(a.Y, b.Y, c.Y))
  {
  }

  lemma LaneWise3<T>(f: T -> T, g: (T, T) -> T, h: (T, T, T) -> T,
                     a: Vec3<T>, b: Vec3<T>, c: Vec3<T>, ja: Register<T>, jb: Register<T>, jc: Register<T>)
    ensures AsVec3(Map1(f, AsRegisterUnsafe3(a, ja))) == Vec3(f(a.X), f(a.Y), f(a.Z))
    ensures AsVec3(Map2(g, AsRegisterUnsafe3(a, ja), AsRegisterUnsafe3(b, jb))) == Vec3(g(a.X, b.X), g(a.Y, b.Y), g(a.Z, b.Z))
    ensures AsVec3(Map3(h, AsRegisterUnsafe3(a, ja), AsRegisterUnsafe3(b, jb), AsRegisterUnsafe3(c, jc)))
            == Vec3(h(a.X, b.X, c.X), h(a.Y, b.Y, c.Y), h(a.Z, b.Z, c.Z))
  {
  }

  // The checked promotion of Int2 and Int3 as written. AsVector128(Int2) is
  // Int4.Create(value, 0, 0).AsVector128(), and Int4.Create(Int2, z, w) begins
  // with AsVector128() of the same Int2; Int3 is the same with Create(value, 0).
  // `depth` is how many more nested calls the stack can take.

  /** AsVector128(Int2) as written. Were it ever to return, it would
      return the zero-padded promotion. */
  function AsVector128Int2AsWritten(v: Int2, depth: nat): (r: Result<Register<int32>>)
    ensures r.Ok? ==> r.value == AsRegister2(v, 0)
    ensures r.Err? ==> r.error == StackOverflow
    decreases depth
  {
    if depth == 0 then Err(StackOverflow)
    else
      var q := Int4CreateFromInt2AsWritten(v, 0, 0, depth - 1);
      if q.Err? then Err(q.error) else Ok(AsRegister4(q.value))
  }

  /** Int4.Create(Int2, z, w) as written. Were it ever to return, it would
      return (X, Y, z, w). */
  function Int4CreateFromInt2AsWritten(v: Int2, z: int32, w: int32, depth: nat): (r: Result<Int4>)
    ensures r.Ok? ==> r.value == Vec4(v.X, v.Y, z, w)
    ensures r.Err? ==> r.error == StackOverflow
    decreases depth
  {
    if depth == 0 then Err(StackOverflow)
    else
      var r := AsVector128Int2AsWritten(v, depth - 1);
      if r.Err? then Err(r.error) else Ok(AsVec4(r.value.WithLane(2, z).WithLane(3, w)))
  }

  /** AsVector128(Int3) as written. Were it ever to return, it would
      return the zero-padded promotion. */
  function AsVector128Int3AsWritten(v: Int3, depth: nat): (r: Result<Register<int32>>)
    ensures r.Ok? ==> r.value == AsRegister3(v, 0)
    ensures r.Err? ==> r.error == StackOverflow
    decreases depth
  {
    if depth == 0 then Err(StackOverflow)
    else
      var q := Int4CreateFromInt3AsWritten(v, 0, depth - 1);
      if q.Err? then Err(q.error) else Ok(AsRegister4(q.value))
  }

  /** Int4.Create(Int3, w) as written. Were it ever to return, it would
      return (X, Y, Z, w). */
  function Int4CreateFromInt3AsWritten(v: Int3, w: int32, depth: nat): (r: Result<Int4>)
    ensures r.Ok? ==> r.value == Vec4(v.X, v.Y, v.Z, w)
    ensures r.Err? ==> r.error == StackOverflow
    decreases depth
  {
    if depth == 0 then Err(StackOverflow)
    else
      var r := AsVector128Int3AsWritten(v, depth - 1);
      if r.Err? then Err(r.error) else Ok(AsVec4(r.value.WithLane(3, w)))
  }

  /** However deep the stack, the checked promotion of an Int2 and
      Int4.Create(Int2, z, w) never produce a value: each only calls the
      other, so every evaluation ends in stack overflow. */
  lemma {:induction false} CheckedPromotion2NeverReturns(v: Int2, z: int32, w: int32, depth: nat)
    ensures AsVector128Int2AsWritten(v, depth) == Err(StackOverflow)
    ensures Int4CreateFromInt2AsWritten(v, z, w, depth) == Err(StackOverflow)
    decreases depth
  {
    if depth > 0 {
      CheckedPromotion2NeverReturns(v, 0, 0, depth - 1);
      CheckedPromotion2NeverReturns(v, z, w, depth - 1);
    }
  }

  /** The same for Int3 and Int4.Create(Int3, w). */
  lemma {:induction false} CheckedPromotion3NeverReturns(v: Int3, w: int32, depth: nat)
    ensures AsVector128Int3AsWritten(v, depth) == Err(StackOverflow)
    ensures Int4CreateFromInt3AsWritten(v, w, depth) == Err(StackOverflow)
    decreases depth
  {
    if depth > 0 {
      CheckedPromotion3NeverReturns(v, 0, depth - 1);
      CheckedPromotion3NeverReturns(v, w, depth - 1);
    }
  }
}
